=== FILE: README.md ===
# BlueLib in Dafny

BlueLib is a small Bluetooth Low Energy GATT client library in C, built on
BlueZ. This project models its sequential decision logic as pure Dafny
functions over one immutable `DeviceContext` record, and proves properties
of that model:

- the initialisation and connection gates every operation passes first;
- the MAC address check (and its round trip with a formatter);
- handle-range resolution and the descriptor-range computation in 16-bit
  arithmetic;
- the "unique result" wrappers and the UUID and handle stamping of results;
- the write argument checks;
- the MTU and security-level preconditions;
- the bounded wait for a completion callback (`wait_for_cb`);
- every completion callback as a function from an already decoded response
  to (return code, payload, new state);
- descriptor discovery with pagination, against a simulated attribute
  table, proved equal to a one-shot reference;
- notification subscription, with the registry as a map from UUID to
  (opcode, value handle);
- the attribute record constructors and copies, and the connection-state
  getter and setter.

Bluetooth constants follow the Bluetooth Core Specification v4.0:

- handle 0x0000 is reserved (Vol 3 Part F, section 3.2.2);
- the default LE ATT_MTU is 23 (Vol 3 Part G, section 5.2.1);
- the Client Characteristic Configuration values are 0x0001 (notify) and
  0x0002 (indicate), written little-endian (Vol 3 Part G, section 3.3.3.3).

Files and modules (one module per file):

| file | module | what |
|---|---|---|
| defs.dfy | BlDefs | widths, error codes, constants, `Option`/`Result`, 16-bit increment and decrement |
| att.dfy | Att | little-endian u16, hex digits, UUID strings as BlueZ prints them |
| gatt.dfy | Gatt | `bl_primary_t` … `bl_value_t` records, `bl_*_new`, `bl_*_cpy` |
| conn_state.dfy | ConnState | `DeviceContext`, `set_conn_state`, `get_conn_state` |
| callback.dfy | Callback | completion record, `wait_for_cb`, the completion callbacks |
| char_desc.dfy | CharDesc | `char_desc_cb`, the simulated Find Information server, pagination |
| bluelib.dfy | BlueLib | gates, the shared request/wait shape, ranges, MAC check, `find_desc`, unique wrapper |
| discovery.dfy | Discovery | primary, included, characteristic and descriptor discovery |
| access.dfy | Access | reads and writes |
| connection.dfy | Connection | init, connect, disconnect, security level, MTU |
| notif.dfy | Notif | notification subscription and removal |
| as_written.dfy | AsWritten | the findings below, as the source has them |

How a request is modelled:

- Everything BlueZ would do is an input. That covers a request being
  accepted (`Link.accepts`), the decoded response (a status byte plus
  decoded records) and allocation success (`memOk`).
- The event loop is an observation sequence `polls: nat -> Poll` of
  (loop running, callback signalled).
- `Link.early` says whether the callback fired before the wait started.
- `Outcome(err, value, dev, sent)` is the result of one API call:
  - `err` is the returned error code;
  - `value` is the returned object or list (empty or `None` for NULL);
  - `dev` is the device context afterwards;
  - `sent` says whether a request went out.

The source files come from two revisions. `src/bluelib.c` uses globals,
while `src/callback.c` and `src/conn_state.c` take context pointers. The
model uses one `DeviceContext` and one completion record (`CbCtx`) for both.

## Model

| member | source | states |
|---|---|---|
| BlDefs.Inc16 | src/bluelib.c:523 | `handle + 1` in uint16: successor below 0xFFFF, wraps to 0 at 0xFFFF |
| BlDefs.Dec16 | src/bluelib.c:532 | `handle - 1` in uint16: predecessor above 0, wraps to 0xFFFF at 0 |
| Att.LeU16RoundTrip | src/callback.c:622-623 | the little-endian u16 reader and writer are inverse on values and on 2-byte strings |
| Att.HexDigitInverse | src/callback.c:500 | a hex digit parses back to its value |
| Att.Uuid16StringRoundTrip | src/callback.c:495-500 | the 4-digit lowercase UUID string parses back to the 16-bit UUID |
| Att.DeclarationIsNumericRange | src/callback.c:501-504 | a 16-bit UUID string is one of the four declaration strings iff the UUID is 0x2800..0x2803 |
| Att.LongUuidIsNoDeclaration | src/callback.c:497-504 | no 128-bit UUID string equals a declaration string |
| Gatt.PrimaryNew | src/bluelib_gatt.c:33-50 | NULL exactly on allocation failure; UUID copied (empty for NULL), changed flag and handles verbatim |
| Gatt.IncludedNew | src/bluelib_gatt.c:52-69 | NULL exactly on allocation failure; UUID or empty, handle and range verbatim |
| Gatt.CharNew | src/bluelib_gatt.c:71-87 | NULL exactly on allocation failure; UUID or empty, handle, properties, value handle verbatim |
| Gatt.DescNew | src/bluelib_gatt.c:89-101 | NULL exactly on allocation failure; UUID or empty, handle verbatim |
| Gatt.ValueNew | src/bluelib_gatt.c:103-121 | NULL exactly on allocation failure; data has `data_size` bytes equal to the first `data_size` input bytes |
| Gatt.PrimaryCpy | src/bluelib_gatt.c:126-133 | NULL for NULL or failed allocation, otherwise an equal record |
| Gatt.IncludedCpy | src/bluelib_gatt.c:135-142 | NULL for NULL or failed allocation, otherwise an equal record |
| Gatt.CharCpy | src/bluelib_gatt.c:144-151 | NULL for NULL or failed allocation, otherwise an equal record |
| Gatt.DescCpy | src/bluelib_gatt.c:153-159 | NULL for NULL or failed allocation, otherwise an equal record |
| Gatt.ValueCpy | src/bluelib_gatt.c:161-168 | NULL for NULL or failed allocation, otherwise an equal record with the same payload |
| ConnState.SetConnState | src/conn_state.c:30-34 | sets the state and changes no other field |
| ConnState.GetAfterSet | src/conn_state.c:30-39 | reading after setting s gives s |
| ConnState.SetIdempotent | src/conn_state.c:30-34 | setting the same state twice is setting it once |
| ConnState.SetCurrentIsNoOp | src/conn_state.c:36-39 | setting the state just read changes nothing |
| Callback.InitCbCtx | src/callback.c:74-83 | a fresh completion is unsignalled, with end handle 0, BL_NO_ERROR and no payload |
| Callback.Reset | src/callback.c:89-92 | before waiting, the code becomes BL_NO_CALLBACK_ERROR and the payload NULL |
| Callback.Abort | src/callback.c:102-107 | a failed wait returns the code, no payload, raises the code, and the state becomes DISCONNECTED |
| Callback.Finish | src/callback.c:113-135 | loop stopped: BL_DISCONNECTED_ERROR and DISCONNECTED; else exactly the stored code and payload, raised iff nonzero |
| Callback.PollFrom | src/callback.c:95-109 | the poll loop exits at the first probe where the loop stopped or the callback fired, or times out iff none does up to 1201 probes |
| Callback.WaitForCb | src/callback.c:86-136 | the result is the early callback's, the fired callback's, or an error with no payload; the device afterwards is the one before or the one the callback left, possibly set DISCONNECTED; raised iff nonzero |
| Callback.AnsweredAtProbe | src/callback.c:86-136 | a callback answered at probe k while the loop keeps running yields exactly that callback's code, payload and state |
| Callback.WaitReadsAnswerOnly | src/callback.c:86-136 | a wait that starts before the callback resets the code and payload first, so the earlier request's leftovers and the end handle never reach its result: only the device and the callback's code, payload and state do |
| Callback.LoopStoppedDisconnects | src/callback.c:113-119 | if the loop stops while waiting, the wait returns BL_DISCONNECTED_ERROR, no payload, DISCONNECTED |
| Callback.ConnectCb | src/callback.c:212-231 | an error gives BL_REQUEST_FAIL_ERROR and DISCONNECTED; success gives CONNECTED with a transport |
| Callback.ListCb | src/callback.c:233-461 | shared shape of the list callbacks: status gives BL_REQUEST_FAIL_ERROR, a failed allocation BL_MALLOC_ERROR, else BL_NO_ERROR with the built list |
| Callback.FromGattPrimaries | src/callback.c:255-258 | one record per service, in order, UUID, changed flag and range copied |
| Callback.FromRanges | src/callback.c:315-318 | one record per range, in order, with the range copied and no UUID |
| Callback.FromGattIncludes | src/callback.c:371-374 | one record per include, in order, fields copied |
| Callback.FromGattChars | src/callback.c:422-426 | one record per characteristic, in order, fields copied |
| Callback.PrimaryAllCb | src/callback.c:233-293 | status, empty result, allocation failure and success cases of primary_all_cb, with the exact list |
| Callback.PrimaryByUuidCb | src/callback.c:295-349 | the same cases for primary_by_uuid_cb |
| Callback.IncludedCb | src/callback.c:351-405 | the same cases for included_cb |
| Callback.CharByUuidCb | src/callback.c:407-461 | the same cases for char_by_uuid_cb; an empty result is an empty list |
| Callback.ReadByHndCb | src/callback.c:554-597 | status gives BL_REQUEST_FAIL_ERROR, an undecodable response BL_PROTOCOL_ERROR, allocation failure BL_MALLOC_ERROR, else the decoded bytes |
| Callback.RecordValue | src/callback.c:622-623 | a record becomes a value whose handle is its first two bytes little-endian and whose data is the rest |
| Callback.RecordValues | src/callback.c:621-647 | one value per record, in order |
| Callback.ReadByUuidCb | src/callback.c:599-656 | status, nothing decoded (BL_NO_ERROR, no list), allocation failure and success cases of read_by_uuid_cb |
| Callback.WriteReqCb | src/callback.c:658-682 | status gives BL_REQUEST_FAIL_ERROR; BL_NO_ERROR iff the response is a write or execute-write response, else BL_PROTOCOL_ERROR |
| Callback.NegotiatedMtu | src/callback.c:705 | the MTU used is the smaller of the server's and the requested one |
| Callback.ExchangeMtuCb | src/callback.c:684-718 | status, undecodable and framer-refused cases; success sets the transport MTU to the minimum |
| CharDesc.DecodeAll | src/callback.c:489-500 | one descriptor per entry, in order |
| CharDesc.UntilDeclaration | src/callback.c:501-527 | the longest declaration-free prefix; it stops just before the first declaration |
| CharDesc.UntilDeclarationAppend | src/callback.c:489-528 | accumulating over two responses equals accumulating over their concatenation, unless the first holds a declaration |
| CharDesc.ScanEntries | src/callback.c:489-528 | with room for the whole declaration-free prefix the loop appends exactly that prefix and stops at a declaration iff there is one; with room for only n entries it keeps the first n and stops with BL_MALLOC_ERROR; the last handle read is kept |
| CharDesc.DescExit | src/callback.c:540-547 | a non-empty accumulator is returned with BL_NO_ERROR whatever the code; otherwise the code stands |
| CharDesc.DescResponse | src/callback.c:464-552 | only a sent continuation keeps the mutex; it asks for [last + 1, end_handle_cb] and only when last < end_handle_cb |
| CharDesc.DescResponseOnError | src/callback.c:475-480 | a failed response ends with BL_REQUEST_FAIL_ERROR unless something was accumulated |
| CharDesc.DescResponseContinues | src/callback.c:529-538 | a continuation is sent iff the status is 0, the response is non-empty, declaration-free and fits in memory, its last handle is below 0xFFFF and end_handle_cb, and the request goes out; it then carries everything accumulated |
| CharDesc.DescResponseOutOfMemory | src/callback.c:505-519 | an allocation failing at entry n ends the response with the entries before it: BL_NO_ERROR with them when anything was accumulated, else BL_MALLOC_ERROR |
| CharDesc.DescResponseNoDeclaration | src/callback.c:501-504 | no declaration ever enters the accumulator |
| CharDesc.CharDescCb | src/callback.c:464-552 | the callback on a decoded Find Information response |
| CharDesc.DecodeEncodeEntry | src/callback.c:492-500 | a Find Information entry decodes back to the attribute's handle and UUID string, by format byte |
| CharDesc.DecodeEncodeAll | src/callback.c:482-500 | a whole response decodes to the attributes' descriptors, in order |
| CharDesc.FindInfoServer | src/callback.c:529-533 | the server answers with a non-empty run of one format from the range, or an error when the range is empty |
| CharDesc.RoundTripMatchesReference | src/callback.c:464-552 | one request and callback keep the final result equal to the one-shot reference |
| CharDesc.ReferenceIsGood | src/callback.c:489-528 | the reference result is sorted by handle, inside the range and declaration-free |
| CharDesc.DiscoverDescs | src/callback.c:529-547 | the pagination loop ends with exactly the reference result; a start handle of 0 fails the request |
| BlueLib.Gate | src/bluelib.c:132-174 | BL_NOT_INIT_ERROR when uninitialised, else BL_DISCONNECTED_ERROR unless connected with the event loop running |
| BlueLib.AwaitAnswered | src/callback.c:86-136 | a request whose callback fires while the loop runs returns that callback's result |
| BlueLib.AwaitSilent | src/callback.c:95-109 | a request nobody answers times out with BL_NO_CALLBACK_ERROR and DISCONNECTED |
| BlueLib.ResolveRange | src/bluelib.c:101-130 | default [0x0001, 0xFFFF] or the primary's range; BL_HANDLE_ORDER_ERROR when start > end, EINVAL when a handle is 0 |
| BlueLib.DescRange | src/bluelib.c:522-546 | missing start gives BL_MISSING_ARGUMENT_ERROR; the range is (start+1, end-1 or 0xFFFF, capped at the primary end) in uint16; start > end gives BL_HANDLE_ORDER_ERROR |
| BlueLib.DescRangeBetween | src/bluelib.c:522-546 | without wrap-around the range is exactly between the two characteristics |
| BlueLib.DescRangeWraps | src/bluelib.c:523 | a start characteristic at 0xFFFF wraps to start handle 0 |
| BlueLib.CheckMac | src/bluelib.c:230-242 | accepts iff hex digits (either case) at i%3<2, ':' at i%3==2 for i < 17, and NUL at 17 |
| BlueLib.ValidMacLength | src/bluelib.c:230-242 | a NUL-free accepted string has exactly 17 characters |
| BlueLib.FormatMacIsValid | src/bluelib.c:230-242 | every formatted 6-byte address passes the check |
| BlueLib.ParseFormatMac | src/bluelib.c:230-242 | parsing a formatted address gives the bytes back |
| BlueLib.FormatParseMac | src/bluelib.c:230-242 | formatting a parsed address gives it back in lower case |
| BlueLib.Lowcase | src/bluelib.c:576-587 | same length; 'A'..'F' lowered, every other character kept |
| BlueLib.LowcaseIdempotent | src/bluelib.c:576-587 | lowering twice is lowering once |
| BlueLib.LowcaseKeeps | src/bluelib.c:576-587 | a string without 'A'..'F' is unchanged |
| BlueLib.UuidStringsAreLowcase | src/callback.c:500 | the UUID strings descriptors carry are already lower case |
| BlueLib.LastMatch | src/bluelib.c:599-605 | the last index whose UUID matches, or none |
| BlueLib.FindDesc | src/bluelib.c:590-610 | returns a copy of the last descriptor whose UUID equals the lowered query, iff one exists and the copy succeeds |
| BlueLib.Unique | src/bluelib.c:367-388 | errors propagate; more than one result gives BL_UNICITY_ERROR; exactly one gives a copy; zero gives none |
| BlueLib.Stamp | src/bluelib.c:356-360 | every record of the list, in order, gets the searched UUID and nothing else (the same loop stamps values at src/bluelib.c:716-721) |
| Discovery.GetAllPrimary | src/bluelib.c:330-363 | gate first; sent iff accepted; the list returned is empty or exactly the services found (stamped with the UUID for a filtered search); results only with success |
| Discovery.GetAllPrimaryAnswered | src/bluelib.c:330-363 | an answered search returns the callback's code and the exact, stamped list |
| Discovery.GetAllPrimarySilent | src/bluelib.c:330-363 | an unanswered search times out and disconnects |
| Discovery.GetPrimary | src/bluelib.c:367-388 | the unique-result wrapper over the search |
| Discovery.GetPrimaryFound | src/bluelib.c:367-388 | one range found gives that primary, with the UUID |
| Discovery.GetPrimaryNotUnique | src/bluelib.c:375-381 | two ranges give BL_UNICITY_ERROR and nothing |
| Discovery.GetIncluded | src/bluelib.c:401-427 | gate, then range resolution, then the request; the list returned is empty or exactly the includes found |
| Discovery.GetIncludedAnswered | src/bluelib.c:401-427 | an answered request returns the callback's code and list |
| Discovery.GetAllChar | src/bluelib.c:433-468 | gate, then range resolution, then the request; the list returned is empty or exactly the characteristics found |
| Discovery.GetAllCharAnswered | src/bluelib.c:433-468 | an answered request returns the callback's code and list |
| Discovery.GetChar | src/bluelib.c:472-494 | the unique-result wrapper over the characteristic search |
| Discovery.GetAllDescByChar | src/bluelib.c:511-557 | gate, range computation, then the descriptors of the range up to the first declaration, in handle order; answered, BL_NO_ERROR iff something was found, else BL_REQUEST_FAIL_ERROR for an empty range and BL_NO_CALLBACK_ERROR otherwise |
| Discovery.AwaitDescs | src/bluelib.c:547-556 | the request once the range is known: a list only with success, never a declaration; answered with every continuation going through, exactly the range's descriptors up to the first declaration, with the code that goes with it |
| Discovery.PickDesc | src/bluelib.c:624-628 | the discovery's code is passed through unchanged; an error or an empty list gives nothing, otherwise a copy of the last descriptor whose UUID is the lowered query, iff there is one and the copy succeeds |
| Discovery.GetDescByChar | src/bluelib.c:616-628 | the refusals of the discovery; answered, the last descriptor of the characteristic with the lowered query UUID iff present and copied, under the discovery's code (BL_NO_ERROR iff some descriptor precedes the next declaration) |
| Access.ReadByHnd | src/bluelib.c:649-678 | gate, handle 0 gives EINVAL, then the request; a value comes only with success and is exactly the decoded bytes with the handle read |
| Access.ReadByHndAnswered | src/bluelib.c:649-678 | an answered read returns the exact code and the value with the handle |
| Access.ReadByHndSilent | src/bluelib.c:649-678 | an unanswered read times out and disconnects |
| Access.ReadCharAll | src/bluelib.c:682-724 | a missing UUID is refused; range resolution; a refused request is BL_SEND_REQUEST_ERROR with nothing sent; the list returned is empty or exactly one value per decoded record, stamped with the UUID |
| Access.ReadCharAllAnswered | src/bluelib.c:682-724 | answered: a failed status is BL_REQUEST_FAIL_ERROR and a failed allocation BL_MALLOC_ERROR, both with nothing; nothing decoded is BL_NO_ERROR with nothing; otherwise one value per record, in order, with the record's handle, remaining bytes and the UUID |
| Access.ReadChar | src/bluelib.c:727-748 | the unique-result wrapper over the read by UUID |
| Access.ReadCharByChar | src/bluelib.c:783-794 | the read of the value handle, carrying the characteristic's UUID |
| Access.WriteByHnd | src/bluelib.c:857-895 | handle 0, size 0 or NULL data give EINVAL before sending; a command returns BL_NO_ERROR without waiting |
| Access.WriteByHndAnswered | src/bluelib.c:857-895 | an answered write request returns the write response's verdict |
| Access.WriteDescByDesc | src/bluelib.c:961-964 | a write request to the descriptor's handle, with the same argument checks |
| Connection.SecLevelOf | src/bluelib.c:194-199 | 2 is high, 1 is medium, anything else low |
| Connection.Init | src/bluelib.c:184-206 | the options are stored; a failed allocation returns -1 and leaves the library uninitialised |
| Connection.Connect | src/bluelib.c:211-301 | refusals leave the state untouched; otherwise CONNECTING, the "public" default, DISCONNECTED on every later failure |
| Connection.ConnectWait | src/bluelib.c:281-294 | the wait for connect_cb: address kept; a failure stops the loop and disconnects; otherwise the user callback's result or BL_NO_ERROR |
| Connection.ConnectAnswered | src/bluelib.c:211-301 | an answered connection ends CONNECTED with the user callback's result |
| Connection.DisconnectIo | src/bluelib.c:60-74 | no-op when disconnected; else the transport and MTU are dropped and the state is DISCONNECTED |
| Connection.DisconnectIoIdempotent | src/bluelib.c:60-74 | disconnecting twice is disconnecting once |
| Connection.Disconnect | src/bluelib.c:304-315 | always BL_NO_ERROR once initialised; disconnected with the loop stopped |
| Connection.ReconnectAfterDisconnect | src/bluelib.c:211-315 | after a disconnect, a valid address is connected to again |
| Connection.InitThenConnect | src/bluelib.c:184-236 | after a successful bl_init the library no longer reports BL_NOT_INIT_ERROR, and a valid address is connected to with the stored PSM and security level |
| Connection.ChangeSecLevel | src/bluelib.c:986-1025 | the level is stored; with a PSM the result is BL_RECONNECTION_NEEDED_ERROR and nothing is sent |
| Connection.SecLevelSurvivesReconnect | src/bluelib.c:986-1025 | with a PSM the stored level asks for a reconnection and is kept through bl_disconnect and the next bl_connect |
| Connection.ChangeMtu | src/bluelib.c:1029-1061 | BL_LE_ONLY_ERROR, then BL_MTU_ALREADY_EXCHANGED_ERROR, then EINVAL below 23, all before sending |
| Connection.ChangeMtuAnswered | src/bluelib.c:1029-1061 | an answered exchange sets the transport MTU to the smaller of the two |
| Connection.ChangeMtuOnce | src/bluelib.c:1042-1046 | after an exchange on a live link, a second one is refused |
| Connection.ChangeMtuRetry | src/bluelib.c:1036-1055 | after a refused value, a valid one is sent |
| Notif.CccdValue | src/notif.c:88-92 | two little-endian bytes: 2 for indication, 1 for notification |
| Notif.CccdValues | src/notif.c:88-92 | the two values are [2, 0] and [1, 0] |
| Notif.AddNotifByChar | src/notif.c:62-118 | missing or incapable characteristic refused before any write; a failed descriptor lookup returns its own code; a missing descriptor or a refused write the capability error; a failed registration BL_MALLOC_ERROR; a write recorded iff sent, with the enable value; registration only on success |
| Notif.AddNotifByCharLookup | src/notif.c:62-118 | with the 2902 lookup done by Discovery.GetDescByChar: whatever is written is the enable value and a failure leaves the handlers alone; capability refused before the lookup; a refused lookup's code with nothing written; after an answered lookup, a write is made iff a 2902 descriptor was found and the write went out, and it carries the enable value to the last such descriptor; BL_NO_ERROR iff found, written and registered; BL_MALLOC_ERROR iff only the registration failed; the capability error iff descriptors were found but none is 2902, or the write failed; the discovery's own code iff it found no descriptor; the handler registered exactly on success |
| Notif.AddNotifByCharSucceeds | src/notif.c:62-118 | a capable characteristic with its CCCD written is registered under its UUID with the opcode and value handle |
| Notif.AddNotif | src/notif.c:36-57 | lookup errors propagate; the old registration for the UUID is removed first |
| Notif.AddNotifReplaces | src/notif.c:42-53 | subscribing again leaves one registration per UUID, the new one |
| Notif.RemoveNotif | src/notif.c:127-134 | BL_DISCONNECTED_ERROR without a transport; else the UUID is unregistered and the others kept |
| Notif.RemoveNotifByChar | src/notif.c:137-146 | removes exactly the registrations of the characteristic's value handle |
| Notif.RemoveAllNotif | src/notif.c:149-156 | the registry becomes empty |
| Notif.RemoveAllNotifIdempotent | src/notif.c:149-156 | a second removal changes nothing |
| Notif.SubscribeThenRemove | src/notif.c:62-146 | subscribing and then removing by characteristic leaves no registration for its UUID |
| AsWritten.ConnectEarlyExit | src/bluelib.c:218-229 | as written, the result differs from the corrected one only for an initialised library refused for being connected or for a missing address; with no user callback such a refusal reports success or EINVAL |
| AsWritten.ConnectTwiceReportsSuccess | src/bluelib.c:218-222 | connecting while connected reports success; the corrected model reports BL_ALREADY_CONNECTED_ERROR |
| AsWritten.HandleAssert | src/bluelib.c:115-127 | as written, a range is accepted only if it is the resolved one (or one the corrected check refuses); a refusal is always BL_HANDLE_ORDER_ERROR |
| AsWritten.HandleAssertIgnoresHandles | src/bluelib.c:115-127 | the verdict does not depend on the handles: any two primaries are accepted or refused alike |
| AsWritten.HandleAssertLetsBadRangesThrough | src/bluelib.c:115-127 | a reversed range and a range starting at 0 are accepted |
| AsWritten.HandleAssertRefusesGoodRange | src/bluelib.c:115 | the default range can be refused |
| AsWritten.FindDescAsWritten | src/bluelib.c:597-605 | as written, found iff the copy succeeds and some UUID equals the query as given; the result is the last such descriptor; for a lower-case query it agrees with the corrected lookup |
| AsWritten.UpperCaseQueryMisses | src/bluelib.c:597-605 | "2A05" misses the descriptor "2a05" |
| AsWritten.ChangeMtuAsWritten | src/bluelib.c:1048-1055 | as written, the code and the request are those of the corrected call; the device differs only for a value refused with EINVAL, which stays stored as the MTU |
| AsWritten.RefusedMtuSticks | src/bluelib.c:1042-1055 | after any non-zero value below 23 is refused, every later exchange is refused with BL_MTU_ALREADY_EXCHANGED_ERROR and nothing is sent |
| AsWritten.RefusedMtuBlocksValidOne | src/bluelib.c:1042-1055 | after 10 is refused, 50 is refused as already exchanged |
| AsWritten.ReadByHndCbAsWritten | src/callback.c:582-588 | as written, a decoded response always reports BL_NO_ERROR; payload and state are the corrected ones, and the code differs exactly when the allocation failed |
| AsWritten.ReadSuccessCarriesValue | src/callback.c:575-588 | in the corrected callback, success always carries a value |
| AsWritten.ReadSuccessWithoutValue | src/callback.c:582-588 | a failed allocation is reported as a success with no value |
| AsWritten.StaleEndHandle | src/callback.c:80 | with end_handle_cb left at 0 no continuation is sent; with the range end it is |
| AsWritten.RemoveNotifByCharAsWritten | src/notif.c:142 | as written, the registrations dropped are exactly those whose value handle is the declaration handle; when the two handles differ, the characteristic's own registrations survive |
| AsWritten.RemoveByCharMisses | src/notif.c:137-146 | a characteristic declared at 10 with its value at 11 stays subscribed |
| AsWritten.WaitFirstClears | src/callback.c:86-92 | as written, when the wait starts before the callback a primary search gives the corrected result whatever the previous request left |
| AsWritten.CallbackFirstKeepsOldList | src/callback.c:86-92 | as written, when the callback answers first with a failure or "nothing found", the search returns the previous request's list |
| AsWritten.StaleListOnEarlyAnswer | src/callback.c:86-92 | after a search that found one primary, an early "nothing found" answer returns that primary again; the corrected search returns nothing |

## Left out

- The event-loop thread, the GMainLoop and the mutexes (`_event_thread`,
  `start_event_loop`, `stop_event_loop`). They are concurrency. The loop is
  the `loopRunning` field plus the observation sequence given to a wait.
- The BlueZ transport and codecs (`gatt_connect`, `gatt_discover_*`,
  `gatt_read_*`, `gatt_write_*`, `g_attrib_*`, `bt_io_set`, `dec_*_resp`).
  Their outcomes are parameters: request accepted, decoded response, framer
  MTU accepted, security level set.
- UUID parsing (`bt_string_to_uuid`). UUIDs are strings, formatted as
  BlueZ prints them in Att.
- GError messages, `cb_ret_msg` and all printing, including `bl_*_fprint`,
  `list_fprint` and `bl_notif_list_print`. Errors are integer codes.
- Raw memory: list frees, the NULL-data VLA check in `read_by_hnd_cb`, and
  the 1-byte buffer for the u16 write. Allocation failure is a boolean
  input.
- Memory faults in `bl_add_notif_by_char`. The `goto error` of the
  capability check (src/notif.c:71-76) jumps over the initialisation of
  `client_char_conf` (src/notif.c:79), and the `error` label then tests and
  frees that indeterminate pointer (src/notif.c:105-107). The
  BL_MALLOC_ERROR return after a failed registration (src/notif.c:95-99)
  does not free the descriptor, so it leaks. Memory is not modelled, so
  the model returns only the codes.
- `current_mac` and `bl_set_connect_cb`. The user connect callback is the
  `userCb` parameter of Connection.Connect.
- `bl_get_notif_uuid` and `bl_notif_indication_resp`. They are calls into
  BlueZ's handler list. A removal by characteristic is modelled as a
  removal by value handle.
- Compositions of modelled operations:
  - `bl_get_all_primary_device`, `bl_get_all_char_in_primary`,
    `bl_get_all_desc`, `bl_get_desc`;
  - `bl_read_char_blob`, `bl_read_char_all_blob`, `bl_read_desc`,
    `bl_read_all_desc`, `bl_read_desc_by_desc`, `bl_read_desc_by_char`;
  - `bl_write_char`, `bl_write_char_by_char`, `bl_write_desc`,
    `bl_write_desc_by_char`.
  They only chain a lookup with a read or write already modelled.
- The stray `;` in `if (bl_char_list->data);` of `bl_get_char`
  (src/bluelib.c:490). It makes the test empty, so `bl_char_cpy` always
  runs; that is harmless because `bl_char_cpy(NULL)` returns NULL
  (src/bluelib_gatt.c:144-151), which is what the model returns.
- The example programs. They are command-line demonstrations of the API.
- Connection.Connect: when `start_event_loop` fails, the source returns
  an uninitialised `ret`. The model returns the loop's error code instead.
- Connection.ChangeSecLevel: when `bt_io_set` fails, the source reads the
  freed GError's code and returns without unlocking. The model returns
  that code.
- Connection.ChangeMtu: the return value of `gatt_exchange_mtu` is
  ignored by the source as well. A request is always taken as sent.
- Connection.ChangeMtuOnce: holds only when the link was still up after
  the first exchange. After a timeout the state is already DISCONNECTED,
  `disconnect_io` returns early, and the requested MTU stays recorded.
- Connection.DisconnectIo: it also empties the notification registry,
  because dropping the transport (`g_attrib_unref`) drops the handlers
  registered on it.
- Notif.RemoveNotif: this BlueZ build keys its handlers by UUID string
  (`g_attrib_register` takes the UUID, `g_attrib_unregister` the same
  string), and the registry is a map from UUID, so a removal drops that
  UUID's entry.
- Notif.AddNotifByChar: a registration replaces any entry of the same
  UUID, where `g_attrib_register` adds a second handler. Through
  `bl_add_notif`, which unregisters the UUID first, the two agree; a
  direct second `bl_add_notif_by_char` for one UUID is not modelled.
- Discovery.GetAllDescByChar: the pagination's end bound is the computed
  range end rather than `end_handle_cb` (see Findings). The attribute
  table is a parameter, so the result is stated for that table.
- Discovery.GetIncluded: starts from a cleared completion record
  (BlueLib.Fresh). In the source, an early failure or "nothing found"
  hands back the previous request's list, as shown for
  Discovery.GetAllPrimary under Findings.
- Discovery.GetAllChar: starts from a cleared completion record; the same
  stale list can come back in the source on an early failure or "nothing
  found".
- Access.ReadByHnd: starts from a cleared completion record; in the
  source an early failure frees the previous request's value and still
  returns its pointer.
- Access.ReadCharAll: starts from a cleared completion record; in the
  source an early failure or empty decode returns the previous list.
- Discovery.AwaitDescs: starts from a cleared completion record; in the
  source an early empty accumulator returns the previous list.
- Discovery.GetAllDescByChar: starts from a cleared completion record,
  through Discovery.AwaitDescs.
- Discovery.GetAllDescByChar: `memOk` false means the first allocation of
  each response fails. A failure at a later entry is modelled by
  CharDesc.DescResponse and CharDesc.DescResponseOutOfMemory.

## Findings

| source | as written | input that shows it | evidently intended | confidence | as-written member | corrected member |
|---|---|---|---|---|---|---|
| src/bluelib.c:218-229 | the already-connected and NULL-address branches `goto exit`, which sets `ret = BL_NO_ERROR` | `bl_connect` on a connected device | return BL_ALREADY_CONNECTED_ERROR / EINVAL with the state untouched | high, not executed | AsWritten.ConnectTwiceReportsSuccess | Connection.Connect |
| src/bluelib.c:115-127 | `start_handle > end_handle` and `== INVALID_HANDLE` compare the pointers | a primary with range (9, 3), or (0, 3) | BL_HANDLE_ORDER_ERROR and EINVAL on the handle values | high, not executed | AsWritten.HandleAssertLetsBadRangesThrough | BlueLib.ResolveRange |
| src/bluelib.c:597-602 | the lowered copy is never used; `strcmp` gets the original query | query "2A05" against descriptor "2a05" | compare with the lowered query | high, not executed | AsWritten.UpperCaseQueryMisses | BlueLib.FindDesc |
| src/bluelib.c:1049-1050 | `opt_mtu = value` before the minimum check | `bl_change_mtu(10)` then `bl_change_mtu(50)` | a refused value is not recorded | high, not executed | AsWritten.RefusedMtuBlocksValidOne | Connection.ChangeMtuRetry |
| src/callback.c:582-588 | BL_MALLOC_ERROR is overwritten by BL_NO_ERROR | a decoded read response with a failed `bl_value_new` | report BL_MALLOC_ERROR | high, not executed | AsWritten.ReadSuccessWithoutValue | AsWritten.ReadSuccessCarriesValue |
| src/callback.c:80 | `end_handle_cb` starts at 0 and `bl_get_all_desc_by_char` never sets it; only `handle_assert` does (src/bluelib.c:107, 112), so after a `bl_get_all_char` or `bl_get_included` the bound is 0xFFFF or that primary's end, never the descriptor range's end | with no earlier range resolution in the session, a first response of one descriptor at handle 5 in the range up to 20 | continue up to the computed range end | medium, not executed | AsWritten.StaleEndHandle | Discovery.GetAllDescByChar |
| src/callback.c:88-92 | `cb_ret_pointer` is cleared only when the wait starts before the callback runs; `bluelib.c` never calls `init_cb_ctx` | `bl_get_all_primary` answered "nothing found" before the wait starts, after an earlier search returned a list | return NULL | medium, not executed | AsWritten.StaleListOnEarlyAnswer | Discovery.GetAllPrimary |
| src/notif.c:142 | the handler is looked up by `bl_char->handle` | a characteristic declared at 10 with its value at 11 | look up by the value handle it was registered with | medium, not executed | AsWritten.RemoveByCharMisses | Notif.SubscribeThenRemove |

=== FILE: access.dfy ===
/** Reading and writing attribute values (src/bluelib.c, "Read
    characteristic value" to "Write descriptor"). As in discovery, a
    request is modelled from the server's answer as BlueZ decodes it. */
module Access {
  import opened BlDefs
  import opened Gatt
  import opened ConnState
  import opened Callback
  import opened BlueLib
  import Att

  function ValueOf(p: Payload): Option<Value> { if p.One? then Some(p.value) else None }
  function ValueList(p: Payload): seq<Value> { if p.Values? then p.values else [] }

  // ---------------------------------------------------------------------
  // Reads
  // ---------------------------------------------------------------------

  /** read_by_hnd: read one attribute; the value returned carries the
      handle it was read from. `decoded` is the value dec_read_resp
      produced, None when the response did not decode. */
  function ReadByHnd(dev: DeviceContext, handle: Handle, link: Link, status: Byte,
                     decoded: Option<seq<Byte>>, memOk: bool): (r: Outcome<Option<Value>>)
    ensures Gate(dev).Some? ==> r == Outcome(Gate(dev).value, None, dev, false)
    ensures Gate(dev).None? && handle == InvalidHandle ==> r == Outcome(InvalidArgument, None, dev, false)
    ensures Gate(dev).None? && handle != InvalidHandle ==> (r.sent <==> link.accepts)
    ensures Gate(dev).None? && handle != InvalidHandle && !link.accepts ==>
      r == Outcome(SendRequestError, None, dev, false)
    // a value comes with success and is stamped with the handle read
    ensures r.value.Some? ==> r.err == NoError && r.value.value.handle == handle
    // and it is this read's answer, never an earlier request's value
    ensures r.value.Some? ==> decoded.Some? && r.value.value == Value("", handle, decoded.value)
    ensures r.dev == dev || r.dev == SetConnState(dev, Disconnected)
  {
    if Gate(dev).Some? then Outcome(Gate(dev).value, None, dev, false)
    else if handle == InvalidHandle then Outcome(InvalidArgument, None, dev, false)
    else if !link.accepts then Outcome(SendRequestError, None, dev, false)
    else
      var s := Fresh(dev, 0);
      var w := Await(s, ReadByHndCb(s, status, decoded, memOk), ReadByHndCb(Reset(s), status, decoded, memOk), link);
      var v := ValueOf(w.payload);
      Outcome(w.ret, if v.Some? then Some(v.value.(handle := handle)) else None, w.dev, true)
  }

  /** What an answered read makes of the server's answer. */
  lemma ReadByHndAnswered(dev: DeviceContext, handle: Handle, link: Link, status: Byte,
                          decoded: Option<seq<Byte>>, memOk: bool, k: nat)
    requires Gate(dev).None? && handle != InvalidHandle && link.accepts && AnsweredAt(link, k)
    ensures var r := ReadByHnd(dev, handle, link, status, decoded, memOk);
      && r.dev == dev && r.sent
      && r.err == (if status != 0 then RequestFailError else if decoded.None? then ProtocolError
                   else if !memOk then MallocError else NoError)
      && r.value == (if r.err == NoError then Some(Value("", handle, decoded.value)) else None)
  {
    var s := Fresh(dev, 0);
    AwaitAnswered(s, ReadByHndCb(s, status, decoded, memOk), ReadByHndCb(Reset(s), status, decoded, memOk), link, k);
  }

  /** A read nobody answers times out and leaves the device disconnected. */
  lemma ReadByHndSilent(dev: DeviceContext, handle: Handle, link: Link, status: Byte,
                        decoded: Option<seq<Byte>>, memOk: bool)
    requires Gate(dev).None? && handle != InvalidHandle && link.accepts && Silent(link)
    ensures ReadByHnd(dev, handle, link, status, decoded, memOk)
         == Outcome(NoCallbackError, None, SetConnState(dev, Disconnected), true)
  {
    var s := Fresh(dev, 0);
    AwaitSilent(s, ReadByHndCb(s, status, decoded, memOk), ReadByHndCb(Reset(s), status, decoded, memOk), link);
  }

  /** bl_read_char_all: read every attribute of that UUID in the range; each
      value carries the UUID. A missing UUID is refused before any request. */
  function ReadCharAll(dev: DeviceContext, uuid: Option<string>, primary: Option<Primary>, link: Link,
                       status: Byte, list: Option<AttDataList>, memOk: bool): (r: Outcome<seq<Value>>)
    ensures Gate(dev).Some? ==> r == Outcome(Gate(dev).value, [], dev, false)
    ensures Gate(dev).None? && uuid.None? ==> r == Outcome(SendRequestError, [], dev, false)
    ensures Gate(dev).None? && uuid.Some? && ResolveRange(primary).Fail? ==>
      r == Outcome(ResolveRange(primary).code, [], dev, false)
    ensures Gate(dev).None? && uuid.Some? && ResolveRange(primary).Ok? ==> (r.sent <==> link.accepts)
    ensures Gate(dev).None? && uuid.Some? && ResolveRange(primary).Ok? && !link.accepts ==>
      r == Outcome(SendRequestError, [], dev, false)
    ensures r.value != [] ==> r.err == NoError
    ensures uuid.Some? ==> forall i :: 0 <= i < |r.value| ==> r.value[i].uuid == uuid.value
    // the values handed back are this read's records or nothing
    ensures r.value == [] || (uuid.Some? && list.Some? && r.value == Stamp(RecordValues(list.value.records), uuid.value, ValueWithUuid))
    ensures r.dev == dev || r.dev == SetConnState(dev, Disconnected)
  {
    if Gate(dev).Some? then Outcome(Gate(dev).value, [], dev, false)
    else if uuid.None? then Outcome(SendRequestError, [], dev, false)
    else match ResolveRange(primary)
      case Fail(code) => Outcome(code, [], dev, false)
      case Ok(range) =>
        if !link.accepts then Outcome(SendRequestError, [], dev, false)
        else
          var s := Fresh(dev, range.end);
          var w := Await(s, ReadByUuidCb(s, status, list, memOk), ReadByUuidCb(Reset(s), status, list, memOk), link);
          Outcome(w.ret, Stamp(ValueList(w.payload), uuid.value, ValueWithUuid), w.dev, true)
  }

  /** An answered read by UUID: a failed status is BL_REQUEST_FAIL_ERROR,
      a failed allocation BL_MALLOC_ERROR, both with nothing; nothing
      decoded is BL_NO_ERROR with nothing; otherwise one value per record,
      in order, each with the record's handle, the bytes after it, and the
      UUID. */
  lemma ReadCharAllAnswered(dev: DeviceContext, u: string, primary: Option<Primary>, link: Link,
                            status: Byte, list: Option<AttDataList>, memOk: bool, k: nat)
    requires Gate(dev).None? && ResolveRange(primary).Ok? && link.accepts && AnsweredAt(link, k)
    ensures var r := ReadCharAll(dev, Some(u), primary, link, status, list, memOk);
      && r.dev == dev && r.sent
      && r.err == (if status != 0 then RequestFailError
                   else if list.Some? && list.value.records != [] && !memOk then MallocError
                   else NoError)
      && (status != 0 || list.None? || (list.value.records != [] && !memOk) ==> r.value == [])
      && (status == 0 && list.Some? && (list.value.records == [] || memOk) ==>
            && |r.value| == |list.value.records|
            && forall i :: 0 <= i < |list.value.records| ==>
                 r.value[i] == Value(u, Att.GetLeU16(list.value.records[i][..2]), list.value.records[i][2..]))
  {
    var s := Fresh(dev, ResolveRange(primary).value.end);
    AwaitAnswered(s, ReadByUuidCb(s, status, list, memOk), ReadByUuidCb(Reset(s), status, list, memOk), link, k);
  }

  /** bl_read_char: the value of that UUID, if it is unique. */
  function ReadChar(dev: DeviceContext, uuid: Option<string>, primary: Option<Primary>, link: Link,
                    status: Byte, list: Option<AttDataList>, memOk: bool, cpyOk: bool): (r: Outcome<Option<Value>>)
    ensures var all := ReadCharAll(dev, uuid, primary, link, status, list, memOk);
      && r.dev == all.dev && r.sent == all.sent
      && (all.err != NoError ==> r.err == all.err && r.value.None?)
      && (all.err == NoError ==> (r.err == UnicityError <==> |all.value| > 1))
      && (r.value.Some? <==> all.err == NoError && |all.value| == 1 && cpyOk)
      && (r.value.Some? ==> r.value.value == all.value[0])
  {
    Unique(ReadCharAll(dev, uuid, primary, link, status, list, memOk), cpyOk)
  }

  /** bl_read_char_by_char: read the characteristic's value attribute; the
      value carries the characteristic's UUID. */
  function ReadCharByChar(dev: DeviceContext, ch: Characteristic, link: Link, status: Byte,
                          decoded: Option<seq<Byte>>, memOk: bool): (r: Outcome<Option<Value>>)
    ensures var byHandle := ReadByHnd(dev, ch.valueHandle, link, status, decoded, memOk);
      && r.err == byHandle.err && r.dev == byHandle.dev && r.sent == byHandle.sent
      && (r.value.Some? <==> byHandle.value.Some?)
      && (r.value.Some? ==> r.value.value == byHandle.value.value.(uuid := ch.uuid))
    ensures r.value.Some? ==> r.value.value.uuid == ch.uuid && r.value.value.handle == ch.valueHandle
  {
    var v := ReadByHnd(dev, ch.valueHandle, link, status, decoded, memOk);
    v.(value := if v.value.Some? then Some(v.value.value.(uuid := ch.uuid)) else None)
  }

  // ---------------------------------------------------------------------
  // Writes
  // ---------------------------------------------------------------------

  /** write_by_hnd. `value` is the caller's buffer (None for NULL) and
      `size` the number of bytes to write; a request (`request`, WRITE_REQ)
      waits for the write response, a command (WRITE_CMD) does not. */
  function WriteByHnd(dev: DeviceContext, handle: Handle, value: Option<seq<Byte>>, size: nat, request: bool,
                      link: Link, status: Byte, isWriteResp: bool, isExecWriteResp: bool): (r: Outcome<()>)
    ensures Gate(dev).Some? ==> r == Outcome(Gate(dev).value, (), dev, false)
    // argument checks, before anything is sent
    ensures Gate(dev).None? && (handle == InvalidHandle || size == 0 || value.None?) ==>
      r == Outcome(InvalidArgument, (), dev, false)
    ensures r.sent <==> Gate(dev).None? && handle != InvalidHandle && size != 0 && value.Some? && link.accepts
    ensures Gate(dev).None? && handle != InvalidHandle && size != 0 && value.Some? && !link.accepts ==>
      r == Outcome(SendRequestError, (), dev, false)
    // a command is done once it is handed over
    ensures !request && r.sent ==> r == Outcome(NoError, (), dev, true)
    ensures r.dev == dev || r.dev == SetConnState(dev, Disconnected)
  {
    if Gate(dev).Some? then Outcome(Gate(dev).value, (), dev, false)
    else if handle == InvalidHandle || size == 0 || value.None? then Outcome(InvalidArgument, (), dev, false)
    else if !link.accepts then Outcome(SendRequestError, (), dev, false)
    else if !request then Outcome(NoError, (), dev, true)
    else
      var s := Fresh(dev, 0);
      var w := Await(s, WriteReqCb(s, status, isWriteResp, isExecWriteResp),
                     WriteReqCb(Reset(s), status, isWriteResp, isExecWriteResp), link);
      Outcome(w.ret, (), w.dev, true)
  }

  /** An answered write request returns the write response's verdict. */
  lemma WriteByHndAnswered(dev: DeviceContext, handle: Handle, value: Option<seq<Byte>>, size: nat,
                           link: Link, status: Byte, isWriteResp: bool, isExecWriteResp: bool, k: nat)
    requires Gate(dev).None? && handle != InvalidHandle && size != 0 && value.Some?
    requires link.accepts && AnsweredAt(link, k)
    ensures var r := WriteByHnd(dev, handle, value, size, true, link, status, isWriteResp, isExecWriteResp);
      && r.dev == dev
      && r.err == (if status != 0 then RequestFailError
                   else if isWriteResp || isExecWriteResp then NoError else ProtocolError)
  {
    var s := Fresh(dev, 0);
    AwaitAnswered(s, WriteReqCb(s, status, isWriteResp, isExecWriteResp),
                  WriteReqCb(Reset(s), status, isWriteResp, isExecWriteResp), link, k);
  }

  /** bl_write_desc_by_desc: a write request to the descriptor's handle. */
  function WriteDescByDesc(dev: DeviceContext, d: Descriptor, value: Option<seq<Byte>>, size: nat,
                           link: Link, status: Byte, isWriteResp: bool, isExecWriteResp: bool): (r: Outcome<()>)
    ensures r.sent <==> Gate(dev).None? && d.handle != InvalidHandle && size != 0 && value.Some? && link.accepts
    ensures Gate(dev).None? && (d.handle == InvalidHandle || size == 0 || value.None?) ==>
      r == Outcome(InvalidArgument, (), dev, false)
  {
    WriteByHnd(dev, d.handle, value, size, true, link, status, isWriteResp, isExecWriteResp)
  }
}

=== FILE: as_written.dfy ===
/** The places where the source does something other than what it evidently
    intends, each modelled as written next to a concrete input on which it
    differs from the corrected definition the rest of the model uses. */
module AsWritten {
  import opened BlDefs
  import opened Gatt
  import opened ConnState
  import opened Callback
  import opened BlueLib
  import Connection
  import Discovery
  import CharDesc
  import Notif

  // ---------------------------------------------------------------------
  // wait_for_cb: the completion record is carried over between requests
  // ---------------------------------------------------------------------

  /** The completion record a request of the source starts from: the one
      the previous request left, its mutex taken again by that request's
      wait. Nothing in bluelib.c calls init_cb_ctx; only a wait that starts
      before the callback runs clears `cb_ret_pointer`. */
  function Carried(dev: DeviceContext, prev: CbCtx): (s: Shared)
    ensures !s.cb.signalled && s.cb.payload == prev.payload && s.dev == dev
  {
    Shared(dev, prev.(signalled := false))
  }

  /** bl_get_all_primary as written: the same request, started from the
      record the previous request left (`prev`) instead of a cleared one. */
  function GetAllPrimaryAsWritten(dev: DeviceContext, prev: CbCtx, uuid: Option<string>, link: Link, status: Byte,
                                  services: seq<GattPrimary>, ranges: seq<AttRange>, memOk: bool)
    : Outcome<seq<Primary>>
  {
    if Gate(dev).Some? then Discovery.Refused(Gate(dev).value, [], dev)
    else if !link.accepts then Discovery.Refused(SendRequestError, [], dev)
    else
      var s := Carried(dev, prev);
      var w := if uuid.Some?
        then Await(s, PrimaryByUuidCb(s, status, ranges, memOk), PrimaryByUuidCb(Reset(s), status, ranges, memOk), link)
        else Await(s, PrimaryAllCb(s, status, services, memOk), PrimaryAllCb(Reset(s), status, services, memOk), link);
      var ps := Discovery.PrimaryList(w.payload);
      Outcome(w.ret, if w.ret == NoError && uuid.Some? then Stamp(ps, uuid.value, PrimaryWithUuid) else ps, w.dev, true)
  }

  /** When the wait starts before the callback runs it clears the record:
      the request as written is the corrected one, whatever came before. */
  lemma WaitFirstClears(dev: DeviceContext, prev: CbCtx, uuid: Option<string>, link: Link, status: Byte,
                        services: seq<GattPrimary>, ranges: seq<AttRange>, memOk: bool)
    requires !link.early && link.polls(0).loopRunning
    ensures GetAllPrimaryAsWritten(dev, prev, uuid, link, status, services, ranges, memOk)
         == Discovery.GetAllPrimary(dev, uuid, link, status, services, ranges, memOk)
  {
    if Gate(dev).None? && link.accepts {
      var s, f := Carried(dev, prev), Fresh(dev, 0);
      if uuid.Some? {
        WaitReadsAnswerOnly(s, f, PrimaryByUuidCb(Reset(s), status, ranges, memOk),
                            PrimaryByUuidCb(Reset(f), status, ranges, memOk), link.polls);
      } else {
        WaitReadsAnswerOnly(s, f, PrimaryAllCb(Reset(s), status, services, memOk),
                            PrimaryAllCb(Reset(f), status, services, memOk), link.polls);
      }
    }
  }

  /** When the callback runs first and fails, or finds nothing, the
      earlier request's list is handed back: with the failure code, or as a
      success (stamped with the UUID searched for). */
  lemma CallbackFirstKeepsOldList(dev: DeviceContext, prev: CbCtx, uuid: Option<string>, link: Link, status: Byte,
                                  services: seq<GattPrimary>, ranges: seq<AttRange>, memOk: bool)
    requires Gate(dev).None? && link.accepts && link.early && link.polls(1).loopRunning
    requires status != 0 || (if uuid.Some? then ranges == [] else services == [])
    ensures var r := GetAllPrimaryAsWritten(dev, prev, uuid, link, status, services, ranges, memOk);
      var before := Discovery.PrimaryList(prev.payload);
      && (status != 0 ==> r.err == RequestFailError && r.value == before)
      && (status == 0 ==> r.err == NoError && r.value == if uuid.Some? then Stamp(before, uuid.value, PrimaryWithUuid) else before)
  {
  }

  /** A search answered with "nothing found" before the wait starts, after
      an earlier search returned `p`: as written it reports success with
      `p`, which the caller has freed; the corrected request returns NULL. */
  lemma StaleListOnEarlyAnswer(dev: DeviceContext, link: Link, p: Primary)
    requires Gate(dev).None? && link.accepts && link.early && link.polls(1).loopRunning
    ensures var prev := CbCtx(false, 0, NoError, Primaries([p]));
      GetAllPrimaryAsWritten(dev, prev, None, link, 0, [], [], true) == Outcome(NoError, [p], dev, true)
    ensures Discovery.GetAllPrimary(dev, None, link, 0, [], [], true) == Outcome(NoError, [], dev, true)
  {
  }

  // ---------------------------------------------------------------------
  // bl_connect: early refusals jump to the success exit
  // ---------------------------------------------------------------------

  /** bl_connect as written: the "already connected" and "no address"
      branches `goto exit`, where `ret` is overwritten with BL_NO_ERROR and
      the user callback decides the result. */
  function ConnectEarlyExit(dev: DeviceContext, mac: Option<string>, dstType: Option<string>,
                            att: Connection.Attempt, link: Link, userCb: Option<int>): (r: Outcome<()>)
    // it agrees with the corrected Connect on the state and on whether an
    // attempt is made ...
    ensures var c := Connection.Connect(dev, mac, dstType, att, link, userCb);
      r.dev == c.dev && r.sent == c.sent
    // ... and on the code, except on the two early refusals
    ensures var c := Connection.Connect(dev, mac, dstType, att, link, userCb);
      r.err != c.err ==> dev.initialised && !c.sent && (dev.connState != Disconnected || mac.None?)
    // which a caller without a user callback reads as a success
    ensures userCb.None? && dev.initialised && !r.sent ==> r.err == NoError || r.err == InvalidArgument
  {
    if dev.initialised && (dev.connState != Disconnected || mac.None?) then
      Outcome(if userCb.Some? then userCb.value else NoError, (), dev, false)
    else Connection.Connect(dev, mac, dstType, att, link, userCb)
  }

  /** Connecting an already connected device reports success; the corrected
      Connection.Connect reports BL_ALREADY_CONNECTED_ERROR. */
  lemma ConnectTwiceReportsSuccess(dev: DeviceContext, mac: string, att: Connection.Attempt, link: Link)
    requires dev.initialised && dev.connState == Connected
    ensures ConnectEarlyExit(dev, Some(mac), None, att, link, None).err == NoError
    ensures Connection.Connect(dev, Some(mac), None, att, link, None).err == AlreadyConnectedError
  {
  }

  // ---------------------------------------------------------------------
  // handle_assert: pointer comparisons
  // ---------------------------------------------------------------------

  /** handle_assert as written: the checks compare the pointers
      `start_handle` and `end_handle`, not the handles. Two distinct stack
      addresses are never NULL, so the reserved-handle check never fires;
      their order (`startAbove`) is the compiler's choice and decides the
      order check whatever the handles are. */
  function HandleAssert(primary: Option<Primary>, startAbove: bool): (r: Result<HandleRange>)
    // a range it accepts is the one asked for: what ResolveRange accepts too,
    // or one ResolveRange refuses
    ensures r.Ok? ==> r == ResolveRange(primary) || ResolveRange(primary).Fail?
    // the reserved-handle check never fires
    ensures r.Fail? ==> r.code == HandleOrderError
  {
    var start := if primary.Some? then primary.value.startHandle else FirstHandle;
    var end := if primary.Some? then primary.value.endHandle else LastHandle;
    if startAbove then Fail(HandleOrderError) else Ok(HandleRange(start, end))
  }

  /** The handles play no part in the verdict: every primary service, and
      none, gets the same one. */
  lemma HandleAssertIgnoresHandles(p: Option<Primary>, q: Option<Primary>, startAbove: bool)
    ensures HandleAssert(p, startAbove).Ok? == HandleAssert(q, startAbove).Ok?
  {
  }

  /** A reversed range and one starting at the reserved handle both go
      through, where ResolveRange refuses them. */
  lemma HandleAssertLetsBadRangesThrough()
    ensures HandleAssert(Some(Primary("", false, 9, 3)), false) == Ok(HandleRange(9, 3))
    ensures ResolveRange(Some(Primary("", false, 9, 3))) == Fail(HandleOrderError)
    ensures HandleAssert(Some(Primary("", false, 0, 3)), false) == Ok(HandleRange(0, 3))
    ensures ResolveRange(Some(Primary("", false, 0, 3))) == Fail(InvalidArgument)
  {
  }

  /** And a good range can be refused, depending on the stack layout. */
  lemma HandleAssertRefusesGoodRange()
    ensures HandleAssert(None, true) == Fail(HandleOrderError)
    ensures ResolveRange(None) == Ok(HandleRange(FirstHandle, LastHandle))
  {
  }

  // ---------------------------------------------------------------------
  // find_desc: the lowered query is never used
  // ---------------------------------------------------------------------

  /** find_desc as written: it lowers the query into a buffer and then
      compares against the original, so only the last descriptor whose UUID
      equals the query as given is found. */
  function FindDescAsWritten(ds: seq<Descriptor>, query: string, memOk: bool): (r: Option<Descriptor>)
    // found exactly when some descriptor's UUID is the query as given ...
    ensures r.Some? <==> memOk && exists i :: 0 <= i < |ds| && ds[i].uuid == query
    // ... and then it is the last such descriptor
    ensures r.Some? ==> exists i :: 0 <= i < |ds| && ds[i] == r.value && ds[i].uuid == query
                                  && forall j :: i < j < |ds| ==> ds[j].uuid != query
    // on a query already in lower case it finds what the corrected FindDesc finds
    ensures Lowcase(query) == query ==>
      && (r.Some? <==> memOk && LastMatch(ds, Lowcase(query)).Some?)
      && (r.Some? ==> r.value == ds[LastMatch(ds, Lowcase(query)).value])
  {
    match LastMatch(ds, query)
    case None => None
    case Some(i) => DescCpy(Some(ds[i]), memOk)
  }

  /** An upper-case query misses the descriptor BlueZ printed in lower
      case; the corrected FindDesc compares against the lowered query and
      finds it. */
  lemma UpperCaseQueryMisses()
    ensures FindDescAsWritten([Descriptor("2a05", 7)], "2A05", true).None?
    ensures LastMatch([Descriptor("2a05", 7)], Lowcase("2A05")) == Some(0)
  {
    assert Lowcase("2A05") == "2a05";
  }

  // ---------------------------------------------------------------------
  // bl_change_mtu: the value is stored before it is validated
  // ---------------------------------------------------------------------

  /** bl_change_mtu as written: `opt_mtu = value` comes before the minimum
      check, so a refused value stays recorded as the exchanged MTU. */
  function ChangeMtuAsWritten(dev: DeviceContext, value: int, link: Link, status: Byte,
                              serverMtu: Option<Handle>, framerAccepts: bool): (r: Outcome<()>)
    // the caller sees the same code and the same request as with the corrected ChangeMtu ...
    ensures var c := Connection.ChangeMtu(dev, value, link, status, serverMtu, framerAccepts);
      r.err == c.err && r.sent == c.sent
    // ... but a refused value stays behind as the requested MTU
    ensures var c := Connection.ChangeMtu(dev, value, link, status, serverMtu, framerAccepts);
      r.dev != c.dev ==> r.err == InvalidArgument && r.dev == c.dev.(mtu := value)
  {
    if Gate(dev).None? && dev.psm == 0 && dev.mtu == 0 && value < AttDefaultLeMtu then
      Outcome(InvalidArgument, (), dev.(mtu := value), false)
    else Connection.ChangeMtu(dev, value, link, status, serverMtu, framerAccepts)
  }

  /** After a refused non-zero value, every later change is refused as
      "already exchanged", whatever value it asks for. */
  lemma RefusedMtuSticks(dev: DeviceContext, value: int, later: int, link: Link, status: Byte,
                         serverMtu: Option<Handle>, framerAccepts: bool)
    requires Gate(dev).None? && dev.psm == 0 && dev.mtu == 0 && value != 0 && value < AttDefaultLeMtu
    ensures var d := ChangeMtuAsWritten(dev, value, link, status, serverMtu, framerAccepts).dev;
      ChangeMtuAsWritten(d, later, link, status, serverMtu, framerAccepts)
        == Outcome(MtuAlreadyExchangedError, (), d, false)
  {
  }

  /** After a refused value of 10, a valid 50 is refused as "already
      exchanged" although no exchange took place; the corrected ChangeMtu
      sends it (Connection.ChangeMtuRetry). */
  lemma RefusedMtuBlocksValidOne(dev: DeviceContext, link: Link, status: Byte, serverMtu: Option<Handle>,
                                 framerAccepts: bool)
    requires Gate(dev).None? && dev.psm == 0 && dev.mtu == 0
    ensures var d := ChangeMtuAsWritten(dev, 10, link, status, serverMtu, framerAccepts).dev;
      ChangeMtuAsWritten(d, 50, link, status, serverMtu, framerAccepts).err == MtuAlreadyExchangedError
    ensures var d := Connection.ChangeMtu(dev, 10, link, status, serverMtu, framerAccepts).dev;
      Connection.ChangeMtu(d, 50, link, status, serverMtu, framerAccepts).sent
  {
  }

  // ---------------------------------------------------------------------
  // read_by_hnd_cb: the allocation failure is overwritten
  // ---------------------------------------------------------------------

  /** read_by_hnd_cb as written: when bl_value_new fails the code is set to
      BL_MALLOC_ERROR and then unconditionally to BL_NO_ERROR. */
  function ReadByHndCbAsWritten(s: Shared, status: Byte, decoded: Option<seq<Byte>>, memOk: bool): (r: Shared)
    // every decoded response is a success, whether or not its value was allocated
    ensures status == 0 && decoded.Some? ==> r.cb.retVal == NoError
    // the value stored is the corrected callback's; only the code differs,
    // and only on a failed allocation
    ensures var c := ReadByHndCb(s, status, decoded, memOk);
      r.cb.payload == c.cb.payload && r.dev == c.dev && r.cb.signalled
      && (r.cb.retVal != c.cb.retVal <==> status == 0 && decoded.Some? && !memOk)
  {
    if status == 0 && decoded.Some? && !memOk then Complete(s, NoError, NoPayload)
    else ReadByHndCb(s, status, decoded, memOk)
  }

  /** The corrected callback reports success only with a value. */
  lemma ReadSuccessCarriesValue(s: Shared, status: Byte, decoded: Option<seq<Byte>>, memOk: bool)
    ensures ReadByHndCb(s, status, decoded, memOk).cb.retVal == NoError ==>
      ReadByHndCb(s, status, decoded, memOk).cb.payload.One?
  {
  }

  /** As written, a failed allocation is a success with no value. */
  lemma ReadSuccessWithoutValue(s: Shared)
    ensures ReadByHndCbAsWritten(s, 0, Some([1, 2]), false).cb.retVal == NoError
    ensures ReadByHndCbAsWritten(s, 0, Some([1, 2]), false).cb.payload == NoPayload
    ensures ReadByHndCb(s, 0, Some([1, 2]), false).cb.retVal == MallocError
  {
  }

  // ---------------------------------------------------------------------
  // char_desc_cb: a stale pagination bound
  // ---------------------------------------------------------------------

  /** bl_get_all_desc_by_char never sets end_handle_cb, which init_cb_ctx
      leaves at 0 (only handle_assert writes it, with 0xFFFF or a primary's
      end): before any range resolution, the first response is taken as the
      last one and the discovery stops after it. With the range end as bound
      (what Discovery.GetAllDescByChar hands over) the procedure asks for
      the rest. */
  lemma StaleEndHandle(dev: DeviceContext)
    ensures var stale := Shared(dev, InitCbCtx());
      CharDesc.DescResponse(stale, [], 0, Some([Descriptor("2902", 5)]), true, None).next.None?
    ensures var s := Shared(dev, InitCbCtx().(endHandle := 20));
      CharDesc.DescResponse(s, [], 0, Some([Descriptor("2902", 5)]), true, None).next == Some(6)
  {
    var stale := Shared(dev, InitCbCtx());
    var s := Shared(dev, InitCbCtx().(endHandle := 20));
    assert !CharDesc.IsDeclarationDesc(Descriptor("2902", 5));
    assert CharDesc.ScanEntries([Descriptor("2902", 5)], [], LastHandle, None).stop == CharDesc.Completed;
    assert CharDesc.ScanEntries([Descriptor("2902", 5)], [], LastHandle, None).last == 5;
  }

  // ---------------------------------------------------------------------
  // bl_remove_notif_by_char: looked up by the declaration handle
  // ---------------------------------------------------------------------

  /** bl_remove_notif_by_char as written: the handler is looked up by the
      characteristic's declaration handle, while it was registered with the
      value handle. */
  function RemoveNotifByCharAsWritten(dev: DeviceContext, ch: Characteristic): (r: Outcome<()>)
    // it drops the registrations made with the declaration handle ...
    ensures dev.attrib ==> forall u :: u in dev.notifRegistry ==>
      (u in r.dev.notifRegistry <==> dev.notifRegistry[u].valueHandle != ch.handle)
    // ... so a subscription made with the value handle survives it
    ensures ch.handle != ch.valueHandle ==> forall u :: u in dev.notifRegistry ==>
      dev.notifRegistry[u].valueHandle == ch.valueHandle ==> u in r.dev.notifRegistry
  {
    Notif.RemoveNotifByChar(dev, ch.(valueHandle := ch.handle))
  }

  /** A subscribed heart-rate-like characteristic (declaration at 10, value
      at 11) stays subscribed; the corrected removal drops it. */
  lemma RemoveByCharMisses(dev: DeviceContext)
    requires dev.attrib
    ensures var ch := Characteristic("2a37", 10, PropNotify, 11);
      var d := dev.(notifRegistry := map["2a37" := Registration(OpHandleNotify, 11)]);
      && "2a37" in RemoveNotifByCharAsWritten(d, ch).dev.notifRegistry
      && "2a37" !in Notif.RemoveNotifByChar(d, ch).dev.notifRegistry
  {
  }
}

=== FILE: att.dfy ===
/** The byte-level helpers of the attribute protocol the core uses: the
    little-endian 16-bit field accessors (att_get_u16 / att_put_u16) and the
    lower-case string form a UUID takes once decoded (bt_uuid_to_string).
    These are BlueZ helpers; only the behaviour the core depends on is given. */
module Att {
  import opened BlDefs

  /** att_get_u16: a little-endian 16-bit field. */
  function GetLeU16(b: seq<Byte>): Handle
    requires |b| == 2
  {
    (b[0] as int) + 0x100 * (b[1] as int)
  }

  /** att_put_u16: the two little-endian bytes of a 16-bit value. */
  function PutLeU16(v: Handle): (b: seq<Byte>)
    ensures |b| == 2
  {
    [v % 0x100, v / 0x100]
  }

  lemma LeU16RoundTrip(v: Handle, b: seq<Byte>)
    requires |b| == 2
    ensures GetLeU16(PutLeU16(v)) == v
    ensures PutLeU16(GetLeU16(b)) == b
  {
  }

  function HexDigit(n: int): (c: char)
    requires 0 <= n < 16
  {
    if n < 10 then '0' + n as char else 'a' + (n - 10) as char
  }

  /** Inverse of HexDigit on its image. */
  function HexValue(c: char): int
  {
    if '0' <= c <= '9' then (c - '0') as int
    else if 'a' <= c <= 'f' then (c - 'a') as int + 10
    else -1
  }

  lemma HexDigitInverse(n: int)
    requires 0 <= n < 16
    ensures HexValue(HexDigit(n)) == n
  {
  }

  /** "%.4x" of a 16-bit UUID: four lower-case hex digits. */
  function Uuid16String(v: Handle): (s: string)
    ensures |s| == 4
  {
    var q1 := v / 16;
    var q2 := q1 / 16;
    [HexDigit(q2 / 16), HexDigit(q2 % 16), HexDigit(q1 % 16), HexDigit(v % 16)]
  }

  /** Reads the four hex digits back. */
  function ParseHex4(s: string): int
    requires |s| == 4
  {
    0x1000 * HexValue(s[0]) + 0x100 * HexValue(s[1]) + 0x10 * HexValue(s[2]) + HexValue(s[3])
  }

  lemma {:induction false} Uuid16StringRoundTrip(v: Handle)
    ensures ParseHex4(Uuid16String(v)) == v
  {
    var q1 := v / 16;
    var q2 := q1 / 16;
    assert v == 16 * q1 + v % 16;
    assert q1 == 16 * q2 + q1 % 16;
    assert q2 == 16 * (q2 / 16) + q2 % 16;
    HexDigitInverse(q2 / 16);
    HexDigitInverse(q2 % 16);
    HexDigitInverse(q1 % 16);
    HexDigitInverse(v % 16);
  }

  function HexBytes(b: seq<Byte>): (s: string)
    ensures |s| == 2 * |b|
  {
    if b == [] then "" else [HexDigit(b[0] / 16), HexDigit(b[0] % 16)] + HexBytes(b[1..])
  }

  function Reverse(b: seq<Byte>): (r: seq<Byte>)
    ensures |r| == |b|
  {
    if b == [] then [] else Reverse(b[1..]) + [b[0]]
  }

  /** A 128-bit UUID read little-endian from a PDU, printed as
      "xxxxxxxx-xxxx-xxxx-xxxx-xxxxxxxxxxxx" (most significant byte first). */
  function Uuid128String(bytes: seq<Byte>): (s: string)
    requires |bytes| == 16
    ensures |s| == 36
  {
    var r := Reverse(bytes);
    HexBytes(r[0..4]) + "-" + HexBytes(r[4..6]) + "-" + HexBytes(r[6..8]) + "-"
      + HexBytes(r[8..10]) + "-" + HexBytes(r[10..16])
  }

  /** The GATT declaration types: primary service, secondary service,
      include and characteristic (include/gatt_def.h:26-29). */
  predicate IsDeclaration(uuid: string)
  {
    uuid == "2800" || uuid == "2801" || uuid == "2802" || uuid == "2803"
  }

  /** Comparing the printed 16-bit UUID against the four declaration
      strings is the same as testing the numeric range 0x2800..0x2803. */
  lemma {:induction false} DeclarationIsNumericRange(v: Handle)
    ensures IsDeclaration(Uuid16String(v)) <==> 0x2800 <= v <= 0x2803
  {
    if 0x2800 <= v <= 0x2803 {
      assert v / 16 == 0x280 && v / 16 / 16 == 0x28;
      assert Uuid16String(v) == "280" + [HexDigit(v % 16)];
    }
    if IsDeclaration(Uuid16String(v)) {
      Uuid16StringRoundTrip(v);
      var s := Uuid16String(v);
      assert ParseHex4(s) == 0x2800 + HexValue(s[3]);
    }
  }

  /** A 128-bit UUID is never mistaken for a declaration type. */
  lemma LongUuidIsNoDeclaration(bytes: seq<Byte>)
    requires |bytes| == 16
    ensures !IsDeclaration(Uuid128String(bytes))
  {
  }
}

=== FILE: bluelib.dfy ===
/** The library's entry points (src/bluelib.c): the initialisation and
    connection gates, handle-range resolution, the MAC-address check, the
    unique-result wrappers, and every request as "check, send, wait, shape
    the result". The library state is one DeviceContext; each request
    starts from a completion record in the state init_cb_ctx leaves it. */
module BlueLib {
  import opened BlDefs
  import opened Gatt
  import opened ConnState
  import opened Callback
  import Att
  import CharDesc

  // ---------------------------------------------------------------------
  // Gates, outcomes and the request/wait pattern
  // ---------------------------------------------------------------------

  /** BLUELIB_ENTER followed by ASSERT_CONNECTED: the code an operation
      stops with before doing anything else, or None when it may go on. */
  function Gate(dev: DeviceContext): (r: Option<int>)
    ensures r.None? <==> dev.initialised && dev.connState == Connected && dev.loopRunning
    ensures !dev.initialised ==> r == Some(NotInitError)
    ensures dev.initialised && r.Some? ==> r == Some(DisconnectedError)
  {
    if !dev.initialised then Some(NotInitError)
    else if dev.connState != Connected || !dev.loopRunning then Some(DisconnectedError)
    else None
  }

  /** What an operation hands back: the error it raised (NoError when it
      raised none), its result (an empty list or None stands for NULL), the
      device context afterwards, and whether a request was handed to the
      transport. */
  datatype Outcome<T> = Outcome(err: int, value: T, dev: DeviceContext, sent: bool)

  /** How the transport treats one request: whether the BlueZ call accepts
      it, whether the callback runs before the wait starts, and what the
      waiting thread observes. */
  datatype Link = Link(accepts: bool, early: bool, polls: nat -> Poll)

  /** The completion record a request starts from: the callback has not
      run, nothing is stored; `endHandle` is end_handle_cb. */
  function Fresh(dev: DeviceContext, endHandle: Handle): (s: Shared)
    ensures !s.cb.signalled && s.cb.retVal == NoError && s.cb.payload == NoPayload
    ensures s.dev == dev && s.cb.endHandle == endHandle
  {
    Shared(dev, InitCbCtx().(endHandle := endHandle))
  }

  /** wait_for_cb after a request was handed to the transport. `early` is
      the record as the callback leaves it when it runs before the wait
      starts, `fired` as it leaves it when it runs during the wait (the
      callback applied to `Reset(s)`). */
  function Await(s: Shared, early: Shared, fired: Shared, link: Link): (w: Waited)
    ensures w.raised.Some? <==> w.ret != NoError
  {
    WaitForCb(if link.early then early else s, fired, link.polls)
  }

  /** The observations under which a request is answered at probe `k`
      with the event loop running throughout. */
  predicate AnsweredAt(link: Link, k: nat)
  {
    && !link.early && 1 <= k <= MaxPolls + 1
    && link.polls(0).loopRunning
    && (forall j :: 1 <= j < k ==> link.polls(j).loopRunning && !link.polls(j).answered)
    && link.polls(k).answered && link.polls(k + 1).loopRunning
  }

  /** The observations under which no answer comes before the time-out. */
  predicate Silent(link: Link)
  {
    && !link.early && link.polls(0).loopRunning
    && forall j :: 1 <= j <= MaxPolls + 1 ==> link.polls(j).loopRunning && !link.polls(j).answered
  }

  /** An answered request hands back what the callback left. */
  lemma AwaitAnswered(s: Shared, early: Shared, fired: Shared, link: Link, k: nat)
    requires !s.cb.signalled && AnsweredAt(link, k)
    ensures Await(s, early, fired, link).ret == fired.cb.retVal
    ensures Await(s, early, fired, link).payload == fired.cb.payload
    ensures Await(s, early, fired, link).dev == fired.dev
  {
    AnsweredAtProbe(s, fired, link.polls, k);
  }

  /** A request nobody answers times out and leaves the device disconnected. */
  lemma AwaitSilent(s: Shared, early: Shared, fired: Shared, link: Link)
    requires !s.cb.signalled && Silent(link)
    ensures Await(s, early, fired, link) == Abort(s.dev, NoCallbackError)
  {
    assert forall j :: 1 <= j <= MaxPolls + 1 ==> !Stops(link.polls(j));
  }

  // ---------------------------------------------------------------------
  // Handle ranges
  // ---------------------------------------------------------------------

  datatype HandleRange = HandleRange(start: Handle, end: Handle)

  /** handle_assert, comparing the handles themselves (the source compares
      the pointers to them, see AsWritten.HandleAssert): the whole handle
      space by default, else the primary service's range; the range must
      be ordered and must not touch the reserved handle 0x0000. */
  function ResolveRange(primary: Option<Primary>): (r: Result<HandleRange>)
    ensures r.Ok? <==> primary.None? || 0 < primary.value.startHandle <= primary.value.endHandle
    ensures r.Ok? ==> FirstHandle <= r.value.start <= r.value.end
    ensures primary.None? ==> r == Ok(HandleRange(FirstHandle, LastHandle))
    ensures primary.Some? && r.Ok? ==>
      r.value == HandleRange(primary.value.startHandle, primary.value.endHandle)
    ensures primary.Some? && r.Fail? ==>
      r.code == (if primary.value.startHandle > primary.value.endHandle then HandleOrderError else InvalidArgument)
  {
    var start := if primary.Some? then primary.value.startHandle else FirstHandle;
    var end := if primary.Some? then primary.value.endHandle else LastHandle;
    if start > end then Fail(HandleOrderError)
    else if start == InvalidHandle || end == InvalidHandle then Fail(InvalidArgument)
    else Ok(HandleRange(start, end))
  }

  /** The descriptor range of bl_get_all_desc_by_char, in uint16_t
      arithmetic: from the handle after the start characteristic to the
      handle before the end characteristic (or 0xFFFF), lowered to the
      primary service's end. */
  function DescRange(startChar: Option<Characteristic>, endChar: Option<Characteristic>,
                     primary: Option<Primary>): (r: Result<HandleRange>)
    ensures startChar.None? ==> r == Fail(MissingArgumentError)
    ensures startChar.Some? ==> (r.Fail? ==> r.code == HandleOrderError)
    ensures startChar.Some? ==>
      var start := Inc16(startChar.value.handle);
      var bound := if endChar.Some? then Dec16(endChar.value.handle) else LastHandle;
      var end := if primary.Some? then Min(bound, primary.value.endHandle) else bound;
      (r.Ok? <==> start <= end) && (r.Ok? ==> r.value == HandleRange(start, end))
  {
    match startChar
    case None => Fail(MissingArgumentError)
    case Some(sc) =>
      var start := Inc16(sc.handle);
      var end0 := if endChar.Some? then Dec16(endChar.value.handle) else LastHandle;
      var end := if primary.Some? && end0 > primary.value.endHandle then primary.value.endHandle else end0;
      if start > end then Fail(HandleOrderError) else Ok(HandleRange(start, end))
  }

  /** Without wrap-around the descriptor range lies strictly between the two
      characteristics and inside the primary service. */
  lemma DescRangeBetween(startChar: Characteristic, endChar: Option<Characteristic>, primary: Option<Primary>)
    requires startChar.handle < LastHandle
    requires endChar.Some? ==> endChar.value.handle > InvalidHandle
    ensures var r := DescRange(Some(startChar), endChar, primary);
      r.Ok? ==>
        && r.value.start == startChar.handle + 1
        && (endChar.Some? ==> r.value.end < endChar.value.handle)
        && (primary.Some? ==> r.value.end <= primary.value.endHandle)
  {
  }

  /** A start characteristic at 0xFFFF makes the range start at the reserved
      handle 0x0000 (the `+ 1` wraps). */
  lemma DescRangeWraps(startChar: Characteristic, primary: Option<Primary>)
    requires startChar.handle == LastHandle
    ensures DescRange(Some(startChar), None, primary) == Ok(HandleRange(0, DescRangeEnd(primary)))
  {
  }

  function DescRangeEnd(primary: Option<Primary>): Handle
  {
    if primary.Some? then primary.value.endHandle else LastHandle
  }

  // ---------------------------------------------------------------------
  // MAC addresses
  // ---------------------------------------------------------------------

  /** MAC_SZ: "XX:XX:XX:XX:XX:XX" */
  const MacSize := 17

  /** The character at index i of a C string: its terminating NUL past the end. */
  function CharAt(s: string, i: nat): char
  {
    if i < |s| then s[i] else '\0'
  }

  predicate IsHexChar(c: char)
  {
    '0' <= c <= '9' || 'a' <= c <= 'f' || 'A' <= c <= 'F'
  }

  /** What position i of an address must hold: a hex digit of either case
      where i % 3 < 2, a colon elsewhere. */
  predicate MacCharOk(c: char, i: nat)
  {
    if i % 3 < 2 then IsHexChar(c) else c == ':'
  }

  /** The address syntax bl_connect accepts: 17 positions, then the end. */
  predicate ValidMac(mac: string)
  {
    (forall i :: 0 <= i < MacSize ==> MacCharOk(CharAt(mac, i), i)) && CharAt(mac, MacSize) == '\0'
  }

  /** The check loop of bl_connect, position by position. */
  method CheckMac(mac: string) returns (ok: bool)
    ensures ok <==> ValidMac(mac)
  {
    var i := 0;
    while i < MacSize
      invariant 0 <= i <= MacSize
      invariant forall j :: 0 <= j < i ==> MacCharOk(CharAt(mac, j), j)
    {
      var c := CharAt(mac, i);
      if i % 3 < 2 && !IsHexChar(c) {
        return false;
      } else if i % 3 == 2 && c != ':' {
        return false;
      }
      i := i + 1;
    }
    ok := CharAt(mac, MacSize) == '\0';
  }

  /** A C string (no NUL inside) that passes the check has exactly 17 characters. */
  lemma ValidMacLength(mac: string)
    requires ValidMac(mac)
    requires forall i :: 0 <= i < |mac| ==> mac[i] != '\0'
    ensures |mac| == MacSize
  {
    assert MacCharOk(CharAt(mac, MacSize - 1), MacSize - 1);
  }

  /** The printed form of a 6-byte address, most significant byte first,
      with lower-case digits. */
  function FormatMac(b: seq<Byte>): (m: string)
    requires |b| == 6
    ensures |m| == MacSize
  {
    seq(MacSize, i requires 0 <= i < MacSize =>
      if i % 3 == 2 then ':'
      else if i % 3 == 0 then Att.HexDigit(b[i / 3] / 16)
      else Att.HexDigit(b[i / 3] % 16))
  }

  /** The value of a hex digit of either case. */
  function HexDigitValue(c: char): int
  {
    Att.HexValue(LowChar(c))
  }

  /** The six bytes an accepted address denotes. */
  function ParseMac(mac: string): (b: seq<Byte>)
    requires ValidMac(mac)
    ensures |b| == 6
  {
    seq(6, k requires 0 <= k < 6 =>
      assert MacCharOk(CharAt(mac, 3 * k), 3 * k) && MacCharOk(CharAt(mac, 3 * k + 1), 3 * k + 1);
      HexValueInRange(CharAt(mac, 3 * k));
      HexValueInRange(CharAt(mac, 3 * k + 1));
      16 * HexDigitValue(CharAt(mac, 3 * k)) + HexDigitValue(CharAt(mac, 3 * k + 1)))
  }

  lemma HexValueInRange(c: char)
    requires IsHexChar(c)
    ensures 0 <= HexDigitValue(c) < 16
    ensures Att.HexDigit(HexDigitValue(c)) == LowChar(c)
  {
  }

  lemma HexDigitIsHex(n: int)
    requires 0 <= n < 16
    ensures IsHexChar(Att.HexDigit(n)) && LowChar(Att.HexDigit(n)) == Att.HexDigit(n)
  {
  }

  /** Every printed address passes the check... */
  lemma FormatMacIsValid(b: seq<Byte>)
    requires |b| == 6
    ensures ValidMac(FormatMac(b))
  {
    var m := FormatMac(b);
    forall i | 0 <= i < MacSize
      ensures MacCharOk(CharAt(m, i), i)
    {
      if i % 3 == 0 {
        HexDigitIsHex(b[i / 3] / 16);
      } else if i % 3 == 1 {
        HexDigitIsHex(b[i / 3] % 16);
      }
    }
  }

  /** ...and reads back as the bytes it was printed from... */
  lemma ParseFormatMac(b: seq<Byte>)
    requires |b| == 6
    ensures ValidMac(FormatMac(b)) && ParseMac(FormatMac(b)) == b
  {
    FormatMacIsValid(b);
    var m := FormatMac(b);
    forall k | 0 <= k < 6
      ensures ParseMac(m)[k] == b[k]
    {
      assert CharAt(m, 3 * k) == Att.HexDigit(b[k] / 16);
      assert CharAt(m, 3 * k + 1) == Att.HexDigit(b[k] % 16);
      HexDigitIsHex(b[k] / 16);
      HexDigitIsHex(b[k] % 16);
      Att.HexDigitInverse(b[k] / 16);
      Att.HexDigitInverse(b[k] % 16);
    }
  }

  /** ...while an accepted address is the printed form of the bytes it
      denotes, up to the case of its letters. */
  lemma FormatParseMac(mac: string)
    requires ValidMac(mac) && |mac| == MacSize
    ensures FormatMac(ParseMac(mac)) == Lowcase(mac)
  {
    var b := ParseMac(mac);
    forall i | 0 <= i < MacSize
      ensures FormatMac(b)[i] == Lowcase(mac)[i]
    {
      var k, r := i / 3, i % 3;
      assert i == 3 * k + r;
      MacCharAt(mac, k, r);
      if r < 2 {
        MacByteDigits(mac, k);
      }
      FormatParseMacAt(mac, b, k, r);
    }
  }

  lemma FormatParseMacAt(mac: string, b: seq<Byte>, k: nat, r: nat)
    requires |b| == 6 && |mac| == MacSize && r < 3 && 3 * k + r < MacSize
    requires r == 2 ==> mac[3 * k + r] == ':'
    requires r == 0 ==> Att.HexDigit(b[k] / 16) == LowChar(CharAt(mac, 3 * k))
    requires r == 1 ==> Att.HexDigit(b[k] % 16) == LowChar(CharAt(mac, 3 * k + 1))
    ensures FormatMac(b)[3 * k + r] == Lowcase(mac)[3 * k + r]
  {
    FormatMacAt(b, k, r);
  }

  /** Position 3k + r of a printed address. */
  lemma FormatMacAt(b: seq<Byte>, k: nat, r: nat)
    requires |b| == 6 && r < 3 && 3 * k + r < MacSize
    ensures FormatMac(b)[3 * k + r]
         == if r == 2 then ':' else if r == 0 then Att.HexDigit(b[k] / 16) else Att.HexDigit(b[k] % 16)
  {
    var i := 3 * k + r;
    assert i / 3 == k && i % 3 == r;
  }

  /** Position 3k + r of an accepted address. */
  lemma MacCharAt(mac: string, k: nat, r: nat)
    requires ValidMac(mac) && r < 3 && 3 * k + r < MacSize
    ensures MacCharOk(CharAt(mac, 3 * k + r), 3 * k + r)
    ensures r == 2 ==> CharAt(mac, 3 * k + r) == ':'
  {
    var i := 3 * k + r;
    assert i % 3 == r;
    assert MacCharOk(CharAt(mac, i), i);
  }

  /** The two digits of byte k of an accepted address. */
  lemma MacByteDigits(mac: string, k: nat)
    requires ValidMac(mac) && k < 6
    ensures Att.HexDigit(ParseMac(mac)[k] / 16) == LowChar(CharAt(mac, 3 * k))
    ensures Att.HexDigit(ParseMac(mac)[k] % 16) == LowChar(CharAt(mac, 3 * k + 1))
  {
    var hi, lo := CharAt(mac, 3 * k), CharAt(mac, 3 * k + 1);
    assert MacCharOk(hi, 3 * k) && MacCharOk(lo, 3 * k + 1);
    HexValueInRange(hi);
    HexValueInRange(lo);
    var x := ParseMac(mac)[k];
    assert x == 16 * HexDigitValue(hi) + HexDigitValue(lo);
    assert x / 16 == HexDigitValue(hi) && x % 16 == HexDigitValue(lo);
  }

  // ---------------------------------------------------------------------
  // Lower-casing and descriptor lookup
  // ---------------------------------------------------------------------

  /** One character of lowcase_str: only 'A'..'F' are lowered. */
  function LowChar(c: char): char
  {
    if 'A' <= c <= 'F' then (c as int + 0x20) as char else c
  }

  /** lowcase_str */
  function Lowcase(s: string): (r: string)
    ensures |r| == |s|
    ensures forall i :: 0 <= i < |s| ==> r[i] == LowChar(s[i])
  {
    seq(|s|, i requires 0 <= i < |s| => LowChar(s[i]))
  }

  lemma LowcaseIdempotent(s: string)
    ensures Lowcase(Lowcase(s)) == Lowcase(s)
  {
  }

  /** A string with no upper-case hex letter is left as it is. */
  lemma LowcaseKeeps(s: string)
    requires NoUpperHex(s)
    ensures Lowcase(s) == s
  {
  }

  /** No upper-case hex letter anywhere in `s`. */
  predicate NoUpperHex(s: string)
  {
    forall i :: 0 <= i < |s| ==> !('A' <= s[i] <= 'F')
  }

  lemma {:induction false} HexBytesNoUpper(b: seq<Byte>)
    ensures NoUpperHex(Att.HexBytes(b))
  {
    if b != [] {
      HexBytesNoUpper(b[1..]);
      HexDigitIsHex(b[0] / 16);
      HexDigitIsHex(b[0] % 16);
      var s := Att.HexBytes(b);
      assert s == [Att.HexDigit(b[0] / 16), Att.HexDigit(b[0] % 16)] + Att.HexBytes(b[1..]);
      forall i | 0 <= i < |s|
        ensures !('A' <= s[i] <= 'F')
      {
        if i >= 2 {
          assert s[i] == Att.HexBytes(b[1..])[i - 2];
        }
      }
    }
  }

  lemma NoUpperHexAppend(s: string, t: string)
    requires NoUpperHex(s) && NoUpperHex(t)
    ensures NoUpperHex(s + t)
  {
    forall i | 0 <= i < |s + t|
      ensures !('A' <= (s + t)[i] <= 'F')
    {
      if i >= |s| {
        assert (s + t)[i] == t[i - |s|];
      }
    }
  }

  /** The UUID strings the callbacks produce are already lower-case, which
      is why the query is lowered before it is compared. */
  lemma UuidStringsAreLowcase(v: Handle, bytes: seq<Byte>)
    requires |bytes| == 16
    ensures Lowcase(Att.Uuid16String(v)) == Att.Uuid16String(v)
    ensures Lowcase(Att.Uuid128String(bytes)) == Att.Uuid128String(bytes)
  {
    var q1 := v / 16;
    var q2 := q1 / 16;
    HexDigitIsHex(q2 / 16);
    HexDigitIsHex(q2 % 16);
    HexDigitIsHex(q1 % 16);
    HexDigitIsHex(v % 16);
    var r := Att.Reverse(bytes);
    var a, b, c, d, e := Att.HexBytes(r[0..4]), Att.HexBytes(r[4..6]), Att.HexBytes(r[6..8]),
      Att.HexBytes(r[8..10]), Att.HexBytes(r[10..16]);
    HexBytesNoUpper(r[0..4]);
    HexBytesNoUpper(r[4..6]);
    HexBytesNoUpper(r[6..8]);
    HexBytesNoUpper(r[8..10]);
    HexBytesNoUpper(r[10..16]);
    assert NoUpperHex("-");
    NoUpperHexAppend(a, "-");
    NoUpperHexAppend(a + "-", b);
    NoUpperHexAppend(a + "-" + b, "-");
    NoUpperHexAppend(a + "-" + b + "-", c);
    NoUpperHexAppend(a + "-" + b + "-" + c, "-");
    NoUpperHexAppend(a + "-" + b + "-" + c + "-", d);
    NoUpperHexAppend(a + "-" + b + "-" + c + "-" + d, "-");
    NoUpperHexAppend(a + "-" + b + "-" + c + "-" + d + "-", e);
    LowcaseKeeps(Att.Uuid128String(bytes));
  }

  /** The index of the last descriptor whose UUID is `u`. */
  function LastMatch(ds: seq<Descriptor>, u: string): (r: Option<nat>)
    ensures r.Some? ==> r.value < |ds| && ds[r.value].uuid == u
    ensures r.Some? ==> forall j :: r.value < j < |ds| ==> ds[j].uuid != u
    ensures r.None? ==> forall j :: 0 <= j < |ds| ==> ds[j].uuid != u
  {
    if ds == [] then None
    else if ds[|ds| - 1].uuid == u then Some(|ds| - 1)
    else LastMatch(ds[..|ds| - 1], u)
  }

  /** find_desc, comparing against the lowered query (the source lowers it
      and then compares the original, see AsWritten.FindDescAsWritten): every match
      is copied in turn, so the last one is returned. */
  method FindDesc(ds: seq<Descriptor>, query: string, memOk: bool) returns (r: Option<Descriptor>)
    ensures r.Some? <==> memOk && LastMatch(ds, Lowcase(query)).Some?
    ensures r.Some? ==> r.value == ds[LastMatch(ds, Lowcase(query)).value]
  {
    var u := Lowcase(query);
    r := None;
    var i := 0;
    while i < |ds|
      invariant 0 <= i <= |ds|
      invariant r.Some? <==> memOk && LastMatch(ds[..i], u).Some?
      invariant r.Some? ==> r.value == ds[LastMatch(ds[..i], u).value]
    {
      assert ds[..i + 1][..i] == ds[..i];
      if ds[i].uuid == u {
        r := DescCpy(Some(ds[i]), memOk);
      }
      i := i + 1;
    }
    assert ds[..|ds|] == ds;
  }

  /** The loops that copy the searched UUID into every record of a
      returned list (primary services, values read by UUID): `withUuid` is
      the record's `strcpy` into `uuid_str`. */
  function Stamp<T>(xs: seq<T>, u: string, withUuid: (T, string) -> T): (r: seq<T>)
    ensures |r| == |xs|
    ensures forall i :: 0 <= i < |xs| ==> r[i] == withUuid(xs[i], u)
  {
    seq(|xs|, i requires 0 <= i < |xs| => withUuid(xs[i], u))
  }

  // ---------------------------------------------------------------------
  // Unique results
  // ---------------------------------------------------------------------

  /** The unique-result wrappers (bl_get_primary, bl_get_char,
      bl_read_char): an error or an empty list gives nothing, more than one
      result is BL_UNICITY_ERROR, a single result is copied (a copy is
      field-equal, or NULL when allocation fails). */
  function Unique<T>(o: Outcome<seq<T>>, memOk: bool): (r: Outcome<Option<T>>)
    ensures r.dev == o.dev && r.sent == o.sent
    ensures o.err != NoError ==> r.err == o.err
    ensures o.err == NoError ==> (r.err == UnicityError <==> |o.value| > 1)
    ensures o.err == NoError && |o.value| <= 1 ==> r.err == NoError
    ensures r.value.Some? <==> o.err == NoError && |o.value| == 1 && memOk
    ensures r.value.Some? ==> r.value.value == o.value[0]
  {
    if o.err != NoError || o.value == [] then Outcome(o.err, None, o.dev, o.sent)
    else if |o.value| > 1 then Outcome(UnicityError, None, o.dev, o.sent)
    else Outcome(NoError, if memOk then Some(o.value[0]) else None, o.dev, o.sent)
  }
}

=== FILE: callback.dfy ===
/** The completion side of every request (src/callback.c): the record a
    callback fills in, the bounded wait for it, and one pure function per
    callback from an already-decoded response to the new record.

    Threads and mutexes are abstracted. "The callback has released
    `pending_cb_mtx`" is the flag `signalled`; the event loop is the
    `loopRunning` flag of the device context as observed at each poll. */
module Callback {
  import opened BlDefs
  import opened Gatt
  import opened ConnState
  import Att

  /** What `cb_ret_pointer` points to: nothing, a list of records, or one value. */
  datatype Payload =
    | NoPayload
    | Primaries(primaries: seq<Primary>)
    | Includes(includes: seq<Included>)
    | Chars(chars: seq<Characteristic>)
    | Descs(descs: seq<Descriptor>)
    | Values(values: seq<Value>)
    | One(value: Value)

  /** cb_ctx_t without the message buffer. */
  datatype CbCtx = CbCtx(signalled: bool, endHandle: Handle, retVal: int, payload: Payload)

  /** The device context and the completion record a callback sees together. */
  datatype Shared = Shared(dev: DeviceContext, cb: CbCtx)

  /** init_cb_ctx: not signalled, no end handle, no error, no payload. */
  function InitCbCtx(): (c: CbCtx)
    ensures !c.signalled && c.endHandle == 0 && c.retVal == NoError && c.payload == NoPayload
  {
    CbCtx(false, 0, NoError, NoPayload)
  }

  /** A callback's exit: store the code and payload, then release the mutex. */
  function Complete(s: Shared, ret: int, payload: Payload): (r: Shared)
    ensures r.cb.signalled && r.cb.retVal == ret && r.cb.payload == payload
    ensures r.dev == s.dev && r.cb.endHandle == s.cb.endHandle
  {
    s.(cb := s.cb.(signalled := true, retVal := ret, payload := payload))
  }

  // ---------------------------------------------------------------------
  // wait_for_cb
  // ---------------------------------------------------------------------

  /** CB_TIMEOUT_S * 10 polls of 100 ms. */
  const MaxPolls := 1200

  /** One observation by the waiting thread: is the event loop running, and
      has the callback released the mutex (so that trylock succeeds)? */
  datatype Poll = Poll(loopRunning: bool, answered: bool)

  /** The condition that ends the polling loop. */
  predicate Stops(p: Poll)
  {
    !p.loopRunning || p.answered
  }

  datatype PollOutcome = Exited(at: nat) | TimedOut

  /** The polling loop from probe `k` on. Probe `k` is made with
      `wait_cnt == k - 1`; the loop gives up after probe MaxPolls + 1 still
      says "keep waiting". */
  function PollFrom(polls: nat -> Poll, k: nat): (r: PollOutcome)
    requires 1 <= k <= MaxPolls + 1
    ensures r.Exited? ==> k <= r.at <= MaxPolls + 1 && Stops(polls(r.at))
    ensures r.Exited? ==> forall j :: k <= j < r.at ==> !Stops(polls(j))
    ensures r.TimedOut? <==> forall j :: k <= j <= MaxPolls + 1 ==> !Stops(polls(j))
    decreases MaxPolls + 1 - k
  {
    if Stops(polls(k)) then Exited(k)
    else if k == MaxPolls + 1 then TimedOut
    else PollFrom(polls, k + 1)
  }

  /** What wait_for_cb hands back: its return code, the payload stored
      through `ret_pointer`, the device context, and the error it raises. */
  datatype Waited = Waited(ret: int, payload: Payload, dev: DeviceContext, raised: Option<int>)

  /** The record as it is once waiting starts before the callback fired. */
  function Reset(s: Shared): (r: Shared)
    ensures r.cb.retVal == NoCallbackError && r.cb.payload == NoPayload
    ensures r.dev == s.dev && r.cb.signalled == s.cb.signalled && r.cb.endHandle == s.cb.endHandle
  {
    s.(cb := s.cb.(retVal := NoCallbackError, payload := NoPayload))
  }

  /** The code every failure of the wait itself returns, with DISCONNECTED set. */
  function Abort(dev: DeviceContext, code: int): (r: Waited)
    ensures r.ret == code && r.payload == NoPayload && r.raised == Some(code)
    ensures r.dev == SetConnState(dev, Disconnected)
  {
    Waited(code, NoPayload, SetConnState(dev, Disconnected), Some(code))
  }

  /** The tail of wait_for_cb once waiting is over. */
  function Finish(s: Shared, loopRunning: bool): (r: Waited)
    ensures !loopRunning ==> r == Abort(s.dev, DisconnectedError)
    ensures loopRunning ==> r.ret == s.cb.retVal && r.payload == s.cb.payload && r.dev == s.dev
    ensures loopRunning ==> (r.raised.Some? <==> s.cb.retVal != NoError)
  {
    if !loopRunning then Abort(s.dev, DisconnectedError)
    else Waited(s.cb.retVal, s.cb.payload, s.dev,
                if s.cb.retVal != NoError then Some(s.cb.retVal) else None)
  }

  /** wait_for_cb. `polls(0)` is the first check (trylock, then loop
      running); `polls(1)`, `polls(2)`, ... are the loop's probes; the final
      "is the loop still running" check reads the observation after the one
      that ended the waiting. `fired` is the record as the callback leaves
      it when it runs during the wait, that is the callback applied to
      `Reset(s)`. */
  function WaitForCb(s: Shared, fired: Shared, polls: nat -> Poll): (r: Waited)
    // it times out, returning BL_NO_CALLBACK_ERROR and disconnecting, after
    // MaxPolls + 1 probes that all find the loop running and no answer
    ensures !s.cb.signalled && polls(0).loopRunning
            && (forall j :: 1 <= j <= MaxPolls + 1 ==> !Stops(polls(j)))
            ==> r == Abort(s.dev, NoCallbackError)
    // an answer already in place is handed back as it is
    ensures s.cb.signalled && polls(1).loopRunning
            ==> r.ret == s.cb.retVal && r.payload == s.cb.payload && r.dev == s.dev
    // the result is the stored answer, the callback's answer, or a failure with no payload
    ensures || (r.ret == s.cb.retVal && r.payload == s.cb.payload && r.dev == s.dev)
            || (r.ret == fired.cb.retVal && r.payload == fired.cb.payload && r.dev == fired.dev)
            || (r.ret != NoError && r.payload == NoPayload)
    ensures || r.dev == s.dev || r.dev == SetConnState(s.dev, Disconnected)
            || r.dev == fired.dev || r.dev == SetConnState(fired.dev, Disconnected)
    // whatever happens, an error is raised exactly when the result is not success
    ensures r.raised.Some? <==> r.ret != NoError
    ensures r.raised.Some? ==> r.raised.value == r.ret
  {
    if !s.cb.signalled && polls(0).loopRunning then
      var reset := Reset(s);
      match PollFrom(polls, 1)
      case TimedOut => Abort(s.dev, NoCallbackError)
      case Exited(k) => Finish(if polls(k).answered then fired else reset, polls(k + 1).loopRunning)
    else
      Finish(s, polls(1).loopRunning)
  }

  /** A wait that starts before the callback runs reads nothing of the
      record but the device: the stored code and payload are reset, and
      only the callback's code, payload and device reach the result. */
  lemma WaitReadsAnswerOnly(s1: Shared, s2: Shared, fired1: Shared, fired2: Shared, polls: nat -> Poll)
    requires !s1.cb.signalled && !s2.cb.signalled && s1.dev == s2.dev && polls(0).loopRunning
    requires fired1.cb.retVal == fired2.cb.retVal && fired1.cb.payload == fired2.cb.payload
    requires fired1.dev == fired2.dev
    ensures WaitForCb(s1, fired1, polls) == WaitForCb(s2, fired2, polls)
  {
    match PollFrom(polls, 1)
    case TimedOut =>
    case Exited(k) =>
      if polls(k).answered {
        assert Finish(fired1, polls(k + 1).loopRunning) == Finish(fired2, polls(k + 1).loopRunning);
      } else {
        assert Finish(Reset(s1), polls(k + 1).loopRunning) == Finish(Reset(s2), polls(k + 1).loopRunning);
      }
  }

  /** An answer at probe k, with the loop running throughout, is delivered:
      the result is the one the callback left. */
  lemma {:induction false} AnsweredAtProbe(s: Shared, fired: Shared, polls: nat -> Poll, k: nat)
    requires !s.cb.signalled && polls(0).loopRunning
    requires 1 <= k <= MaxPolls + 1
    requires forall j :: 1 <= j < k ==> polls(j).loopRunning && !polls(j).answered
    requires polls(k).answered && polls(k + 1).loopRunning
    ensures WaitForCb(s, fired, polls).ret == fired.cb.retVal
    ensures WaitForCb(s, fired, polls).payload == fired.cb.payload
    ensures WaitForCb(s, fired, polls).dev == fired.dev
  {
    ExitsAt(polls, k);
  }

  /** Once the loop has stopped at the end of the wait, the callback's
      result is lost: BL_DISCONNECTED_ERROR, state DISCONNECTED. */
  lemma {:induction false} LoopStoppedDisconnects(s: Shared, fired: Shared, polls: nat -> Poll, k: nat)
    requires !s.cb.signalled && polls(0).loopRunning
    requires 1 <= k <= MaxPolls + 1
    requires forall j :: 1 <= j < k ==> polls(j).loopRunning && !polls(j).answered
    requires Stops(polls(k)) && !polls(k + 1).loopRunning
    ensures WaitForCb(s, fired, polls).ret == DisconnectedError
    ensures WaitForCb(s, fired, polls).payload == NoPayload
    ensures WaitForCb(s, fired, polls).dev.connState == Disconnected
  {
    ExitsAt(polls, k);
  }

  /** The polling loop ends at the first probe that stops it. */
  lemma ExitsAt(polls: nat -> Poll, k: nat)
    requires 1 <= k <= MaxPolls + 1 && Stops(polls(k))
    requires forall j :: 1 <= j < k ==> !Stops(polls(j))
    ensures PollFrom(polls, 1).Exited? && PollFrom(polls, 1).at == k
  {
    var r := PollFrom(polls, 1);
    assert r.Exited?;
    assert Stops(polls(r.at));
  }

  // ---------------------------------------------------------------------
  // Callbacks
  // ---------------------------------------------------------------------

  /** connect_cb: on error the device is disconnected and the request
      failed; otherwise an attribute channel is attached and the device is
      connected. The payload is left alone either way. */
  function ConnectCb(s: Shared, failed: bool): (r: Shared)
    ensures r.cb.signalled && r.cb.payload == s.cb.payload
    ensures failed ==> r.cb.retVal == RequestFailError && r.dev == SetConnState(s.dev, Disconnected)
    ensures !failed ==> r.cb.retVal == NoError && r.dev == SetConnState(s.dev, Connected).(attrib := true)
  {
    if failed then Complete(s.(dev := SetConnState(s.dev, Disconnected)), RequestFailError, s.cb.payload)
    else Complete(s.(dev := SetConnState(s.dev, Connected).(attrib := true)), NoError, s.cb.payload)
  }

  /** The shape shared by the four list callbacks: a failed status, an
      empty answer (when the callback checks for one), a failed allocation
      and success each have their code; the list replaces the payload only
      on success. Which allocation fails makes no difference to the result:
      the partial list is freed and the payload left alone. */
  function ListCb(s: Shared, status: Byte, count: nat, memOk: bool, checksEmpty: bool, built: Payload): (r: Shared)
    ensures r.cb.signalled && r.dev == s.dev && r.cb.endHandle == s.cb.endHandle
    ensures status != 0 ==> r.cb.retVal == RequestFailError
    ensures status == 0 && count > 0 && !memOk ==> r.cb.retVal == MallocError
    ensures status == 0 && (count == 0 || memOk) ==> r.cb.retVal == NoError
    ensures r.cb.payload != s.cb.payload ==> r.cb.payload == built
    ensures status == 0 && memOk && (count > 0 || !checksEmpty) ==> r.cb.payload == built
  {
    if status != 0 then Complete(s, RequestFailError, s.cb.payload)
    else if count == 0 && checksEmpty then Complete(s, NoError, s.cb.payload)
    else if count > 0 && !memOk then Complete(s, MallocError, s.cb.payload)
    else Complete(s, NoError, built)
  }

  /** struct gatt_primary as BlueZ decodes it. */
  datatype GattPrimary = GattPrimary(uuid: string, changed: bool, start: Handle, end: Handle)
  /** struct att_range */
  datatype AttRange = AttRange(start: Handle, end: Handle)
  /** struct gatt_included */
  datatype GattIncluded = GattIncluded(uuid: string, handle: Handle, start: Handle, end: Handle)
  /** struct gatt_char */
  datatype GattChar = GattChar(uuid: string, handle: Handle, properties: Byte, valueHandle: Handle)

  function FromGattPrimaries(ps: seq<GattPrimary>): (r: seq<Primary>)
    ensures |r| == |ps|
    ensures forall i :: 0 <= i < |ps| ==>
      r[i] == Primary(ps[i].uuid, ps[i].changed, ps[i].start, ps[i].end)
  {
    if ps == [] then []
    else [Primary(ps[0].uuid, ps[0].changed, ps[0].start, ps[0].end)] + FromGattPrimaries(ps[1..])
  }

  function FromRanges(rs: seq<AttRange>): (r: seq<Primary>)
    ensures |r| == |rs|
    ensures forall i :: 0 <= i < |rs| ==> r[i] == Primary("", false, rs[i].start, rs[i].end)
  {
    if rs == [] then [] else [Primary("", false, rs[0].start, rs[0].end)] + FromRanges(rs[1..])
  }

  function FromGattIncludes(incs: seq<GattIncluded>): (r: seq<Included>)
    ensures |r| == |incs|
    ensures forall i :: 0 <= i < |incs| ==>
      r[i] == Included(incs[i].uuid, incs[i].handle, incs[i].start, incs[i].end)
  {
    if incs == [] then []
    else [Included(incs[0].uuid, incs[0].handle, incs[0].start, incs[0].end)] + FromGattIncludes(incs[1..])
  }

  function FromGattChars(cs: seq<GattChar>): (r: seq<Characteristic>)
    ensures |r| == |cs|
    ensures forall i :: 0 <= i < |cs| ==>
      r[i] == Characteristic(cs[i].uuid, cs[i].handle, cs[i].properties, cs[i].valueHandle)
  {
    if cs == [] then []
    else [Characteristic(cs[0].uuid, cs[0].handle, cs[0].properties, cs[0].valueHandle)] + FromGattChars(cs[1..])
  }

  /** primary_all_cb: one primary per service, fields copied, in order. */
  function PrimaryAllCb(s: Shared, status: Byte, services: seq<GattPrimary>, memOk: bool): (r: Shared)
    ensures r.cb.signalled && r.dev == s.dev
    ensures status != 0 ==> r.cb.retVal == RequestFailError && r.cb.payload == s.cb.payload
    ensures status == 0 && services == [] ==> r.cb.retVal == NoError && r.cb.payload == s.cb.payload
    ensures status == 0 && services != [] && !memOk ==> r.cb.retVal == MallocError && r.cb.payload == s.cb.payload
    ensures status == 0 && services != [] && memOk ==>
      r.cb.retVal == NoError && r.cb.payload.Primaries? && |r.cb.payload.primaries| == |services|
      && forall i :: 0 <= i < |services| ==>
           r.cb.payload.primaries[i].uuid == services[i].uuid
           && r.cb.payload.primaries[i].changed == services[i].changed
           && r.cb.payload.primaries[i].startHandle == services[i].start
           && r.cb.payload.primaries[i].endHandle == services[i].end
  {
    ListCb(s, status, |services|, memOk, true, Primaries(FromGattPrimaries(services)))
  }

  /** primary_by_uuid_cb: one primary per handle range, with no UUID (the
      caller stamps it) and `changed` false. */
  function PrimaryByUuidCb(s: Shared, status: Byte, ranges: seq<AttRange>, memOk: bool): (r: Shared)
    ensures r.cb.signalled && r.dev == s.dev
    ensures status != 0 ==> r.cb.retVal == RequestFailError && r.cb.payload == s.cb.payload
    ensures status == 0 && ranges == [] ==> r.cb.retVal == NoError && r.cb.payload == s.cb.payload
    ensures status == 0 && ranges != [] && !memOk ==> r.cb.retVal == MallocError && r.cb.payload == s.cb.payload
    ensures status == 0 && ranges != [] && memOk ==>
      r.cb.retVal == NoError && r.cb.payload.Primaries? && |r.cb.payload.primaries| == |ranges|
      && forall i :: 0 <= i < |ranges| ==>
           r.cb.payload.primaries[i] == Primary("", false, ranges[i].start, ranges[i].end)
  {
    ListCb(s, status, |ranges|, memOk, true, Primaries(FromRanges(ranges)))
  }

  /** included_cb */
  function IncludedCb(s: Shared, status: Byte, includes: seq<GattIncluded>, memOk: bool): (r: Shared)
    ensures r.cb.signalled && r.dev == s.dev
    ensures status != 0 ==> r.cb.retVal == RequestFailError && r.cb.payload == s.cb.payload
    ensures status == 0 && includes == [] ==> r.cb.retVal == NoError && r.cb.payload == s.cb.payload
    ensures status == 0 && includes != [] && !memOk ==> r.cb.retVal == MallocError && r.cb.payload == s.cb.payload
    ensures status == 0 && includes != [] && memOk ==>
      r.cb.retVal == NoError && r.cb.payload.Includes? && |r.cb.payload.includes| == |includes|
      && forall i :: 0 <= i < |includes| ==>
           r.cb.payload.includes[i] == Included(includes[i].uuid, includes[i].handle, includes[i].start, includes[i].end)
  {
    ListCb(s, status, |includes|, memOk, true, Includes(FromGattIncludes(includes)))
  }

  /** char_by_uuid_cb: it has no "nothing found" branch, so an empty
      answer stores the empty (NULL) list. */
  function CharByUuidCb(s: Shared, status: Byte, chars: seq<GattChar>, memOk: bool): (r: Shared)
    ensures r.cb.signalled && r.dev == s.dev
    ensures status != 0 ==> r.cb.retVal == RequestFailError && r.cb.payload == s.cb.payload
    ensures status == 0 && chars != [] && !memOk ==> r.cb.retVal == MallocError && r.cb.payload == s.cb.payload
    ensures status == 0 && (chars == [] || memOk) ==>
      r.cb.retVal == NoError && r.cb.payload.Chars? && |r.cb.payload.chars| == |chars|
      && forall i :: 0 <= i < |chars| ==>
           r.cb.payload.chars[i] == Characteristic(chars[i].uuid, chars[i].handle, chars[i].properties, chars[i].valueHandle)
  {
    ListCb(s, status, |chars|, memOk, false, Chars(FromGattChars(chars)))
  }

  /** read_by_hnd_cb, with the allocation failure reported as
      BL_MALLOC_ERROR. `decoded` is what dec_read_resp produced (None when
      it returned a negative length). The value carries no UUID and handle
      0; the caller stamps the handle. */
  function ReadByHndCb(s: Shared, status: Byte, decoded: Option<seq<Byte>>, memOk: bool): (r: Shared)
    ensures r.cb.signalled && r.dev == s.dev
    ensures status != 0 ==> r.cb.retVal == RequestFailError && r.cb.payload == s.cb.payload
    ensures status == 0 && decoded.None? ==> r.cb.retVal == ProtocolError && r.cb.payload == s.cb.payload
    ensures status == 0 && decoded.Some? && !memOk ==> r.cb.retVal == MallocError && r.cb.payload == NoPayload
    ensures status == 0 && decoded.Some? && memOk ==>
      r.cb.retVal == NoError && r.cb.payload == One(Value("", 0, decoded.value))
  {
    if status != 0 then Complete(s, RequestFailError, s.cb.payload)
    else match decoded
      case None => Complete(s, ProtocolError, s.cb.payload)
      case Some(data) =>
        assert data[..|data|] == data;
        match ValueNew(None, 0, |data|, data, memOk)
        case None => Complete(s, MallocError, NoPayload)
        case Some(v) => Complete(s, NoError, One(v))
  }

  /** struct att_data_list as dec_read_by_type_resp builds it: every record
      is `len` bytes long, a 2-byte handle followed by the value. */
  datatype RawDataList = RawDataList(len: nat, records: seq<seq<Byte>>)

  predicate WellFormedList(l: RawDataList)
  {
    l.len >= 2 && forall i :: 0 <= i < |l.records| ==> |l.records[i]| == l.len
  }

  type AttDataList = l: RawDataList | WellFormedList(l) witness RawDataList(2, [])

  /** One Read By Type record (section 3.4.4.2 of the ATT protocol, Vol 3
      Part F of the Bluetooth Core specification, v4.0): handle, then value. */
  function RecordValue(rec: seq<Byte>): (v: Value)
    requires |rec| >= 2
    ensures v.uuid == "" && v.handle == Att.GetLeU16(rec[..2]) && v.data == rec[2..]
    ensures |v.data| + 2 == |rec|
  {
    Value("", Att.GetLeU16(rec[..2]), rec[2..])
  }

  function RecordValues(recs: seq<seq<Byte>>): (r: seq<Value>)
    requires forall i :: 0 <= i < |recs| ==> |recs[i]| >= 2
    ensures |r| == |recs|
    ensures forall i :: 0 <= i < |recs| ==> r[i] == RecordValue(recs[i])
  {
    if recs == [] then [] else [RecordValue(recs[0])] + RecordValues(recs[1..])
  }

  /** read_by_uuid_cb: one value per record, in order. */
  function ReadByUuidCb(s: Shared, status: Byte, list: Option<AttDataList>, memOk: bool): (r: Shared)
    ensures r.cb.signalled && r.dev == s.dev
    ensures status != 0 ==> r.cb.retVal == RequestFailError && r.cb.payload == s.cb.payload
    ensures status == 0 && list.None? ==> r.cb.retVal == NoError && r.cb.payload == s.cb.payload
    ensures status == 0 && list.Some? && list.value.records != [] && !memOk ==>
      r.cb.retVal == MallocError && r.cb.payload == s.cb.payload
    ensures status == 0 && list.Some? && (list.value.records == [] || memOk) ==>
      r.cb.retVal == NoError && r.cb.payload.Values?
      && |r.cb.payload.values| == |list.value.records|
      && forall i :: 0 <= i < |list.value.records| ==>
           r.cb.payload.values[i].handle == Att.GetLeU16(list.value.records[i][..2])
           && r.cb.payload.values[i].data == list.value.records[i][2..]
           && |r.cb.payload.values[i].data| == list.value.len - 2
  {
    if status != 0 then Complete(s, RequestFailError, s.cb.payload)
    else match list
      case None => Complete(s, NoError, s.cb.payload)
      case Some(l) =>
        if l.records != [] && !memOk then Complete(s, MallocError, s.cb.payload)
        else Complete(s, NoError, Values(RecordValues(l.records)))
  }

  /** write_req_cb: `isWriteResp` / `isExecWriteResp` say whether the PDU
      decodes as a Write Response / Execute Write Response. */
  function WriteReqCb(s: Shared, status: Byte, isWriteResp: bool, isExecWriteResp: bool): (r: Shared)
    ensures r.cb.signalled && r.dev == s.dev && r.cb.payload == s.cb.payload
    ensures status != 0 ==> r.cb.retVal == RequestFailError
    ensures status == 0 ==> (r.cb.retVal == NoError <==> isWriteResp || isExecWriteResp)
    ensures status == 0 && !isWriteResp && !isExecWriteResp ==> r.cb.retVal == ProtocolError
  {
    if status != 0 then Complete(s, RequestFailError, s.cb.payload)
    else if !isWriteResp && !isExecWriteResp then Complete(s, ProtocolError, s.cb.payload)
    else Complete(s, NoError, s.cb.payload)
  }

  /** The MTU both sides use after an exchange (section 3.4.2 of the ATT
      protocol): the smaller of the server's and the requested one, stored in
      a uint16_t. */
  function NegotiatedMtu(serverMtu: Handle, requested: int): (m: Handle)
    ensures 0 <= requested ==> m <= serverMtu && m <= requested
    ensures 0 <= requested ==> (m == serverMtu || m == requested)
  {
    Min(serverMtu, requested) % 0x1_0000
  }

  /** exchange_mtu_cb: `serverMtu` is the decoded Exchange MTU Response
      (None when it does not decode); `framerAccepts` whether
      g_attrib_set_mtu took the new value. */
  function ExchangeMtuCb(s: Shared, status: Byte, serverMtu: Option<Handle>, framerAccepts: bool): (r: Shared)
    ensures r.cb.signalled && r.cb.payload == s.cb.payload
    ensures status != 0 ==> r.cb.retVal == RequestFailError && r.dev == s.dev
    ensures status == 0 && serverMtu.None? ==> r.cb.retVal == ProtocolError && r.dev == s.dev
    ensures status == 0 && serverMtu.Some? && !framerAccepts ==> r.cb.retVal == RequestFailError && r.dev == s.dev
    ensures status == 0 && serverMtu.Some? && framerAccepts ==>
      r.cb.retVal == NoError && r.dev == s.dev.(attMtu := NegotiatedMtu(serverMtu.value, s.dev.mtu))
  {
    if status != 0 then Complete(s, RequestFailError, s.cb.payload)
    else match serverMtu
      case None => Complete(s, ProtocolError, s.cb.payload)
      case Some(m) =>
        if !framerAccepts then Complete(s, RequestFailError, s.cb.payload)
        else Complete(s.(dev := s.dev.(attMtu := NegotiatedMtu(m, s.dev.mtu))), NoError, s.cb.payload)
  }
}

=== FILE: char_desc.dfy ===
/** Characteristic descriptor discovery (char_desc_cb, src/callback.c:462-552):
    one Find Information Response at a time, accumulated across responses
    until a declaration, the end of the range or an error ends the
    procedure (section 4.7.1 of the GATT profile, Bluetooth Core v4.0 Vol 3
    Part G). The server is simulated by an attribute table so that the whole
    procedure can be compared with a declarative reference. */
module CharDesc {
  import opened BlDefs
  import opened Gatt
  import opened Callback
  import Att

  // ---------------------------------------------------------------------
  // The decoded response (struct att_data_list plus the format byte)
  // ---------------------------------------------------------------------

  /** Format 0x01: handle and 16-bit UUID; otherwise handle and 128-bit UUID
      (section 3.4.3.2 of the ATT protocol, Vol 3 Part F). */
  function EntryLen(format: Byte): nat
  {
    if format == 1 then 4 else 18
  }

  datatype RawFindInfo = RawFindInfo(format: Byte, entries: seq<seq<Byte>>)

  predicate WellFormedInfo(l: RawFindInfo)
  {
    forall i :: 0 <= i < |l.entries| ==> |l.entries[i]| == EntryLen(l.format)
  }

  type FindInfoList = l: RawFindInfo | WellFormedInfo(l) witness RawFindInfo(1, [])

  function EntryHandle(e: seq<Byte>): Handle
    requires |e| >= 2
  {
    Att.GetLeU16(e[..2])
  }

  /** The UUID of an entry as bt_uuid_to_string prints it. */
  function EntryUuid(format: Byte, e: seq<Byte>): string
    requires |e| == EntryLen(format)
  {
    if format == 1 then Att.Uuid16String(Att.GetLeU16(e[2..4])) else Att.Uuid128String(e[2..18])
  }

  function EntryDesc(format: Byte, e: seq<Byte>): Descriptor
    requires |e| == EntryLen(format)
  {
    Descriptor(EntryUuid(format, e), EntryHandle(e))
  }

  function DecodeAll(format: Byte, es: seq<seq<Byte>>): (ds: seq<Descriptor>)
    requires forall i :: 0 <= i < |es| ==> |es[i]| == EntryLen(format)
    ensures |ds| == |es|
    ensures forall i :: 0 <= i < |es| ==> ds[i] == EntryDesc(format, es[i])
  {
    if es == [] then [] else [EntryDesc(format, es[0])] + DecodeAll(format, es[1..])
  }

  // ---------------------------------------------------------------------
  // The reference: descriptors up to the first declaration
  // ---------------------------------------------------------------------

  predicate IsDeclarationDesc(d: Descriptor)
  {
    Att.IsDeclaration(d.uuid)
  }

  predicate HasDeclaration(ds: seq<Descriptor>)
  {
    exists i :: 0 <= i < |ds| && IsDeclarationDesc(ds[i])
  }

  /** The longest prefix of `ds` holding no declaration. */
  function UntilDeclaration(ds: seq<Descriptor>): (r: seq<Descriptor>)
    ensures |r| <= |ds| && r == ds[..|r|]
    ensures forall i :: 0 <= i < |r| ==> !IsDeclarationDesc(r[i])
    ensures |r| < |ds| ==> IsDeclarationDesc(ds[|r|])
  {
    if ds == [] || IsDeclarationDesc(ds[0]) then [] else [ds[0]] + UntilDeclaration(ds[1..])
  }

  /** A non-empty list holds a declaration when its head is one or its
      tail holds one. */
  lemma HasDeclarationCons(x: seq<Descriptor>)
    requires x != []
    ensures HasDeclaration(x) <==> IsDeclarationDesc(x[0]) || HasDeclaration(x[1..])
  {
    if HasDeclaration(x) && !IsDeclarationDesc(x[0]) {
      var i :| 0 <= i < |x| && IsDeclarationDesc(x[i]);
      assert IsDeclarationDesc(x[1..][i - 1]);
    }
    if HasDeclaration(x[1..]) {
      var i :| 0 <= i < |x[1..]| && IsDeclarationDesc(x[1..][i]);
      assert IsDeclarationDesc(x[i + 1]);
    }
  }

  lemma {:induction false} UntilDeclarationAppend(x: seq<Descriptor>, y: seq<Descriptor>)
    ensures HasDeclaration(x) ==> UntilDeclaration(x + y) == UntilDeclaration(x)
    ensures !HasDeclaration(x) ==> UntilDeclaration(x + y) == x + UntilDeclaration(y)
  {
    if x == [] {
      assert x + y == y;
    } else {
      var xy := x + y;
      assert xy[0] == x[0];
      assert xy[1..] == x[1..] + y;
      HasDeclarationCons(x);
      if !IsDeclarationDesc(x[0]) {
        UntilDeclarationAppend(x[1..], y);
        assert x == [x[0]] + x[1..];
      }
    }
  }

  // ---------------------------------------------------------------------
  // char_desc_cb
  // ---------------------------------------------------------------------

  datatype ScanStop = Completed | AtDeclaration | OutOfMemory

  /** The accumulator, why the scan stopped, and the last handle read. */
  datatype Scan = Scan(acc: seq<Descriptor>, stop: ScanStop, last: Handle)

  /** How many descriptor allocations still succeed: None when memory does
      not run out, Some(n) when the allocation after the next n fails
      (`bl_desc_new`, or `g_slist_alloc` for the first element of the list). */
  type Room = Option<nat>

  /** `n` allocations succeed within `room`. */
  predicate Fits(room: Room, n: nat)
  {
    room.None? || n <= room.value
  }

  /** The room left after one allocation. */
  function Spend(room: Room): Room
    requires room != Some(0)
  {
    if room.Some? then Some(room.value - 1) else None
  }

  /** The loop over the entries of one response, each already decoded
      (its handle and UUID string). It appends the entries up to the first
      declaration, as long as their allocations succeed: it stops at the
      declaration, at the first failed allocation keeping what was appended
      before it, or runs to the end having read the last entry's handle. */
  function ScanEntries(ds: seq<Descriptor>, acc: seq<Descriptor>, last: Handle, room: Room): (r: Scan)
    ensures var u := UntilDeclaration(ds);
      Fits(room, |u|) ==>
        && r.acc == acc + u && r.stop != OutOfMemory
        && (r.stop == AtDeclaration <==> HasDeclaration(ds))
    ensures var u := UntilDeclaration(ds);
      !Fits(room, |u|) ==> r.stop == OutOfMemory && r.acc == acc + u[..room.value]
    ensures r.stop == Completed && ds != [] ==> r.last == ds[|ds| - 1].handle
    ensures r.stop == Completed && ds == [] ==> r.last == last
    decreases |ds|
  {
    if ds == [] then Scan(acc, Completed, last)
    else if IsDeclarationDesc(ds[0]) then Scan(acc, AtDeclaration, ds[0].handle)
    else if room == Some(0) then Scan(acc, OutOfMemory, ds[0].handle)
    else
      ScanStep(ds, acc, room);
      ScanEntries(ds[1..], acc + [ds[0]], ds[0].handle, Spend(room))
  }

  /** What one appended entry changes: the prefix before the first
      declaration and the room both lose that entry. */
  lemma ScanStep(ds: seq<Descriptor>, acc: seq<Descriptor>, room: Room)
    requires ds != [] && !IsDeclarationDesc(ds[0]) && room != Some(0)
    ensures HasDeclaration(ds) <==> HasDeclaration(ds[1..])
    ensures Fits(room, |UntilDeclaration(ds)|) <==> Fits(Spend(room), |UntilDeclaration(ds[1..])|)
    ensures acc + [ds[0]] + UntilDeclaration(ds[1..]) == acc + UntilDeclaration(ds)
    ensures !Fits(room, |UntilDeclaration(ds)|) ==>
      acc + [ds[0]] + UntilDeclaration(ds[1..])[..room.value - 1] == acc + UntilDeclaration(ds)[..room.value]
  {
    HasDeclarationCons(ds);
    var u, v := UntilDeclaration(ds), UntilDeclaration(ds[1..]);
    assert u == [ds[0]] + v;
    AppendAssoc(acc, [ds[0]], v);
    if !Fits(room, |u|) {
      TakeCons(ds[0], v, room.value);
      AppendAssoc(acc, [ds[0]], v[..room.value - 1]);
    }
  }

  lemma AppendAssoc(x: seq<Descriptor>, y: seq<Descriptor>, z: seq<Descriptor>)
    ensures x + y + z == x + (y + z)
  {
  }

  lemma TakeCons(d: Descriptor, x: seq<Descriptor>, n: nat)
    requires 1 <= n <= |x| + 1
    ensures ([d] + x)[..n] == [d] + x[..n - 1]
  {
  }

  /** The state after one call of char_desc_cb: the completion record, the
      static accumulator `bl_desc_list`, and the start of the continuation
      request when one was sent. */
  datatype DescStep = DescStep(s: Shared, acc: seq<Descriptor>, next: Option<Handle>)

  /** The `exit:` label: a non-empty accumulator is returned as a success
      whatever the code was; the mutex is released. */
  function DescExit(s: Shared, ret: int, acc: seq<Descriptor>): (r: Shared)
    ensures r.cb.signalled && r.dev == s.dev && r.cb.endHandle == s.cb.endHandle
    ensures acc != [] ==> r.cb.retVal == NoError && r.cb.payload == Descs(acc)
    ensures acc == [] ==> r.cb.retVal == ret && r.cb.payload == s.cb.payload
  {
    if acc != [] then Complete(s, NoError, Descs(acc)) else Complete(s, ret, s.cb.payload)
  }

  /** The body of char_desc_cb once the response has been decoded
      (`ds` is None when there is no response list). */
  function DescResponse(s: Shared, acc: seq<Descriptor>, status: Byte, ds: Option<seq<Descriptor>>,
                        sendOk: bool, room: Room): (r: DescStep)
    // every path but a sent continuation releases the mutex and empties the accumulator
    ensures r.next.None? ==> r.s.cb.signalled && r.acc == [] && r.s.dev == s.dev
    // a continuation asks for the handle after the last one received, within the range
    ensures r.next.Some? ==>
      r.s == s && ds.Some? && ds.value != []
      && r.next.value == ds.value[|ds.value| - 1].handle + 1 && r.next.value <= s.cb.endHandle
  {
    if status != 0 then DescStep(DescExit(s, RequestFailError, acc), [], None)
    else match ds
      case None => DescStep(DescExit(s, NoError, acc), [], None)
      case Some(d) =>
        var sc := ScanEntries(d, acc, LastHandle, room);
        match sc.stop
        case OutOfMemory => DescStep(DescExit(s, MallocError, sc.acc), [], None)
        case AtDeclaration => DescStep(DescExit(s, s.cb.retVal, sc.acc), [], None)
        case Completed =>
          if sc.last != LastHandle && sc.last < s.cb.endHandle then
            if sendOk then DescStep(s, sc.acc, Some(sc.last + 1))
            else DescStep(DescExit(s, SendRequestError, sc.acc), [], None)
          else DescStep(DescExit(s, s.cb.retVal, sc.acc), [], None)
  }

  /** A failed request ends the procedure with the request failure code,
      unless something was accumulated. */
  lemma DescResponseOnError(s: Shared, acc: seq<Descriptor>, status: Byte, ds: Option<seq<Descriptor>>,
                            sendOk: bool, room: Room)
    requires status != 0
    ensures var r := DescResponse(s, acc, status, ds, sendOk, room);
      r.next.None? && r.s == DescExit(s, RequestFailError, acc)
  {
  }

  /** A continuation is sent exactly after a whole response free of
      declarations whose entries were all allocated, whose last handle is
      below both 0xFFFF and end_handle_cb, and when the continuation request
      is accepted; it carries the response's descriptors forward. */
  lemma DescResponseContinues(s: Shared, acc: seq<Descriptor>, status: Byte, ds: Option<seq<Descriptor>>,
                              sendOk: bool, room: Room)
    ensures var r := DescResponse(s, acc, status, ds, sendOk, room);
      r.next.Some? <==>
        && status == 0 && ds.Some? && ds.value != [] && !HasDeclaration(ds.value) && Fits(room, |ds.value|)
        && ds.value[|ds.value| - 1].handle != LastHandle && ds.value[|ds.value| - 1].handle < s.cb.endHandle
        && sendOk
    ensures var r := DescResponse(s, acc, status, ds, sendOk, room);
      r.next.Some? ==> r.acc == acc + ds.value
  {
    if status == 0 && ds.Some? {
      var d := ds.value;
      var sc := ScanEntries(d, acc, LastHandle, room);
      if !HasDeclaration(d) {
        assert UntilDeclaration(d) == d by {
          UntilDeclarationAppend(d, []);
          assert d + [] == d;
        }
      } else {
        assert sc.stop != Completed;
      }
    }
  }

  /** An allocation failing inside a response ends the procedure with what
      was accumulated before it: a success when that is not empty (the
      `exit:` label), BL_MALLOC_ERROR otherwise. */
  lemma DescResponseOutOfMemory(s: Shared, acc: seq<Descriptor>, d: seq<Descriptor>, sendOk: bool, n: nat)
    requires n < |UntilDeclaration(d)|
    ensures var r := DescResponse(s, acc, 0, Some(d), sendOk, Some(n));
      var kept := acc + UntilDeclaration(d)[..n];
      && r.next.None? && r.acc == []
      && (kept != [] ==> r.s.cb.retVal == NoError && r.s.cb.payload == Descs(kept))
      && (kept == [] ==> r.s.cb.retVal == MallocError && r.s.cb.payload == s.cb.payload)
  {
  }

  /** The descriptors returned never include a declaration, provided none
      was accumulated before. */
  lemma DescResponseNoDeclaration(s: Shared, acc: seq<Descriptor>, status: Byte, ds: Option<seq<Descriptor>>,
                                  sendOk: bool, room: Room)
    requires forall i :: 0 <= i < |acc| ==> !IsDeclarationDesc(acc[i])
    ensures var r := DescResponse(s, acc, status, ds, sendOk, room);
      r.next.None? && r.s.cb.payload != s.cb.payload ==>
        r.s.cb.retVal == NoError && r.s.cb.payload.Descs?
        && forall i :: 0 <= i < |r.s.cb.payload.descs| ==> !IsDeclarationDesc(r.s.cb.payload.descs[i])
  {
    if status == 0 && ds.Some? {
      var sc := ScanEntries(ds.value, acc, LastHandle, room);
      var u := UntilDeclaration(ds.value);
      var added := if Fits(room, |u|) then u else u[..room.value];
      assert sc.acc == acc + added;
      forall i | 0 <= i < |sc.acc|
        ensures !IsDeclarationDesc(sc.acc[i])
      {
        if i >= |acc| {
          assert sc.acc[i] == u[i - |acc|];
        }
      }
    }
  }

  /** The response list decoded entry by entry. */
  function Decode(list: Option<FindInfoList>): (ds: Option<seq<Descriptor>>)
    ensures ds.Some? <==> list.Some?
    ensures list.Some? ==> |ds.value| == |list.value.entries|
  {
    match list
    case None => None
    case Some(l) => Some(DecodeAll(l.format, l.entries))
  }

  /** char_desc_cb: decode the Find Information Response, then walk it. */
  function CharDescCb(s: Shared, acc: seq<Descriptor>, status: Byte, list: Option<FindInfoList>,
                      sendOk: bool, room: Room): (r: DescStep)
    ensures r.next.Some? ==>
      && list.Some? && list.value.entries != []
      && r.next.value == DecodeAll(list.value.format, list.value.entries)[|list.value.entries| - 1].handle + 1
  {
    DescResponse(s, acc, status, Decode(list), sendOk, room)
  }

  // ---------------------------------------------------------------------
  // A simulated server: the attribute table and Find Information
  // ---------------------------------------------------------------------

  /** The type of an attribute as the server stores it. */
  datatype AttrType = Uuid16(v: Handle) | Uuid128(bytes: seq<Byte>)

  datatype Attribute = Attribute(handle: Handle, atype: AttrType)

  predicate WellFormedAttr(a: Attribute)
  {
    a.atype.Uuid128? ==> |a.atype.bytes| == 16
  }

  /** Handles strictly increase along the table. */
  predicate Sorted(u: seq<Attribute>)
  {
    forall i, j :: 0 <= i < j < |u| ==> u[i].handle < u[j].handle
  }

  predicate ValidTable(t: seq<Attribute>)
  {
    Sorted(t) && forall i :: 0 <= i < |t| ==> WellFormedAttr(t[i])
  }

  function AttrFormat(a: Attribute): Byte
  {
    if a.atype.Uuid16? then 1 else 2
  }

  function AttrUuid(a: Attribute): string
    requires WellFormedAttr(a)
  {
    match a.atype
    case Uuid16(v) => Att.Uuid16String(v)
    case Uuid128(bytes) => Att.Uuid128String(bytes)
  }

  /** The descriptor a client should learn from an attribute. */
  function AttrDesc(a: Attribute): Descriptor
    requires WellFormedAttr(a)
  {
    Descriptor(AttrUuid(a), a.handle)
  }

  function DescsOf(u: seq<Attribute>): (ds: seq<Descriptor>)
    requires forall i :: 0 <= i < |u| ==> WellFormedAttr(u[i])
    ensures |ds| == |u|
    ensures forall i :: 0 <= i < |u| ==> ds[i] == AttrDesc(u[i])
  {
    if u == [] then [] else [AttrDesc(u[0])] + DescsOf(u[1..])
  }

  /** One entry of a Find Information Response: the handle, then the UUID,
      both little-endian. */
  function EncodeEntry(a: Attribute): (e: seq<Byte>)
    requires WellFormedAttr(a)
    ensures |e| == EntryLen(AttrFormat(a))
  {
    match a.atype
    case Uuid16(v) => Att.PutLeU16(a.handle) + Att.PutLeU16(v)
    case Uuid128(bytes) => Att.PutLeU16(a.handle) + bytes
  }

  /** Decoding an entry gives back the attribute's handle and UUID. */
  lemma DecodeEncodeEntry(a: Attribute)
    requires WellFormedAttr(a)
    ensures EntryDesc(AttrFormat(a), EncodeEntry(a)) == AttrDesc(a)
  {
    var e := EncodeEntry(a);
    assert e[..2] == Att.PutLeU16(a.handle);
    Att.LeU16RoundTrip(a.handle, e[..2]);
    match a.atype {
      case Uuid16(v) =>
        assert e[2..4] == Att.PutLeU16(v);
        Att.LeU16RoundTrip(v, e[2..4]);
      case Uuid128(bytes) =>
        assert e[2..18] == bytes;
    }
  }

  function EncodeAll(u: seq<Attribute>, format: Byte): (es: seq<seq<Byte>>)
    requires forall i :: 0 <= i < |u| ==> WellFormedAttr(u[i]) && AttrFormat(u[i]) == format
    ensures |es| == |u|
    ensures forall i :: 0 <= i < |u| ==> es[i] == EncodeEntry(u[i]) && |es[i]| == EntryLen(format)
  {
    if u == [] then [] else [EncodeEntry(u[0])] + EncodeAll(u[1..], format)
  }

  lemma DecodeEncodeAll(u: seq<Attribute>, format: Byte)
    requires forall i :: 0 <= i < |u| ==> WellFormedAttr(u[i]) && AttrFormat(u[i]) == format
    ensures DecodeAll(format, EncodeAll(u, format)) == DescsOf(u)
  {
    var es := EncodeAll(u, format);
    forall i | 0 <= i < |u|
      ensures DecodeAll(format, es)[i] == DescsOf(u)[i]
    {
      DecodeEncodeEntry(u[i]);
    }
  }

  /** The attributes of `t` whose handle lies in [lo, hi], in table order. */
  function InRange(t: seq<Attribute>, lo: int, hi: int): (u: seq<Attribute>)
    ensures |u| <= |t|
    ensures forall i :: 0 <= i < |u| ==> lo <= u[i].handle <= hi
    ensures (forall i :: 0 <= i < |t| ==> WellFormedAttr(t[i])) ==> forall i :: 0 <= i < |u| ==> WellFormedAttr(u[i])
  {
    if t == [] then []
    else (if lo <= t[0].handle <= hi then [t[0]] else []) + InRange(t[1..], lo, hi)
  }

  /** Filtering keeps a lower bound every handle of the table respects. */
  lemma {:induction false} InRangeAbove(t: seq<Attribute>, lo: int, hi: int, x: int)
    requires forall i :: 0 <= i < |t| ==> x < t[i].handle
    ensures forall i :: 0 <= i < |InRange(t, lo, hi)| ==> x < InRange(t, lo, hi)[i].handle
  {
    if t != [] {
      InRangeAbove(t[1..], lo, hi, x);
    }
  }

  lemma {:induction false} InRangeSorted(t: seq<Attribute>, lo: int, hi: int)
    requires Sorted(t)
    ensures Sorted(InRange(t, lo, hi))
  {
    if t != [] {
      var tail := t[1..];
      assert Sorted(tail) by {
        forall i, j | 0 <= i < j < |tail|
          ensures tail[i].handle < tail[j].handle
        {
          assert tail[i] == t[i + 1] && tail[j] == t[j + 1];
        }
      }
      InRangeSorted(tail, lo, hi);
      forall i | 0 <= i < |tail|
        ensures t[0].handle < tail[i].handle
      {
        assert tail[i] == t[i + 1];
      }
      InRangeAbove(tail, lo, hi, t[0].handle);
    }
  }

  /** Every attribute already in the range filters to itself. */
  lemma {:induction false} InRangeOfInRange(u: seq<Attribute>, lo: int, hi: int)
    requires forall i :: 0 <= i < |u| ==> lo <= u[i].handle <= hi
    ensures InRange(u, lo, hi) == u
  {
    if u != [] {
      assert lo <= u[0].handle <= hi;
      InRangeOfInRange(u[1..], lo, hi);
      assert InRange(u, lo, hi) == [u[0]] + u[1..];
    }
  }

  /** Narrowing the range of an already filtered table. */
  lemma {:induction false} InRangeNarrow(t: seq<Attribute>, lo: int, lo2: int, hi: int)
    requires lo <= lo2
    ensures InRange(InRange(t, lo, hi), lo2, hi) == InRange(t, lo2, hi)
  {
    if t != [] {
      InRangeNarrow(t[1..], lo, lo2, hi);
      var head := if lo <= t[0].handle <= hi then [t[0]] else [];
      InRangeAppend(head, InRange(t[1..], lo, hi), lo2, hi);
      if lo <= t[0].handle <= hi {
        assert InRange(head, lo2, hi) == (if lo2 <= t[0].handle <= hi then [t[0]] else []) by {
          assert head[1..] == [];
        }
      }
    }
  }

  lemma {:induction false} InRangeAppend(x: seq<Attribute>, y: seq<Attribute>, lo: int, hi: int)
    ensures InRange(x + y, lo, hi) == InRange(x, lo, hi) + InRange(y, lo, hi)
  {
    if x == [] {
      assert x + y == y;
    } else {
      assert (x + y)[0] == x[0];
      assert (x + y)[1..] == x[1..] + y;
      InRangeAppend(x[1..], y, lo, hi);
    }
  }

  /** Past the handle of its n-th element, a sorted range is its suffix. */
  lemma {:induction false} InRangeAfter(u: seq<Attribute>, n: nat, lo: int, hi: int)
    requires Sorted(u) && 1 <= n <= |u| && lo == u[n - 1].handle + 1
    requires forall i :: 0 <= i < |u| ==> u[i].handle <= hi
    ensures InRange(u, lo, hi) == u[n..]
  {
    assert u[0].handle < lo by {
      if n > 1 {
        assert u[0].handle < u[n - 1].handle;
      }
    }
    assert InRange(u, lo, hi) == InRange(u[1..], lo, hi);
    if n == 1 {
      AfterFirst(u, lo, hi);
    } else {
      var v := u[1..];
      SortedTail(u, hi);
      assert v[n - 2] == u[n - 1];
      InRangeAfter(v, n - 1, lo, hi);
      assert v[n - 1..] == u[n..];
    }
  }

  /** Past the first handle of a sorted table, the whole rest is in range. */
  lemma AfterFirst(u: seq<Attribute>, lo: int, hi: int)
    requires Sorted(u) && 1 <= |u| && lo == u[0].handle + 1
    requires forall i :: 0 <= i < |u| ==> u[i].handle <= hi
    ensures InRange(u[1..], lo, hi) == u[1..]
  {
    forall i | 0 <= i < |u[1..]|
      ensures lo <= u[1..][i].handle <= hi
    {
      assert u[1..][i] == u[i + 1];
      assert u[0].handle < u[i + 1].handle;
    }
    InRangeOfInRange(u[1..], lo, hi);
  }

  lemma SortedTail(u: seq<Attribute>, hi: int)
    requires Sorted(u) && 1 <= |u|
    requires forall i :: 0 <= i < |u| ==> u[i].handle <= hi
    ensures Sorted(u[1..])
    ensures forall i :: 0 <= i < |u[1..]| ==> u[1..][i].handle <= hi
  {
    var v := u[1..];
    forall i, j | 0 <= i < j < |v|
      ensures v[i].handle < v[j].handle
    {
      assert v[i] == u[i + 1] && v[j] == u[j + 1];
    }
  }


  /** The longest run of entries sharing `format`, at most `cap` of them: a
      response holds a single UUID width and is bounded by the ATT_MTU. */
  function TakeRun(u: seq<Attribute>, format: Byte, cap: nat): (b: seq<Attribute>)
    ensures |b| <= |u| && |b| <= cap && b == u[..|b|]
    ensures forall i :: 0 <= i < |b| ==> AttrFormat(b[i]) == format
    ensures u != [] && cap >= 1 && AttrFormat(u[0]) == format ==> |b| >= 1
  {
    if u == [] || cap == 0 || AttrFormat(u[0]) != format then []
    else [u[0]] + TakeRun(u[1..], format, cap - 1)
  }

  datatype ServerReply = ServerReply(status: Byte, list: Option<FindInfoList>)

  /** ATT error code "Invalid Handle". */
  const InvalidHandleCode: Byte := 0x01

  /** The server's answer to Find Information Request [lo, hi] (section
      3.4.3.1 of the ATT protocol): Invalid Handle for a start of 0 or past
      the end, Attribute Not Found for an empty range, otherwise the first
      run of entries of one format, at most `cap` of them. */
  function FindInfoServer(t: seq<Attribute>, lo: int, hi: int, cap: nat): (r: ServerReply)
    requires ValidTable(t) && cap >= 1
    ensures r.status == 0 <==> r.list.Some?
    ensures r.list.Some? ==> r.list.value.entries != []
    ensures r.list.Some? ==> forall i :: 0 <= i < |r.list.value.entries| ==>
      lo <= DecodeAll(r.list.value.format, r.list.value.entries)[i].handle <= hi
  {
    if lo < 1 || lo > hi then ServerReply(InvalidHandleCode, None)
    else
      var inr := InRange(t, lo, hi);
      if inr == [] then ServerReply(AttrNotFound, None)
      else
        var format := AttrFormat(inr[0]);
        var b := TakeRun(inr, format, cap);
        assert forall i :: 0 <= i < |b| ==> b[i] == inr[i];
        DecodeEncodeAll(b, format);
        ServerReply(0, Some(RawFindInfo(format, EncodeAll(b, format))))
  }

  // ---------------------------------------------------------------------
  // The whole procedure and its reference
  // ---------------------------------------------------------------------

  /** The memory of a whole discovery: it holds throughout, or the first
      allocation of each response fails. */
  function MemRoom(memOk: bool): (r: Room)
    ensures r.None? <==> memOk
  {
    if memOk then None else Some(0)
  }

  /** One round trip: request [lo, end_handle_cb], hand the server's reply
      to char_desc_cb. */
  function RoundTrip(s: Shared, acc: seq<Descriptor>, t: seq<Attribute>, lo: Handle, cap: nat,
                     sendOk: bool, memOk: bool): (r: DescStep)
    requires ValidTable(t) && cap >= 1
    ensures r.next.Some? ==> r.s == s && lo < r.next.value <= s.cb.endHandle
  {
    var reply := FindInfoServer(t, lo, s.cb.endHandle, cap);
    CharDescCb(s, acc, reply.status, reply.list, sendOk, MemRoom(memOk))
  }

  /** What descriptor discovery over [lo, hi] should produce: the
      descriptors of the range up to the first declaration, after those
      already accumulated; an empty range is the server's Attribute Not
      Found, which fails the request unless something was accumulated. */
  function Expected(s: Shared, acc: seq<Descriptor>, t: seq<Attribute>, lo: int, hi: int): Shared
    requires ValidTable(t)
  {
    DescExit(s, if InRange(t, lo, hi) == [] then RequestFailError else s.cb.retVal, ExpectedDescs(acc, t, lo, hi))
  }

  function ExpectedDescs(acc: seq<Descriptor>, t: seq<Attribute>, lo: int, hi: int): seq<Descriptor>
    requires ValidTable(t)
  {
    acc + UntilDeclaration(DescsOf(InRange(t, lo, hi)))
  }

  /** The first response to [lo, hi]: the leading run of the range. */
  function Batch(t: seq<Attribute>, lo: int, hi: int, cap: nat): (b: seq<Attribute>)
    requires ValidTable(t)
    ensures var inr := InRange(t, lo, hi);
      |b| <= |inr| && b == inr[..|b|] && (inr != [] && cap >= 1 ==> |b| >= 1)
  {
    var inr := InRange(t, lo, hi);
    if inr == [] then [] else TakeRun(inr, AttrFormat(inr[0]), cap)
  }

  /** The server answers a non-empty range with the encoded first run,
      which decodes to the descriptors of that run. */
  lemma ServerOnBatch(t: seq<Attribute>, lo: int, hi: int, cap: nat, inr: seq<Attribute>, b: seq<Attribute>)
    requires ValidTable(t) && cap >= 1 && 1 <= lo <= hi
    requires inr == InRange(t, lo, hi) && inr != [] && b == Batch(t, lo, hi, cap)
    ensures forall i :: 0 <= i < |b| ==> WellFormedAttr(b[i])
    ensures var r := FindInfoServer(t, lo, hi, cap);
      r.status == 0 && r.list.Some? && DecodeAll(r.list.value.format, r.list.value.entries) == DescsOf(b)
  {
    var format := AttrFormat(inr[0]);
    assert forall i :: 0 <= i < |b| ==> b[i] == inr[i];
    DecodeEncodeAll(b, format);
  }

  /** What char_desc_cb does with a successful response decoding to `ds`,
      with requests accepted and memory available: it ends at a
      declaration, continues past the last handle while below the end of
      the range, or ends with what it has. */
  lemma CbOnResponse(s: Shared, acc: seq<Descriptor>, l: FindInfoList, ds: seq<Descriptor>, last: int)
    requires DecodeAll(l.format, l.entries) == ds && ds != [] && last == ds[|ds| - 1].handle
    ensures var step := CharDescCb(s, acc, 0, Some(l), true, None);
      && (HasDeclaration(ds) ==>
            step == DescStep(DescExit(s, s.cb.retVal, acc + UntilDeclaration(ds)), [], None))
      && (!HasDeclaration(ds) && last < s.cb.endHandle ==>
            step.s == s && step.acc == acc + ds && step.next.Some? && step.next.value == last + 1)
      && (!HasDeclaration(ds) && last >= s.cb.endHandle ==>
            step == DescStep(DescExit(s, s.cb.retVal, acc + ds), [], None))
  {
    assert Decode(Some(l)) == Some(ds);
    if HasDeclaration(ds) {
      ResponseAtDeclaration(s, acc, ds);
    } else if last < s.cb.endHandle {
      ResponseGoesOn(s, acc, ds, last);
    } else {
      ResponseAtRangeEnd(s, acc, ds, last);
    }
  }

  /** A declaration in a successful response ends the discovery with what
      came before it. */
  lemma ResponseAtDeclaration(s: Shared, acc: seq<Descriptor>, ds: seq<Descriptor>)
    requires HasDeclaration(ds)
    ensures DescResponse(s, acc, 0, Some(ds), true, None)
         == DescStep(DescExit(s, s.cb.retVal, acc + UntilDeclaration(ds)), [], None)
  {
    var sc := ScanEntries(ds, acc, LastHandle, None);
    assert sc.stop == AtDeclaration && sc.acc == acc + UntilDeclaration(ds);
  }

  /** A declaration-free response scans completely: everything is
      appended and its last handle is kept. */
  lemma ScanWithoutDeclaration(acc: seq<Descriptor>, ds: seq<Descriptor>, last: int)
    requires ds != [] && !HasDeclaration(ds) && last == ds[|ds| - 1].handle
    ensures var sc := ScanEntries(ds, acc, LastHandle, None);
      sc.stop == Completed && sc.last == last && sc.acc == acc + ds
  {
    assert UntilDeclaration(ds) == ds by {
      UntilDeclarationAppend(ds, []);
      assert ds + [] == ds;
    }
  }

  /** A declaration-free response ending below the range end continues
      past its last handle with everything accumulated. */
  lemma ResponseGoesOn(s: Shared, acc: seq<Descriptor>, ds: seq<Descriptor>, last: int)
    requires ds != [] && !HasDeclaration(ds) && last == ds[|ds| - 1].handle && last < s.cb.endHandle
    ensures var step := DescResponse(s, acc, 0, Some(ds), true, None);
      step.s == s && step.acc == acc + ds && step.next.Some? && step.next.value == last + 1
  {
    ScanWithoutDeclaration(acc, ds, last);
    assert last != LastHandle;
  }

  /** A declaration-free response reaching the range end ends the
      discovery with everything accumulated. */
  lemma ResponseAtRangeEnd(s: Shared, acc: seq<Descriptor>, ds: seq<Descriptor>, last: int)
    requires ds != [] && !HasDeclaration(ds) && last == ds[|ds| - 1].handle && last >= s.cb.endHandle
    ensures DescResponse(s, acc, 0, Some(ds), true, None) == DescStep(DescExit(s, s.cb.retVal, acc + ds), [], None)
  {
    ScanWithoutDeclaration(acc, ds, last);
  }

  /** What char_desc_cb does with the server's first reply to a non-empty
      range, with requests accepted and memory available. */
  lemma StepOnBatch(s: Shared, acc: seq<Descriptor>, t: seq<Attribute>, lo: Handle, cap: nat,
                    inr: seq<Attribute>, b: seq<Attribute>, last: int)
    requires ValidTable(t) && cap >= 1
    requires 1 <= lo <= s.cb.endHandle
    requires inr == InRange(t, lo, s.cb.endHandle) && inr != []
    requires b == Batch(t, lo, s.cb.endHandle, cap) && |b| >= 1 && last == b[|b| - 1].handle
    ensures var reply := FindInfoServer(t, lo, s.cb.endHandle, cap);
      var step := CharDescCb(s, acc, reply.status, reply.list, true, None);
      && (HasDeclaration(DescsOf(b)) ==>
            step == DescStep(DescExit(s, s.cb.retVal, acc + UntilDeclaration(DescsOf(b))), [], None))
      && (!HasDeclaration(DescsOf(b)) && last < s.cb.endHandle ==>
            step.s == s && step.acc == acc + DescsOf(b) && step.next.Some? && step.next.value == last + 1)
      && (!HasDeclaration(DescsOf(b)) && last >= s.cb.endHandle ==>
            step == DescStep(DescExit(s, s.cb.retVal, acc + DescsOf(b)), [], None))
  {
    ServerOnBatch(t, lo, s.cb.endHandle, cap, inr, b);
    var reply := FindInfoServer(t, lo, s.cb.endHandle, cap);
    CbOnResponse(s, acc, reply.list.value, DescsOf(b), last);
  }

  /** After a first response that ends before the end of the range, what
      is left to ask for is the rest of the range. */
  lemma RestAfterBatch(t: seq<Attribute>, lo: int, hi: int, cap: nat, inr: seq<Attribute>, b: seq<Attribute>, last: int)
    requires ValidTable(t) && cap >= 1
    requires inr == InRange(t, lo, hi) && inr != []
    requires b == Batch(t, lo, hi, cap) && |b| >= 1 && last == b[|b| - 1].handle && last < hi
    ensures InRange(t, last + 1, hi) == inr[|b|..]
  {
    assert b[|b| - 1] == inr[|b| - 1];
    InRangeNarrow(t, lo, last + 1, hi);
    InRangeSorted(t, lo, hi);
    InRangeAfter(inr, |b|, last + 1, hi);
    assert InRange(inr, last + 1, hi) == inr[|b|..];
  }

  /** A first response that reaches the end of the range covers all of it. */
  lemma NothingAfterBatch(t: seq<Attribute>, lo: int, hi: int, cap: nat, inr: seq<Attribute>, b: seq<Attribute>, last: int)
    requires ValidTable(t) && cap >= 1
    requires inr == InRange(t, lo, hi) && inr != []
    requires b == Batch(t, lo, hi, cap) && |b| >= 1 && last == b[|b| - 1].handle && last >= hi
    ensures inr[|b|..] == []
  {
    InRangeSorted(t, lo, hi);
    assert b[|b| - 1] == inr[|b| - 1];
    NextIsLarger(inr, |b|);
  }

  lemma NextIsLarger(u: seq<Attribute>, n: nat)
    requires Sorted(u) && 1 <= n <= |u|
    ensures n < |u| ==> u[n - 1].handle < u[n].handle
  {
  }

  /** One round trip, with requests accepted and memory available, either
      ends with the reference result or continues from a handle from which
      the reference result is the same. */
  predicate MatchesReference(s: Shared, acc: seq<Descriptor>, t: seq<Attribute>, lo: Handle, rt: DescStep)
    requires ValidTable(t)
  {
    && (rt.next.None? ==> rt.s == Expected(s, acc, t, lo, s.cb.endHandle))
    && (rt.next.Some? ==> Expected(s, rt.acc, t, rt.next.value, s.cb.endHandle) == Expected(s, acc, t, lo, s.cb.endHandle))
  }

  /** The handle of the last attribute of the first response. */
  function BatchLast(t: seq<Attribute>, lo: int, hi: int, cap: nat): int
    requires ValidTable(t) && cap >= 1 && InRange(t, lo, hi) != []
  {
    var b := Batch(t, lo, hi, cap);
    b[|b| - 1].handle
  }

  /** An empty range: the server answers Attribute Not Found. */
  lemma EndsOnEmptyRange(s: Shared, acc: seq<Descriptor>, t: seq<Attribute>, lo: Handle, cap: nat)
    requires ValidTable(t) && cap >= 1 && 1 <= lo <= s.cb.endHandle
    requires InRange(t, lo, s.cb.endHandle) == []
    ensures RoundTrip(s, acc, t, lo, cap, true, true).next.None?
    ensures MatchesReference(s, acc, t, lo, RoundTrip(s, acc, t, lo, cap, true, true))
  {
    assert FindInfoServer(t, lo, s.cb.endHandle, cap) == ServerReply(AttrNotFound, None);
    assert acc + UntilDeclaration(DescsOf([])) == acc;
  }

  /** The first response holds a declaration: the procedure ends there. */
  lemma EndsAtDeclaration(s: Shared, acc: seq<Descriptor>, t: seq<Attribute>, lo: Handle, cap: nat)
    requires ValidTable(t) && cap >= 1 && 1 <= lo <= s.cb.endHandle
    requires InRange(t, lo, s.cb.endHandle) != []
    requires HasDeclaration(DescsOf(Batch(t, lo, s.cb.endHandle, cap)))
    ensures RoundTrip(s, acc, t, lo, cap, true, true).next.None?
    ensures MatchesReference(s, acc, t, lo, RoundTrip(s, acc, t, lo, cap, true, true))
  {
    var inr, b := InRange(t, lo, s.cb.endHandle), Batch(t, lo, s.cb.endHandle, cap);
    SplitAtBatch(inr, b);
    UntilDeclarationAppend(DescsOf(b), DescsOf(inr[|b|..]));
    StepOnBatch(s, acc, t, lo, cap, inr, b, b[|b| - 1].handle);
  }

  /** The first response reaches the end of the range: nothing is left. */
  lemma EndsAtRangeEnd(s: Shared, acc: seq<Descriptor>, t: seq<Attribute>, lo: Handle, cap: nat)
    requires ValidTable(t) && cap >= 1 && 1 <= lo <= s.cb.endHandle
    requires InRange(t, lo, s.cb.endHandle) != []
    requires !HasDeclaration(DescsOf(Batch(t, lo, s.cb.endHandle, cap)))
    requires BatchLast(t, lo, s.cb.endHandle, cap) >= s.cb.endHandle
    ensures RoundTrip(s, acc, t, lo, cap, true, true).next.None?
    ensures MatchesReference(s, acc, t, lo, RoundTrip(s, acc, t, lo, cap, true, true))
  {
    var inr, b := InRange(t, lo, s.cb.endHandle), Batch(t, lo, s.cb.endHandle, cap);
    var last := b[|b| - 1].handle as int;
    NothingAfterBatch(t, lo, s.cb.endHandle, cap, inr, b, last);
    SplitAtBatch(inr, b);
    assert inr == b;
    UntilDeclarationAppend(DescsOf(b), []);
    assert DescsOf(b) + [] == DescsOf(b);
    StepOnBatch(s, acc, t, lo, cap, inr, b, last);
  }

  /** The first response to [lo, end_handle_cb] (`b`, a prefix of the
      range `inr`) is free of declarations and its last handle `last` lies
      below end_handle_cb, so the procedure goes on. */
  predicate ContinuingBatch(s: Shared, t: seq<Attribute>, lo: Handle, cap: nat,
                            inr: seq<Attribute>, b: seq<Attribute>, last: int)
  {
    && ValidTable(t) && cap >= 1 && 1 <= lo <= s.cb.endHandle
    && inr == InRange(t, lo, s.cb.endHandle) && inr != []
    && b == Batch(t, lo, s.cb.endHandle, cap) && |b| >= 1 && last == b[|b| - 1].handle
    && (forall i :: 0 <= i < |b| ==> WellFormedAttr(b[i]))
    && !HasDeclaration(DescsOf(b)) && last < s.cb.endHandle
  }

  /** The first response ends before the end of the range: the procedure
      goes on past its last handle, and what it should still produce is
      unchanged. */
  lemma Continues(s: Shared, acc: seq<Descriptor>, t: seq<Attribute>, lo: Handle, cap: nat,
                  inr: seq<Attribute>, b: seq<Attribute>, last: int)
    requires ContinuingBatch(s, t, lo, cap, inr, b, last)
    ensures RoundTrip(s, acc, t, lo, cap, true, true).next.Some?
    ensures MatchesReference(s, acc, t, lo, RoundTrip(s, acc, t, lo, cap, true, true))
  {
    ContinuesExpected(s, acc, t, lo, cap, inr, b, last);
    ContinuesStep(s, acc, t, lo, cap, inr, b, last);
  }

  /** A first response that ends below the range end is followed by a
      request from just past its last handle, carrying its descriptors;
      when the reference agrees from there, the round trip matches it. */
  lemma ContinuesStep(s: Shared, acc: seq<Descriptor>, t: seq<Attribute>, lo: Handle, cap: nat,
                      inr: seq<Attribute>, b: seq<Attribute>, last: int)
    requires ContinuingBatch(s, t, lo, cap, inr, b, last)
    requires Expected(s, acc, t, lo, s.cb.endHandle) == Expected(s, acc + DescsOf(b), t, last + 1, s.cb.endHandle)
    ensures RoundTrip(s, acc, t, lo, cap, true, true).next.Some?
    ensures MatchesReference(s, acc, t, lo, RoundTrip(s, acc, t, lo, cap, true, true))
  {
    var rt := RoundTrip(s, acc, t, lo, cap, true, true);
    RoundTripUnbounded(s, acc, t, lo, cap);
    CallbackContinues(s, acc, t, lo, cap, inr, b, last);
    MatchesAfterStep(s, acc, t, lo, rt, acc + DescsOf(b), last + 1);
  }

  /** A round trip that goes on with `nacc` from `nxt` matches the
      reference when what is still expected from there is unchanged. */
  lemma MatchesAfterStep(s: Shared, acc: seq<Descriptor>, t: seq<Attribute>, lo: Handle, rt: DescStep,
                         nacc: seq<Descriptor>, nxt: int)
    requires ValidTable(t) && rt.next.Some? && rt.acc == nacc && rt.next.value == nxt
    requires Expected(s, acc, t, lo, s.cb.endHandle) == Expected(s, nacc, t, nxt, s.cb.endHandle)
    ensures MatchesReference(s, acc, t, lo, rt)
  {
  }

  /** The same step, stated for the callback on the server's reply. */
  lemma CallbackContinues(s: Shared, acc: seq<Descriptor>, t: seq<Attribute>, lo: Handle, cap: nat,
                          inr: seq<Attribute>, b: seq<Attribute>, last: int)
    requires ContinuingBatch(s, t, lo, cap, inr, b, last)
    ensures var reply := FindInfoServer(t, lo, s.cb.endHandle, cap);
      var step := CharDescCb(s, acc, reply.status, reply.list, true, None);
      step.s == s && step.acc == acc + DescsOf(b) && step.next.Some? && step.next.value == last + 1
  {
    StepOnBatch(s, acc, t, lo, cap, inr, b, last);
  }

  /** With every allocation succeeding, a round trip hands the reply to
      the callback with unbounded room. */
  lemma RoundTripUnbounded(s: Shared, acc: seq<Descriptor>, t: seq<Attribute>, lo: Handle, cap: nat)
    requires ValidTable(t) && cap >= 1
    ensures var reply := FindInfoServer(t, lo, s.cb.endHandle, cap);
      RoundTrip(s, acc, t, lo, cap, true, true) == CharDescCb(s, acc, reply.status, reply.list, true, None)
  {
    assert MemRoom(true) == None;
  }

  /** What the procedure should still produce is the same from the
      continuation past the first response as from the first request. */
  lemma ContinuesExpected(s: Shared, acc: seq<Descriptor>, t: seq<Attribute>, lo: Handle, cap: nat,
                          inr: seq<Attribute>, b: seq<Attribute>, last: int)
    requires ContinuingBatch(s, t, lo, cap, inr, b, last)
    ensures Expected(s, acc, t, lo, s.cb.endHandle) == Expected(s, acc + DescsOf(b), t, last + 1, s.cb.endHandle)
  {
    var hi := s.cb.endHandle;
    var e := ExpectedDescs(acc, t, lo, hi);
    DescsContinue(acc, t, lo, hi, cap, inr, b, last);
    ExitIgnoresCode(s, s.cb.retVal, if InRange(t, last + 1, hi) == [] then RequestFailError else s.cb.retVal, e);
  }

  lemma RoundTripMatchesReference(s: Shared, acc: seq<Descriptor>, t: seq<Attribute>, lo: Handle, cap: nat)
    requires ValidTable(t) && cap >= 1 && 1 <= lo <= s.cb.endHandle
    ensures MatchesReference(s, acc, t, lo, RoundTrip(s, acc, t, lo, cap, true, true))
  {
    if InRange(t, lo, s.cb.endHandle) == [] {
      EndsOnEmptyRange(s, acc, t, lo, cap);
    } else {
      NonEmptyMatchesReference(s, acc, t, lo, cap);
    }
  }

  /** A non-empty range: the first response ends at a declaration, or
      it does not. */
  lemma NonEmptyMatchesReference(s: Shared, acc: seq<Descriptor>, t: seq<Attribute>, lo: Handle, cap: nat)
    requires ValidTable(t) && cap >= 1 && 1 <= lo <= s.cb.endHandle
    requires InRange(t, lo, s.cb.endHandle) != []
    ensures MatchesReference(s, acc, t, lo, RoundTrip(s, acc, t, lo, cap, true, true))
  {
    if HasDeclaration(DescsOf(Batch(t, lo, s.cb.endHandle, cap))) {
      EndsAtDeclaration(s, acc, t, lo, cap);
    } else {
      NoDeclarationMatchesReference(s, acc, t, lo, cap);
    }
  }

  /** A first response free of declarations: it reaches the end of the
      range, or the procedure continues past it. */
  lemma NoDeclarationMatchesReference(s: Shared, acc: seq<Descriptor>, t: seq<Attribute>, lo: Handle, cap: nat)
    requires ValidTable(t) && cap >= 1 && 1 <= lo <= s.cb.endHandle
    requires InRange(t, lo, s.cb.endHandle) != []
    requires !HasDeclaration(DescsOf(Batch(t, lo, s.cb.endHandle, cap)))
    ensures MatchesReference(s, acc, t, lo, RoundTrip(s, acc, t, lo, cap, true, true))
  {
    var hi := s.cb.endHandle;
    if BatchLast(t, lo, hi, cap) < hi {
      var b := Batch(t, lo, hi, cap);
      Continues(s, acc, t, lo, cap, InRange(t, lo, hi), b, b[|b| - 1].handle);
    } else {
      EndsAtRangeEnd(s, acc, t, lo, cap);
    }
  }

  /** The reference continues from the handle after the first response,
      with the response's descriptors accumulated. */
  lemma DescsContinue(acc: seq<Descriptor>, t: seq<Attribute>, lo: int, hi: int, cap: nat,
                      inr: seq<Attribute>, b: seq<Attribute>, last: int)
    requires ValidTable(t) && cap >= 1
    requires inr == InRange(t, lo, hi) && inr != []
    requires b == Batch(t, lo, hi, cap) && |b| >= 1 && last == b[|b| - 1].handle
    requires !HasDeclaration(DescsOf(b)) && last < hi
    ensures ExpectedDescs(acc, t, lo, hi) == ExpectedDescs(acc + DescsOf(b), t, last + 1, hi) != []
  {
    BatchThenRest(t, lo, hi, cap, inr, b, last);
    var db, dr := DescsOf(b), DescsOf(InRange(t, last + 1, hi));
    UntilDeclarationAppend(db, dr);
    AppendAssoc(acc, db, UntilDeclaration(dr));
    assert ExpectedDescs(acc, t, lo, hi) == acc + (db + UntilDeclaration(dr));
  }

  /** The descriptors of the range are those of the first response
      followed by those of what is left to ask for. */
  lemma BatchThenRest(t: seq<Attribute>, lo: int, hi: int, cap: nat, inr: seq<Attribute>, b: seq<Attribute>, last: int)
    requires ValidTable(t) && cap >= 1
    requires inr == InRange(t, lo, hi) && inr != []
    requires b == Batch(t, lo, hi, cap) && |b| >= 1 && last == b[|b| - 1].handle && last < hi
    ensures DescsOf(inr) == DescsOf(b) + DescsOf(InRange(t, last + 1, hi))
  {
    RestAfterBatch(t, lo, hi, cap, inr, b, last);
    SplitAtBatch(inr, b);
  }

  /** A non-empty accumulator is returned whatever the code. */
  lemma ExitIgnoresCode(s: Shared, c1: int, c2: int, acc: seq<Descriptor>)
    requires acc != []
    ensures DescExit(s, c1, acc) == DescExit(s, c2, acc)
  {
  }

  lemma DescsOfAppend(x: seq<Attribute>, y: seq<Attribute>)
    requires forall i :: 0 <= i < |x| ==> WellFormedAttr(x[i])
    requires forall i :: 0 <= i < |y| ==> WellFormedAttr(y[i])
    ensures forall i :: 0 <= i < |x + y| ==> WellFormedAttr((x + y)[i])
    ensures DescsOf(x + y) == DescsOf(x) + DescsOf(y)
  {
    var xy := x + y;
    assert forall i :: 0 <= i < |xy| ==> WellFormedAttr(xy[i]) by {
      forall i | 0 <= i < |xy| ensures WellFormedAttr(xy[i]) {
        if i < |x| { assert xy[i] == x[i]; } else { assert xy[i] == y[i - |x|]; }
      }
    }
    var l, r := DescsOf(x), DescsOf(y);
    forall i | 0 <= i < |xy|
      ensures DescsOf(xy)[i] == (l + r)[i]
    {
      if i < |x| { assert xy[i] == x[i]; } else { assert xy[i] == y[i - |x|]; }
    }
  }

  /** The descriptors of a range are those of its first response followed
      by those of the rest. */
  lemma SplitAtBatch(inr: seq<Attribute>, b: seq<Attribute>)
    requires forall i :: 0 <= i < |inr| ==> WellFormedAttr(inr[i])
    requires |b| <= |inr| && b == inr[..|b|]
    ensures inr == b + inr[|b|..]
    ensures forall i :: 0 <= i < |b| ==> WellFormedAttr(b[i])
    ensures forall i :: 0 <= i < |inr[|b|..]| ==> WellFormedAttr(inr[|b|..][i])
    ensures DescsOf(inr) == DescsOf(b) + DescsOf(inr[|b|..])
  {
    var rest := inr[|b|..];
    assert inr == b + rest;
    DescsOfAppend(b, rest);
  }

  /** The properties a discovered list has: no declaration, handles within
      the range and strictly increasing. */
  predicate GoodDescs(ds: seq<Descriptor>, lo: int, hi: int)
  {
    && (forall i :: 0 <= i < |ds| ==> !IsDeclarationDesc(ds[i]) && lo <= ds[i].handle <= hi)
    && (forall i, j :: 0 <= i < j < |ds| ==> ds[i].handle < ds[j].handle)
  }

  lemma ReferenceIsGood(t: seq<Attribute>, lo: int, hi: int)
    requires ValidTable(t)
    ensures GoodDescs(UntilDeclaration(DescsOf(InRange(t, lo, hi))), lo, hi)
  {
    var inr := InRange(t, lo, hi);
    InRangeSorted(t, lo, hi);
    var all := DescsOf(inr);
    var ds := UntilDeclaration(all);
    forall i | 0 <= i < |ds|
      ensures ds[i].handle == inr[i].handle
    {
      assert ds[i] == all[i];
    }
    forall i, j | 0 <= i < j < |ds|
      ensures ds[i].handle < ds[j].handle
    {
      assert ds[i].handle == inr[i].handle && ds[j].handle == inr[j].handle;
    }
  }

  /** Characteristic descriptor discovery over [lo, end_handle_cb]: round
      trips until char_desc_cb stops asking. With continuation requests
      accepted and memory available the result is the reference, whatever
      the response size bound; in every case a returned list holds no
      declaration. */
  method DiscoverDescs(s: Shared, t: seq<Attribute>, lo: Handle, cap: nat, sendOk: bool, memOk: bool)
    returns (r: Shared)
    requires ValidTable(t) && cap >= 1 && lo <= s.cb.endHandle
    ensures r.cb.signalled && r.dev == s.dev
    // a start of 0x0000 is refused by the server: the request fails
    ensures lo == 0 ==> r == DescExit(s, RequestFailError, [])
    ensures sendOk && memOk && lo != 0 ==> r == Expected(s, [], t, lo, s.cb.endHandle)
    ensures r.cb.payload != s.cb.payload ==>
      r.cb.retVal == NoError && r.cb.payload.Descs?
      && forall i :: 0 <= i < |r.cb.payload.descs| ==> !IsDeclarationDesc(r.cb.payload.descs[i])
  {
    var hi := s.cb.endHandle;
    if lo == 0 {
      var reply := FindInfoServer(t, 0, hi, cap);
      DescResponseOnError(s, [], reply.status, Decode(reply.list), sendOk, MemRoom(memOk));
      return RoundTrip(s, [], t, 0, cap, sendOk, memOk).s;
    }
    var acc: seq<Descriptor> := [];
    var cur: Handle := lo;
    while true
      invariant 1 <= cur <= hi
      invariant forall i :: 0 <= i < |acc| ==> !IsDeclarationDesc(acc[i])
      invariant sendOk && memOk ==> Expected(s, acc, t, cur, hi) == Expected(s, [], t, lo, hi)
      decreases 0x1_0000 - cur
    {
      var reply := FindInfoServer(t, cur, hi, cap);
      var step := RoundTrip(s, acc, t, cur, cap, sendOk, memOk);
      DescResponseNoDeclaration(s, acc, reply.status, Decode(reply.list), sendOk, MemRoom(memOk));
      DescResponseContinues(s, acc, reply.status, Decode(reply.list), sendOk, MemRoom(memOk));
      if sendOk && memOk {
        RoundTripMatchesReference(s, acc, t, cur, cap);
      }
      if step.next.None? {
        return step.s;
      }
      acc := step.acc;
      cur := step.next.value;
    }
  }
}

=== FILE: conn_state.dfy ===
/** The device context shared by every operation and its connection state
    (src/conn_state.c). The event loop is abstracted as the boolean
    `loopRunning`; the BlueZ attribute channel as `attrib` (present or not),
    whose notification table is `notifRegistry`. */
module ConnState {
  import opened BlDefs

  datatype State = Disconnected | Connecting | Connected

  datatype SecLevel = Low | Medium | High

  /** One notification handler registered against a characteristic UUID. */
  datatype Registration = Registration(opcode: Byte, valueHandle: Handle)

  datatype DeviceContext = DeviceContext(
    initialised: bool,          // bl_init succeeded (the library mutex exists)
    connState: State,
    loopRunning: bool,          // is_event_loop_running()
    attrib: bool,               // an attribute channel is attached
    mtu: int,                   // MTU requested by bl_change_mtu, 0 when none
    attMtu: int,                // MTU in force on the attribute channel
    psm: int,                   // non-zero: connection-oriented channel (BR/EDR)
    secLevel: SecLevel,
    dst: string,
    dstType: string,
    notifRegistry: map<string, Registration>)

  /** set_conn_state: only the connection state changes. */
  function SetConnState(dev: DeviceContext, state: State): (r: DeviceContext)
    ensures r.connState == state
    ensures r.initialised == dev.initialised && r.loopRunning == dev.loopRunning && r.attrib == dev.attrib
    ensures r.mtu == dev.mtu && r.attMtu == dev.attMtu && r.psm == dev.psm && r.secLevel == dev.secLevel
    ensures r.dst == dev.dst && r.dstType == dev.dstType && r.notifRegistry == dev.notifRegistry
  {
    dev.(connState := state)
  }

  /** get_conn_state */
  function GetConnState(dev: DeviceContext): State
  {
    dev.connState
  }

  lemma GetAfterSet(dev: DeviceContext, state: State)
    ensures GetConnState(SetConnState(dev, state)) == state
  {
  }

  lemma SetIdempotent(dev: DeviceContext, state: State)
    ensures SetConnState(SetConnState(dev, state), state) == SetConnState(dev, state)
  {
  }

  /** Setting the state it already has leaves the context as it was. */
  lemma SetCurrentIsNoOp(dev: DeviceContext)
    ensures SetConnState(dev, GetConnState(dev)) == dev
  {
  }
}

=== FILE: connection.dfy ===
/** Library initialisation, connection, disconnection and the two link
    settings, the security level and the ATT MTU (src/bluelib.c,
    "Initialisation of the context", "Connect/Disconnect from a device",
    "Set security level", "Change MTU for GATT/ATT"). */
module Connection {
  import opened BlDefs
  import opened ConnState
  import opened Callback
  import opened BlueLib

  /** SECURITY_LEVEL_LOW, _MEDIUM and _HIGH of include/bluelib.h. */
  const SecurityLevelMedium := 1
  const SecurityLevelHigh := 2

  /** The level bl_init and bl_change_sec_level select: anything but
      medium or high is low. */
  function SecLevelOf(level: int): (l: SecLevel)
    ensures l == High <==> level == SecurityLevelHigh
    ensures l == Medium <==> level == SecurityLevelMedium
  {
    if level == SecurityLevelHigh then High else if level == SecurityLevelMedium then Medium else Low
  }

  /** bl_init: store the destination, its address type, the PSM and the
      security level, then create the library mutex (`memOk`); the library
      is initialised exactly when that allocation succeeds. A NULL string
      is stored as the empty string. */
  function Init(dev: DeviceContext, dst: Option<string>, dstType: Option<string>, psm: int, level: int,
                memOk: bool): (r: Outcome<()>)
    ensures r.err == (if memOk then NoError else MallocError)
    ensures r.dev.initialised == memOk
    ensures r.dev.psm == psm && r.dev.secLevel == SecLevelOf(level)
    ensures r.dev.dst == Gatt.UuidOrEmpty(dst) && r.dev.dstType == Gatt.UuidOrEmpty(dstType)
    ensures r.dev.connState == dev.connState && r.dev.loopRunning == dev.loopRunning && r.dev.attrib == dev.attrib
    ensures r.dev.mtu == dev.mtu && r.dev.attMtu == dev.attMtu && r.dev.notifRegistry == dev.notifRegistry
  {
    var d := dev.(dst := Gatt.UuidOrEmpty(dst), dstType := Gatt.UuidOrEmpty(dstType), psm := psm,
                  secLevel := SecLevelOf(level), initialised := memOk);
    Outcome(if memOk then NoError else MallocError, (), d, false)
  }

  // ---------------------------------------------------------------------
  // Connection
  // ---------------------------------------------------------------------

  /** What the transport does with a connection attempt: the error
      gatt_connect reports (None when it reports none), whether it returns a
      channel, the error starting the event loop reports (None when it
      starts), and whether connect_cb reports a failure. */
  datatype Attempt = Attempt(connectErr: Option<int>, channel: bool, startErr: Option<int>, cbFailed: bool)

  /** bl_connect. The state and address checks return their own codes (the
      source jumps to the success exit, see AsWritten.ConnectEarlyExit); a
      registered user callback (`userCb`, its return value) decides the
      result of a successful connection. */
  function Connect(dev: DeviceContext, mac: Option<string>, dstType: Option<string>, att: Attempt,
                   link: Link, userCb: Option<int>): (r: Outcome<()>)
    ensures !dev.initialised ==> r == Outcome(NotInitError, (), dev, false)
    ensures dev.initialised && dev.connState != Disconnected ==> r == Outcome(AlreadyConnectedError, (), dev, false)
    ensures dev.initialised && dev.connState == Disconnected && (mac.None? || !ValidMac(mac.value)) ==>
      r == Outcome(InvalidArgument, (), dev, false)
    // an attempt is made exactly for a valid address on an idle, initialised library
    ensures r.sent <==> dev.initialised && dev.connState == Disconnected && mac.Some? && ValidMac(mac.value)
    ensures r.sent ==> r.dev.dst == mac.value && r.dev.dstType == (if dstType.Some? then dstType.value else "public")
    // every failure of the attempt leaves the device disconnected
    ensures r.sent && (att.connectErr.Some? || !att.channel || att.startErr.Some?) ==>
      r.dev.connState == Disconnected && r.err == (
        if att.connectErr.Some? then att.connectErr.value
        else if !att.channel then SendRequestError else att.startErr.value)
    ensures r.sent && r.dev.connState != Disconnected ==> r.err == (if userCb.Some? then userCb.value else NoError)
    // the settings bl_init and bl_change_sec_level stored are kept
    ensures r.dev.initialised == dev.initialised && r.dev.psm == dev.psm && r.dev.secLevel == dev.secLevel
  {
    if !dev.initialised then Outcome(NotInitError, (), dev, false)
    else if dev.connState != Disconnected then Outcome(AlreadyConnectedError, (), dev, false)
    else if mac.None? || !ValidMac(mac.value) then Outcome(InvalidArgument, (), dev, false)
    else
      var d := SetConnState(dev.(dst := mac.value, dstType := if dstType.Some? then dstType.value else "public"),
                            Connecting);
      if att.connectErr.Some? then Outcome(att.connectErr.value, (), SetConnState(d, Disconnected), true)
      else if !att.channel then Outcome(SendRequestError, (), SetConnState(d, Disconnected), true)
      else if att.startErr.Some? then Outcome(att.startErr.value, (), SetConnState(d, Disconnected), true)
      else ConnectWait(d, att.cbFailed, link, userCb)
  }

  /** The end of bl_connect once the event loop runs: wait for connect_cb;
      a failure stops the loop and leaves the device disconnected. */
  function ConnectWait(d: DeviceContext, cbFailed: bool, link: Link, userCb: Option<int>): (r: Outcome<()>)
    ensures r.sent && r.dev.dst == d.dst && r.dev.dstType == d.dstType
    ensures r.dev.initialised == d.initialised && r.dev.psm == d.psm && r.dev.secLevel == d.secLevel
    ensures r.dev.connState != Disconnected ==> r.err == (if userCb.Some? then userCb.value else NoError)
    ensures r.err != (if userCb.Some? then userCb.value else NoError) ==>
      r.dev.connState == Disconnected && !r.dev.loopRunning
  {
    var s := Fresh(d.(loopRunning := true), 0);
    var w := Await(s, ConnectCb(s, cbFailed), ConnectCb(Reset(s), cbFailed), link);
    if w.ret != NoError then
      Outcome(w.ret, (), SetConnState(w.dev, Disconnected).(loopRunning := false), true)
    else
      Outcome(if userCb.Some? then userCb.value else NoError, (), w.dev, true)
  }

  /** A connection the device accepts: connected, with an attribute channel
      and the event loop running. */
  lemma ConnectAnswered(dev: DeviceContext, mac: string, dstType: Option<string>, att: Attempt,
                        link: Link, userCb: Option<int>, k: nat)
    requires dev.initialised && dev.connState == Disconnected && ValidMac(mac)
    requires att.connectErr.None? && att.channel && att.startErr.None? && AnsweredAt(link, k)
    ensures var r := Connect(dev, Some(mac), dstType, att, link, userCb);
      && (att.cbFailed ==> r.err == RequestFailError && r.dev.connState == Disconnected && !r.dev.loopRunning)
      && (!att.cbFailed ==> r.err == (if userCb.Some? then userCb.value else NoError)
                            && r.dev.connState == Connected && r.dev.attrib && r.dev.loopRunning)
  {
    var d := SetConnState(dev.(dst := mac, dstType := if dstType.Some? then dstType.value else "public"), Connecting);
    assert Connect(dev, Some(mac), dstType, att, link, userCb) == ConnectWait(d, att.cbFailed, link, userCb);
    var s := Fresh(d.(loopRunning := true), 0);
    AwaitAnswered(s, ConnectCb(s, att.cbFailed), ConnectCb(Reset(s), att.cbFailed), link, k);
  }

  /** disconnect_io: drop the attribute channel, forget the negotiated MTU
      and mark the device disconnected. The notification handlers lived on
      the channel, so the registry goes with it. */
  function DisconnectIo(dev: DeviceContext): (r: DeviceContext)
    ensures r.connState == Disconnected
    ensures dev.connState != Disconnected ==> !r.attrib && r.mtu == 0 && r.notifRegistry == map[]
    ensures dev.connState == Disconnected ==> r == dev
    ensures r.initialised == dev.initialised && r.loopRunning == dev.loopRunning && r.psm == dev.psm
    ensures r.secLevel == dev.secLevel && r.dst == dev.dst && r.dstType == dev.dstType
  {
    if dev.connState == Disconnected then dev
    else SetConnState(dev.(attrib := false, mtu := 0, notifRegistry := map[]), Disconnected)
  }

  lemma DisconnectIoIdempotent(dev: DeviceContext)
    ensures DisconnectIo(DisconnectIo(dev)) == DisconnectIo(dev)
  {
  }

  /** bl_disconnect: disconnect if needed and stop the event loop. */
  function Disconnect(dev: DeviceContext): (r: Outcome<()>)
    ensures !dev.initialised ==> r == Outcome(NotInitError, (), dev, false)
    ensures dev.initialised ==> r.err == NoError && r.dev.connState == Disconnected && !r.dev.loopRunning
    ensures dev.initialised ==> r.dev == DisconnectIo(dev).(loopRunning := false)
  {
    if !dev.initialised then Outcome(NotInitError, (), dev, false)
    else Outcome(NoError, (), DisconnectIo(dev).(loopRunning := false), false)
  }

  /** After a disconnection a new connection may be attempted. */
  lemma ReconnectAfterDisconnect(dev: DeviceContext, mac: string, dstType: Option<string>, att: Attempt,
                                 link: Link, userCb: Option<int>)
    requires dev.initialised && ValidMac(mac)
    ensures Connect(Disconnect(dev).dev, Some(mac), dstType, att, link, userCb).sent
  {
  }

  /** A successful bl_init opens the library: the initialisation gate no
      longer refuses, and a connection to a valid address is attempted with
      the PSM and security level just stored. */
  lemma InitThenConnect(dev: DeviceContext, dst: Option<string>, dstType: Option<string>, psm: int, level: int,
                        mac: string, att: Attempt, link: Link, userCb: Option<int>)
    requires dev.connState == Disconnected && ValidMac(mac)
    ensures var i := Init(dev, dst, dstType, psm, level, true);
      var c := Connect(i.dev, Some(mac), dstType, att, link, userCb);
      && i.err == NoError && Gate(i.dev) != Some(NotInitError)
      && c.sent && c.dev.psm == psm && c.dev.secLevel == SecLevelOf(level)
  {
  }

  // ---------------------------------------------------------------------
  // Link settings
  // ---------------------------------------------------------------------

  /** bl_change_sec_level. The requested level is stored before the PSM
      check, so on a BR/EDR link it takes effect at the next connection;
      `setErr` is the error bt_io_set reports, if any. */
  function ChangeSecLevel(dev: DeviceContext, level: int, setErr: Option<int>): (r: Outcome<()>)
    ensures Gate(dev).Some? ==> r == Outcome(Gate(dev).value, (), dev, false)
    ensures Gate(dev).None? ==> r.dev == dev.(secLevel := SecLevelOf(level))
    ensures Gate(dev).None? && dev.psm != 0 ==> r.err == ReconnectionNeededError && !r.sent
    ensures Gate(dev).None? && dev.psm == 0 ==> r.sent && r.err == (if setErr.Some? then setErr.value else NoError)
  {
    if Gate(dev).Some? then Outcome(Gate(dev).value, (), dev, false)
    else
      var d := dev.(secLevel := SecLevelOf(level));
      if dev.psm != 0 then Outcome(ReconnectionNeededError, (), d, false)
      else if setErr.Some? then Outcome(setErr.value, (), d, true)
      else Outcome(NoError, (), d, true)
  }

  /** On a BR/EDR link (PSM set) the level bl_change_sec_level stores
      asks for a reconnection, and it is the level the device keeps through
      bl_disconnect and the next bl_connect. */
  lemma SecLevelSurvivesReconnect(dev: DeviceContext, level: int, setErr: Option<int>, mac: string,
                                  dstType: Option<string>, att: Attempt, link: Link, userCb: Option<int>)
    requires Gate(dev).None? && dev.psm != 0 && ValidMac(mac)
    ensures var c := ChangeSecLevel(dev, level, setErr);
      var d := Disconnect(c.dev).dev;
      var n := Connect(d, Some(mac), dstType, att, link, userCb);
      && c.err == ReconnectionNeededError && !c.sent
      && d.secLevel == SecLevelOf(level) && d.connState == Disconnected
      && n.sent && n.dev.secLevel == SecLevelOf(level) && n.dev.psm == dev.psm
  {
  }

  /** bl_change_mtu, validating the value before storing it (the source
      stores it first, see AsWritten.ChangeMtuAsWritten). The checks come in order:
      LE transport only, once per connection, at least the default LE MTU.
      The exchange itself is answered by exchange_mtu_cb. */
  function ChangeMtu(dev: DeviceContext, value: int, link: Link, status: Byte, serverMtu: Option<Handle>,
                     framerAccepts: bool): (r: Outcome<()>)
    ensures Gate(dev).Some? ==> r == Outcome(Gate(dev).value, (), dev, false)
    ensures Gate(dev).None? && dev.psm != 0 ==> r == Outcome(LeOnlyError, (), dev, false)
    ensures Gate(dev).None? && dev.psm == 0 && dev.mtu != 0 ==> r == Outcome(MtuAlreadyExchangedError, (), dev, false)
    ensures Gate(dev).None? && dev.psm == 0 && dev.mtu == 0 && value < AttDefaultLeMtu ==>
      r == Outcome(InvalidArgument, (), dev, false)
    ensures r.sent <==> Gate(dev).None? && dev.psm == 0 && dev.mtu == 0 && value >= AttDefaultLeMtu
    // once the exchange is sent the requested MTU is recorded
    ensures r.sent ==> r.dev.mtu == value && r.dev.psm == dev.psm && r.dev.initialised
  {
    if Gate(dev).Some? then Outcome(Gate(dev).value, (), dev, false)
    else if dev.psm != 0 then Outcome(LeOnlyError, (), dev, false)
    else if dev.mtu != 0 then Outcome(MtuAlreadyExchangedError, (), dev, false)
    else if value < AttDefaultLeMtu then Outcome(InvalidArgument, (), dev, false)
    else
      var s := Fresh(dev.(mtu := value), 0);
      var w := Await(s, ExchangeMtuCb(s, status, serverMtu, framerAccepts),
                     ExchangeMtuCb(Reset(s), status, serverMtu, framerAccepts), link);
      Outcome(w.ret, (), w.dev, true)
  }

  /** An answered exchange puts the smaller of the two MTUs in force. */
  lemma ChangeMtuAnswered(dev: DeviceContext, value: int, link: Link, serverMtu: Handle, k: nat)
    requires Gate(dev).None? && dev.psm == 0 && dev.mtu == 0 && value >= AttDefaultLeMtu && AnsweredAt(link, k)
    ensures var r := ChangeMtu(dev, value, link, 0, Some(serverMtu), true);
      && r.err == NoError && r.dev == dev.(mtu := value, attMtu := NegotiatedMtu(serverMtu, value))
      && r.dev.attMtu <= value && r.dev.attMtu <= serverMtu
  {
    var s := Fresh(dev.(mtu := value), 0);
    AwaitAnswered(s, ExchangeMtuCb(s, 0, Some(serverMtu), true), ExchangeMtuCb(Reset(s), 0, Some(serverMtu), true), link, k);
  }

  /** An MTU exchange happens at most once per connection: after one was
      sent, the next request is refused, until a disconnection of a live
      link forgets it. */
  lemma ChangeMtuOnce(dev: DeviceContext, v1: int, v2: int, l1: Link, l2: Link, status: Byte,
                      serverMtu: Option<Handle>, framerAccepts: bool)
    requires ChangeMtu(dev, v1, l1, status, serverMtu, framerAccepts).sent
    ensures var d := ChangeMtu(dev, v1, l1, status, serverMtu, framerAccepts).dev;
      && (Gate(d).None? ==> ChangeMtu(d, v2, l2, status, serverMtu, framerAccepts).err == MtuAlreadyExchangedError)
      && (d.connState != Disconnected ==> DisconnectIo(d).mtu == 0)
  {
  }

  /** A refused value changes nothing, so a valid one may follow. */
  lemma ChangeMtuRetry(dev: DeviceContext, bad: int, good: int, l1: Link, l2: Link, status: Byte,
                       serverMtu: Option<Handle>, framerAccepts: bool)
    requires Gate(dev).None? && dev.psm == 0 && dev.mtu == 0
    requires bad < AttDefaultLeMtu <= good
    ensures var d := ChangeMtu(dev, bad, l1, status, serverMtu, framerAccepts).dev;
      ChangeMtu(d, good, l2, status, serverMtu, framerAccepts).sent
  {
  }
}

=== FILE: defs.dfy ===
/** Definitions shared by the whole library: the C integer widths the core
    relies on, the error codes of the public header, and the few protocol
    constants (reserved handle, default LE ATT_MTU, opcodes, property bits). */
module BlDefs {

  /** uint8_t */
  type Byte = x: int | 0 <= x < 0x100

  /** uint16_t: an attribute handle, an MTU as carried on the wire */
  type Handle = x: int | 0 <= x < 0x1_0000

  /** A C pointer that may be NULL. */
  datatype Option<+T> = None | Some(value: T)

  /** An integer error code or a value. */
  datatype Result<+T> = Ok(value: T) | Fail(code: int)

  // Error codes returned by the library (include/bluelib.h:46-62).
  const NoError := 0
  const MallocError := -1
  const DisconnectedError := -2
  const NoCallbackError := -3
  const HandleOrderError := -4
  const NotInitError := -5
  const AlreadyConnectedError := -7
  const LeOnlyError := -8
  const MtuAlreadyExchangedError := -9
  const MissingArgumentError := -10
  const SendRequestError := -11
  const ReconnectionNeededError := -12
  const UnicityError := -15
  const RequestFailError := -16
  const ProtocolError := -17
  const NotNotifiableError := -18
  const NotIndicableError := -19
  /** errno's EINVAL on Linux */
  const InvalidArgument := 22

  /** Handle 0x0000 is reserved (Bluetooth Core v4.0, Vol 3 Part F, section 3.2.2). */
  const InvalidHandle: Handle := 0x0000
  const FirstHandle: Handle := 0x0001
  const LastHandle: Handle := 0xFFFF

  /** Default LE ATT_MTU (Bluetooth Core v4.0, Vol 3 Part G, section 5.2.1). */
  const AttDefaultLeMtu := 23

  /** ATT opcodes of a Handle Value Notification and Indication. */
  const OpHandleNotify: Byte := 0x1B
  const OpHandleInd: Byte := 0x1D

  /** Characteristic property bits (Vol 3 Part G, section 3.3.1.1). */
  const PropNotify: Byte := 0x10
  const PropIndicate: Byte := 0x20

  /** ATT error code "Attribute Not Found". */
  const AttrNotFound: Byte := 0x0A

  /** `h + 1` evaluated in uint16_t arithmetic. */
  function Inc16(h: Handle): (r: Handle)
    ensures h < LastHandle ==> r == h + 1
    ensures h == LastHandle ==> r == 0
  {
    (h + 1) % 0x1_0000
  }

  /** `h - 1` evaluated in uint16_t arithmetic. */
  function Dec16(h: Handle): (r: Handle)
    ensures h > 0 ==> r == h - 1
    ensures h == 0 ==> r == LastHandle
  {
    (h - 1) % 0x1_0000
  }

  /** `properties & bit != 0` on a uint8_t. */
  predicate HasProperty(properties: Byte, bit: Byte)
  {
    (properties as bv8) & (bit as bv8) != 0
  }

  function Min(a: int, b: int): int
  {
    if a < b then a else b
  }
}

=== FILE: discovery.dfy ===
/** Service, characteristic and descriptor discovery (src/bluelib.c,
    "Primary Service Discovery" to "Get Descriptors"). Each request is
    modelled from the answer the server gives: its ATT status, the records
    BlueZ decoded from it, and whether the callback's allocations succeed;
    the Link says how the transport and the wait behave. */
module Discovery {
  import opened BlDefs
  import opened Gatt
  import opened ConnState
  import opened Callback
  import opened BlueLib
  import CharDesc

  function PrimaryList(p: Payload): seq<Primary> { if p.Primaries? then p.primaries else [] }
  function IncludeList(p: Payload): seq<Included> { if p.Includes? then p.includes else [] }
  function CharList(p: Payload): seq<Characteristic> { if p.Chars? then p.chars else [] }
  function DescList(p: Payload): seq<Descriptor> { if p.Descs? then p.descs else [] }

  /** The end of an operation stopped before any request. */
  function Refused<T>(code: int, none: T, dev: DeviceContext): (r: Outcome<T>)
    ensures r.err == code && r.value == none && r.dev == dev && !r.sent
  {
    Outcome(code, none, dev, false)
  }

  // ---------------------------------------------------------------------
  // Primary services
  // ---------------------------------------------------------------------

  /** bl_get_all_primary. With a UUID the server answers with handle ranges
      (`ranges`, decoded by primary_by_uuid_cb), without one with whole
      service records (`services`, decoded by primary_all_cb); the records
      found by UUID get that UUID. */
  function GetAllPrimary(dev: DeviceContext, uuid: Option<string>, link: Link, status: Byte,
                         services: seq<GattPrimary>, ranges: seq<AttRange>, memOk: bool): (r: Outcome<seq<Primary>>)
    ensures Gate(dev).Some? ==> r == Refused(Gate(dev).value, [], dev)
    ensures Gate(dev).None? ==> (r.sent <==> link.accepts)
    ensures Gate(dev).None? && !link.accepts ==> r == Refused(SendRequestError, [], dev)
    // a list is only handed back on success, and a list found by UUID carries it
    ensures r.value != [] ==> r.err == NoError
    ensures uuid.Some? ==> forall i :: 0 <= i < |r.value| ==> r.value[i].uuid == uuid.value
    // what is handed back is this request's answer or nothing, never an
    // earlier request's list
    ensures uuid.None? ==> r.value == [] || r.value == FromGattPrimaries(services)
    ensures uuid.Some? ==> r.value == [] || r.value == Stamp(FromRanges(ranges), uuid.value, PrimaryWithUuid)
    ensures r.dev == dev || r.dev == SetConnState(dev, Disconnected)
  {
    if Gate(dev).Some? then Refused(Gate(dev).value, [], dev)
    else if !link.accepts then Refused(SendRequestError, [], dev)
    else
      var s := Fresh(dev, 0);
      var w := if uuid.Some?
        then Await(s, PrimaryByUuidCb(s, status, ranges, memOk), PrimaryByUuidCb(Reset(s), status, ranges, memOk), link)
        else Await(s, PrimaryAllCb(s, status, services, memOk), PrimaryAllCb(Reset(s), status, services, memOk), link);
      var ps := PrimaryList(w.payload);
      Outcome(w.ret, if w.ret == NoError && uuid.Some? then Stamp(ps, uuid.value, PrimaryWithUuid) else ps, w.dev, true)
  }

  /** What the server's answer to a primary discovery makes of the list:
      a failed status, an empty answer, a failed allocation and success. */
  lemma GetAllPrimaryAnswered(dev: DeviceContext, uuid: Option<string>, link: Link, status: Byte,
                              services: seq<GattPrimary>, ranges: seq<AttRange>, memOk: bool, k: nat)
    requires Gate(dev).None? && link.accepts && AnsweredAt(link, k)
    ensures var r := GetAllPrimary(dev, uuid, link, status, services, ranges, memOk);
      var count := if uuid.Some? then |ranges| else |services|;
      && r.dev == dev && r.sent
      && r.err == (if status != 0 then RequestFailError else if count > 0 && !memOk then MallocError else NoError)
      && (status == 0 && memOk && uuid.None? ==> r.value == FromGattPrimaries(services))
      && (status == 0 && memOk && uuid.Some? ==>
            |r.value| == |ranges|
            && forall i :: 0 <= i < |ranges| ==>
                 r.value[i] == Primary(uuid.value, false, ranges[i].start, ranges[i].end))
      && (status != 0 || !memOk ==> r.value == [])
  {
    var s := Fresh(dev, 0);
    if uuid.Some? {
      AwaitAnswered(s, PrimaryByUuidCb(s, status, ranges, memOk), PrimaryByUuidCb(Reset(s), status, ranges, memOk), link, k);
    } else {
      AwaitAnswered(s, PrimaryAllCb(s, status, services, memOk), PrimaryAllCb(Reset(s), status, services, memOk), link, k);
    }
  }

  /** A discovery nobody answers times out, returns nothing and leaves the
      device disconnected. */
  lemma GetAllPrimarySilent(dev: DeviceContext, uuid: Option<string>, link: Link, status: Byte,
                            services: seq<GattPrimary>, ranges: seq<AttRange>, memOk: bool)
    requires Gate(dev).None? && link.accepts && Silent(link)
    ensures var r := GetAllPrimary(dev, uuid, link, status, services, ranges, memOk);
      r.err == NoCallbackError && r.value == [] && r.dev == SetConnState(dev, Disconnected)
  {
    var s := Fresh(dev, 0);
    if uuid.Some? {
      AwaitSilent(s, PrimaryByUuidCb(s, status, ranges, memOk), PrimaryByUuidCb(Reset(s), status, ranges, memOk), link);
    } else {
      AwaitSilent(s, PrimaryAllCb(s, status, services, memOk), PrimaryAllCb(Reset(s), status, services, memOk), link);
    }
  }

  /** bl_get_primary: the primary service of that UUID, if it is unique. */
  function GetPrimary(dev: DeviceContext, uuid: Option<string>, link: Link, status: Byte,
                      services: seq<GattPrimary>, ranges: seq<AttRange>, memOk: bool, cpyOk: bool): (r: Outcome<Option<Primary>>)
    ensures var all := GetAllPrimary(dev, uuid, link, status, services, ranges, memOk);
      && r.dev == all.dev && r.sent == all.sent
      && (all.err != NoError ==> r.err == all.err && r.value.None?)
      && (all.err == NoError ==> (r.err == UnicityError <==> |all.value| > 1))
      && (r.value.Some? <==> all.err == NoError && |all.value| == 1 && cpyOk)
      && (r.value.Some? ==> r.value.value == all.value[0])
  {
    Unique(GetAllPrimary(dev, uuid, link, status, services, ranges, memOk), cpyOk)
  }

  /** A UUID the server finds in exactly one handle range gives that range. */
  lemma GetPrimaryFound(dev: DeviceContext, u: string, link: Link, range: AttRange, k: nat)
    requires Gate(dev).None? && link.accepts && AnsweredAt(link, k)
    ensures GetPrimary(dev, Some(u), link, 0, [], [range], true, true)
         == Outcome(NoError, Some(Primary(u, false, range.start, range.end)), dev, true)
  {
    GetAllPrimaryAnswered(dev, Some(u), link, 0, [], [range], true, k);
  }

  /** Two handle ranges for one UUID is a unicity error. */
  lemma GetPrimaryNotUnique(dev: DeviceContext, u: string, link: Link, r1: AttRange, r2: AttRange, k: nat)
    requires Gate(dev).None? && link.accepts && AnsweredAt(link, k)
    ensures GetPrimary(dev, Some(u), link, 0, [], [r1, r2], true, true) == Outcome(UnicityError, None, dev, true)
  {
    GetAllPrimaryAnswered(dev, Some(u), link, 0, [], [r1, r2], true, k);
  }

  // ---------------------------------------------------------------------
  // Included services and characteristics
  // ---------------------------------------------------------------------

  /** bl_get_included: the included services within the primary service's
      range, or the whole handle space. */
  function GetIncluded(dev: DeviceContext, primary: Option<Primary>, link: Link, status: Byte,
                       includes: seq<GattIncluded>, memOk: bool): (r: Outcome<seq<Included>>)
    ensures Gate(dev).Some? ==> r == Refused(Gate(dev).value, [], dev)
    ensures Gate(dev).None? && ResolveRange(primary).Fail? ==> r == Refused(ResolveRange(primary).code, [], dev)
    ensures Gate(dev).None? && ResolveRange(primary).Ok? ==> (r.sent <==> link.accepts)
    ensures Gate(dev).None? && ResolveRange(primary).Ok? && !link.accepts ==> r == Refused(SendRequestError, [], dev)
    ensures r.value != [] ==> r.err == NoError
    ensures r.value == [] || r.value == FromGattIncludes(includes)
    ensures r.dev == dev || r.dev == SetConnState(dev, Disconnected)
  {
    if Gate(dev).Some? then Refused(Gate(dev).value, [], dev)
    else match ResolveRange(primary)
      case Fail(code) => Refused(code, [], dev)
      case Ok(range) =>
        if !link.accepts then Refused(SendRequestError, [], dev)
        else
          var s := Fresh(dev, range.end);
          var w := Await(s, IncludedCb(s, status, includes, memOk), IncludedCb(Reset(s), status, includes, memOk), link);
          Outcome(w.ret, IncludeList(w.payload), w.dev, true)
  }

  lemma GetIncludedAnswered(dev: DeviceContext, primary: Option<Primary>, link: Link, status: Byte,
                            includes: seq<GattIncluded>, memOk: bool, k: nat)
    requires Gate(dev).None? && ResolveRange(primary).Ok? && link.accepts && AnsweredAt(link, k)
    ensures var r := GetIncluded(dev, primary, link, status, includes, memOk);
      && r.dev == dev && r.sent
      && r.err == (if status != 0 then RequestFailError else if includes != [] && !memOk then MallocError else NoError)
      && r.value == (if status == 0 && memOk then FromGattIncludes(includes) else [])
  {
    var s := Fresh(dev, ResolveRange(primary).value.end);
    AwaitAnswered(s, IncludedCb(s, status, includes, memOk), IncludedCb(Reset(s), status, includes, memOk), link, k);
  }

  /** bl_get_all_char: the characteristics of the range, all of them or
      those of one UUID (the filtering is the server's). */
  function GetAllChar(dev: DeviceContext, uuid: Option<string>, primary: Option<Primary>, link: Link,
                      status: Byte, chars: seq<GattChar>, memOk: bool): (r: Outcome<seq<Characteristic>>)
    ensures Gate(dev).Some? ==> r == Refused(Gate(dev).value, [], dev)
    ensures Gate(dev).None? && ResolveRange(primary).Fail? ==> r == Refused(ResolveRange(primary).code, [], dev)
    ensures Gate(dev).None? && ResolveRange(primary).Ok? ==> (r.sent <==> link.accepts)
    ensures Gate(dev).None? && ResolveRange(primary).Ok? && !link.accepts ==> r == Refused(SendRequestError, [], dev)
    ensures r.value != [] ==> r.err == NoError
    ensures r.value == [] || r.value == FromGattChars(chars)
    ensures r.dev == dev || r.dev == SetConnState(dev, Disconnected)
  {
    if Gate(dev).Some? then Refused(Gate(dev).value, [], dev)
    else match ResolveRange(primary)
      case Fail(code) => Refused(code, [], dev)
      case Ok(range) =>
        if !link.accepts then Refused(SendRequestError, [], dev)
        else
          var s := Fresh(dev, range.end);
          var w := Await(s, CharByUuidCb(s, status, chars, memOk), CharByUuidCb(Reset(s), status, chars, memOk), link);
          Outcome(w.ret, CharList(w.payload), w.dev, true)
  }

  lemma GetAllCharAnswered(dev: DeviceContext, uuid: Option<string>, primary: Option<Primary>, link: Link,
                           status: Byte, chars: seq<GattChar>, memOk: bool, k: nat)
    requires Gate(dev).None? && ResolveRange(primary).Ok? && link.accepts && AnsweredAt(link, k)
    ensures var r := GetAllChar(dev, uuid, primary, link, status, chars, memOk);
      && r.dev == dev && r.sent
      && r.err == (if status != 0 then RequestFailError else if chars != [] && !memOk then MallocError else NoError)
      && r.value == (if status == 0 && memOk then FromGattChars(chars) else [])
  {
    var s := Fresh(dev, ResolveRange(primary).value.end);
    AwaitAnswered(s, CharByUuidCb(s, status, chars, memOk), CharByUuidCb(Reset(s), status, chars, memOk), link, k);
  }

  /** bl_get_char: the characteristic of that UUID, if it is unique. */
  function GetChar(dev: DeviceContext, uuid: Option<string>, primary: Option<Primary>, link: Link,
                   status: Byte, chars: seq<GattChar>, memOk: bool, cpyOk: bool): (r: Outcome<Option<Characteristic>>)
    ensures var all := GetAllChar(dev, uuid, primary, link, status, chars, memOk);
      && r.dev == all.dev && r.sent == all.sent
      && (all.err != NoError ==> r.err == all.err && r.value.None?)
      && (all.err == NoError ==> (r.err == UnicityError <==> |all.value| > 1))
      && (r.value.Some? <==> all.err == NoError && |all.value| == 1 && cpyOk)
      && (r.value.Some? ==> r.value.value == all.value[0])
  {
    Unique(GetAllChar(dev, uuid, primary, link, status, chars, memOk), cpyOk)
  }

  // ---------------------------------------------------------------------
  // Descriptors
  // ---------------------------------------------------------------------

  /** bl_get_all_desc_by_char: descriptor discovery between two
      characteristics, over the simulated attribute table `t` whose server
      answers at most `cap` entries at a time. `contOk` is whether the
      continuation requests the callback sends are accepted. The range end
      is handed to the callback (the source leaves end_handle_cb as the last
      handle_assert set it, see AsWritten.StaleEndHandle). */
  method GetAllDescByChar(dev: DeviceContext, startChar: Option<Characteristic>, endChar: Option<Characteristic>,
                          primary: Option<Primary>, link: Link, t: seq<CharDesc.Attribute>, cap: nat,
                          contOk: bool, memOk: bool) returns (r: Outcome<seq<Descriptor>>)
    requires CharDesc.ValidTable(t) && cap >= 1
    ensures Gate(dev).Some? ==> r == Refused(Gate(dev).value, [], dev)
    ensures Gate(dev).None? && DescRange(startChar, endChar, primary).Fail? ==>
      r == Refused(DescRange(startChar, endChar, primary).code, [], dev)
    ensures Gate(dev).None? && DescRange(startChar, endChar, primary).Ok? ==> (r.sent <==> link.accepts)
    ensures Gate(dev).None? && DescRange(startChar, endChar, primary).Ok? && !link.accepts ==>
      r == Refused(SendRequestError, [], dev)
    // a returned list comes with success and holds no declaration
    ensures r.value != [] ==> r.err == NoError
    ensures forall i :: 0 <= i < |r.value| ==> !CharDesc.IsDeclarationDesc(r.value[i])
    ensures r.dev == dev || r.dev == SetConnState(dev, Disconnected)
    // answered, with every continuation and allocation going through: the
    // descriptors of the range up to the first declaration, in handle order
    ensures Gate(dev).None? && DescRange(startChar, endChar, primary).Ok? && link.accepts
            && contOk && memOk && (exists k :: AnsweredAt(link, k)) ==>
      var range := DescRange(startChar, endChar, primary).value;
      && r.dev == dev
      && (range.start != 0 ==>
            r.value == CharDesc.UntilDeclaration(CharDesc.DescsOf(CharDesc.InRange(t, range.start, range.end)))
            && CharDesc.GoodDescs(r.value, range.start, range.end)
            // an empty range is the server's Attribute Not Found; a declaration
            // first leaves the code the wait's reset stored
            && r.err == (if r.value != [] then NoError
                         else if CharDesc.InRange(t, range.start, range.end) == [] then RequestFailError
                         else NoCallbackError))
      && (range.start == 0 ==> r.err == RequestFailError && r.value == [])
  {
    if Gate(dev).Some? {
      return Refused(Gate(dev).value, [], dev);
    }
    match DescRange(startChar, endChar, primary)
    case Fail(code) =>
      return Refused(code, [], dev);
    case Ok(range) =>
      if !link.accepts {
        return Refused(SendRequestError, [], dev);
      }
      r := AwaitDescs(dev, range, link, t, cap, contOk, memOk);
  }

  /** The request of bl_get_all_desc_by_char once the range is known: the
      discovery runs in the callback, and the wait hands back its list. */
  method AwaitDescs(dev: DeviceContext, range: HandleRange, link: Link, t: seq<CharDesc.Attribute>, cap: nat,
                    contOk: bool, memOk: bool) returns (r: Outcome<seq<Descriptor>>)
    requires CharDesc.ValidTable(t) && cap >= 1 && range.start <= range.end
    ensures r.sent
    ensures r.value != [] ==> r.err == NoError
    ensures forall i :: 0 <= i < |r.value| ==> !CharDesc.IsDeclarationDesc(r.value[i])
    ensures r.dev == dev || r.dev == SetConnState(dev, Disconnected)
    ensures contOk && memOk && (exists k :: AnsweredAt(link, k)) ==>
      && r.dev == dev
      && (range.start != 0 ==>
            r.value == CharDesc.UntilDeclaration(CharDesc.DescsOf(CharDesc.InRange(t, range.start, range.end)))
            && CharDesc.GoodDescs(r.value, range.start, range.end)
            // an empty range is the server's Attribute Not Found; a declaration
            // first leaves the code the wait's reset stored
            && r.err == (if r.value != [] then NoError
                         else if CharDesc.InRange(t, range.start, range.end) == [] then RequestFailError
                         else NoCallbackError))
      && (range.start == 0 ==> r.err == RequestFailError && r.value == [])
  {
    var s := Fresh(dev, range.end);
    var early := CharDesc.DiscoverDescs(s, t, range.start, cap, contOk, memOk);
    var fired := CharDesc.DiscoverDescs(Reset(s), t, range.start, cap, contOk, memOk);
    var w := Await(s, early, fired, link);
    r := Outcome(w.ret, DescList(w.payload), w.dev, true);
    if contOk && memOk && exists k :: AnsweredAt(link, k) {
      var k :| AnsweredAt(link, k);
      AwaitAnswered(s, early, fired, link, k);
      CharDesc.ReferenceIsGood(t, range.start, range.end);
    }
  }

  /** The end of bl_get_desc_by_char: an error from the discovery, or an
      empty list, gives nothing; otherwise find_desc picks the last
      descriptor whose UUID is the lowered query. The code is always the
      discovery's. */
  method PickDesc(all: Outcome<seq<Descriptor>>, query: string, cpyOk: bool) returns (r: Outcome<Option<Descriptor>>)
    requires all.value != [] ==> all.err == NoError
    ensures r.err == all.err && r.dev == all.dev && r.sent == all.sent
    ensures r.value == (if all.err == NoError && cpyOk && LastMatch(all.value, Lowcase(query)).Some?
                        then Some(all.value[LastMatch(all.value, Lowcase(query)).value]) else None)
  {
    if all.err != NoError || all.value == [] {
      return Outcome(all.err, None, all.dev, all.sent);
    }
    var d := FindDesc(all.value, query, cpyOk);
    r := Outcome(NoError, d, all.dev, all.sent);
  }

  /** bl_get_desc_by_char: the descriptor of that UUID (in either case)
      among those of the characteristic; the last one when there are
      several. */
  method GetDescByChar(dev: DeviceContext, startChar: Option<Characteristic>, endChar: Option<Characteristic>,
                       primary: Option<Primary>, query: string, link: Link, t: seq<CharDesc.Attribute>, cap: nat,
                       contOk: bool, memOk: bool, cpyOk: bool) returns (r: Outcome<Option<Descriptor>>)
    requires CharDesc.ValidTable(t) && cap >= 1
    ensures Gate(dev).Some? ==> r == Refused(Gate(dev).value, None, dev)
    ensures Gate(dev).None? && DescRange(startChar, endChar, primary).Fail? ==>
      r == Refused(DescRange(startChar, endChar, primary).code, None, dev)
    ensures Gate(dev).None? && DescRange(startChar, endChar, primary).Ok? && !link.accepts ==>
      r == Refused(SendRequestError, None, dev)
    ensures r.value.Some? ==> r.err == NoError && r.value.value.uuid == Lowcase(query)
    ensures r.dev == dev || r.dev == SetConnState(dev, Disconnected)
    // answered, with every continuation and allocation going through: the
    // last descriptor of the characteristic with that UUID, found iff
    // present and copied, under the discovery's code
    ensures Gate(dev).None? && DescRange(startChar, endChar, primary).Ok? && link.accepts
            && contOk && memOk && (exists k :: AnsweredAt(link, k)) ==>
      var range := DescRange(startChar, endChar, primary).value;
      var ds := CharDesc.UntilDeclaration(CharDesc.DescsOf(CharDesc.InRange(t, range.start, range.end)));
      && r.dev == dev
      && (range.start != 0 ==>
            && r.value == (if cpyOk && LastMatch(ds, Lowcase(query)).Some?
                           then Some(ds[LastMatch(ds, Lowcase(query)).value]) else None)
            && r.err == (if ds != [] then NoError
                         else if CharDesc.InRange(t, range.start, range.end) == [] then RequestFailError
                         else NoCallbackError))
      && (range.start == 0 ==> r.err == RequestFailError && r.value.None?)
  {
    var all := GetAllDescByChar(dev, startChar, endChar, primary, link, t, cap, contOk, memOk);
    r := PickDesc(all, query, cpyOk);
  }
}

=== FILE: gatt.dfy ===
/** The attribute records handed to callers (include/bluelib_gatt.h) and
    their constructors and copies (src/bluelib_gatt.c). A record is a value
    here; allocation failure is the `memOk == false` branch, and a NULL
    record pointer is `None`. The payload length `data_size` of a value is
    the length of its `data`. */
module Gatt {
  import opened BlDefs

  datatype Primary = Primary(uuid: string, changed: bool, startHandle: Handle, endHandle: Handle)
  datatype Included = Included(uuid: string, handle: Handle, startHandle: Handle, endHandle: Handle)
  datatype Characteristic = Characteristic(uuid: string, handle: Handle, properties: Byte, valueHandle: Handle)
  datatype Descriptor = Descriptor(uuid: string, handle: Handle)
  datatype Value = Value(uuid: string, handle: Handle, data: seq<Byte>)

  /** The `strcpy` into a record's `uuid_str`. */
  function PrimaryWithUuid(p: Primary, u: string): Primary { p.(uuid := u) }
  function ValueWithUuid(v: Value, u: string): Value { v.(uuid := u) }

  /** A NULL UUID string is stored as the empty string. */
  function UuidOrEmpty(uuid: Option<string>): string
  {
    match uuid
    case None => ""
    case Some(u) => u
  }

  function PrimaryNew(uuid: Option<string>, changed: bool, start: Handle, end: Handle, memOk: bool): (r: Option<Primary>)
    ensures r.None? <==> !memOk
    ensures r.Some? ==> r.value.uuid == UuidOrEmpty(uuid) && r.value.changed == changed
    ensures r.Some? ==> r.value.startHandle == start && r.value.endHandle == end
  {
    if memOk then Some(Primary(UuidOrEmpty(uuid), changed, start, end)) else None
  }

  function IncludedNew(uuid: Option<string>, handle: Handle, start: Handle, end: Handle, memOk: bool): (r: Option<Included>)
    ensures r.None? <==> !memOk
    ensures r.Some? ==> r.value.uuid == UuidOrEmpty(uuid) && r.value.handle == handle
    ensures r.Some? ==> r.value.startHandle == start && r.value.endHandle == end
  {
    if memOk then Some(Included(UuidOrEmpty(uuid), handle, start, end)) else None
  }

  function CharNew(uuid: Option<string>, handle: Handle, properties: Byte, valueHandle: Handle, memOk: bool): (r: Option<Characteristic>)
    ensures r.None? <==> !memOk
    ensures r.Some? ==> r.value.uuid == UuidOrEmpty(uuid) && r.value.handle == handle
    ensures r.Some? ==> r.value.properties == properties && r.value.valueHandle == valueHandle
  {
    if memOk then Some(Characteristic(UuidOrEmpty(uuid), handle, properties, valueHandle)) else None
  }

  function DescNew(uuid: Option<string>, handle: Handle, memOk: bool): (r: Option<Descriptor>)
    ensures r.None? <==> !memOk
    ensures r.Some? ==> r.value.uuid == UuidOrEmpty(uuid) && r.value.handle == handle
  {
    if memOk then Some(Descriptor(UuidOrEmpty(uuid), handle)) else None
  }

  /** The payload is the first `dataSize` bytes of the caller's buffer,
      which must hold at least that many. */
  function ValueNew(uuid: Option<string>, handle: Handle, dataSize: nat, data: seq<Byte>, memOk: bool): (r: Option<Value>)
    requires dataSize <= |data|
    ensures r.None? <==> !memOk
    ensures r.Some? ==> r.value.uuid == UuidOrEmpty(uuid) && r.value.handle == handle
    ensures r.Some? ==> |r.value.data| == dataSize
    ensures r.Some? ==> forall i :: 0 <= i < dataSize ==> r.value.data[i] == data[i]
  {
    if memOk then Some(Value(UuidOrEmpty(uuid), handle, data[..dataSize])) else None
  }

  // Copies: NULL gives NULL; otherwise a new record rebuilt field by field.

  function PrimaryCpy(p: Option<Primary>, memOk: bool): (r: Option<Primary>)
    ensures p.None? ==> r.None?
    ensures p.Some? && memOk ==> r == p
    ensures !memOk ==> r.None?
  {
    match p
    case None => None
    case Some(x) => PrimaryNew(Some(x.uuid), x.changed, x.startHandle, x.endHandle, memOk)
  }

  function IncludedCpy(p: Option<Included>, memOk: bool): (r: Option<Included>)
    ensures p.None? ==> r.None?
    ensures p.Some? && memOk ==> r == p
    ensures !memOk ==> r.None?
  {
    match p
    case None => None
    case Some(x) => IncludedNew(Some(x.uuid), x.handle, x.startHandle, x.endHandle, memOk)
  }

  function CharCpy(p: Option<Characteristic>, memOk: bool): (r: Option<Characteristic>)
    ensures p.None? ==> r.None?
    ensures p.Some? && memOk ==> r == p
    ensures !memOk ==> r.None?
  {
    match p
    case None => None
    case Some(x) => CharNew(Some(x.uuid), x.handle, x.properties, x.valueHandle, memOk)
  }

  function DescCpy(p: Option<Descriptor>, memOk: bool): (r: Option<Descriptor>)
    ensures p.None? ==> r.None?
    ensures p.Some? && memOk ==> r == p
    ensures !memOk ==> r.None?
  {
    match p
    case None => None
    case Some(x) => DescNew(Some(x.uuid), x.handle, memOk)
  }

  /** The payload is copied in full (a deep copy: equal bytes, same size). */
  function ValueCpy(p: Option<Value>, memOk: bool): (r: Option<Value>)
    ensures p.None? ==> r.None?
    ensures p.Some? && memOk ==> r == p
    ensures !memOk ==> r.None?
  {
    match p
    case None => None
    case Some(x) =>
      assert x.data[..|x.data|] == x.data;
      ValueNew(Some(x.uuid), x.handle, |x.data|, x.data, memOk)
  }
}

=== FILE: notif.dfy ===
/** Notification and indication subscriptions (src/notif.c). The
    attribute channel's handler table is the device context's
    `notifRegistry`, a map from characteristic UUID to the opcode and value
    handle the handler listens for. Subscribing writes the characteristic's
    Client Characteristic Configuration descriptor (UUID 2902, section
    3.3.3.3 of the Generic Attribute Profile, Vol 3 Part G of the Bluetooth
    Core specification, v4.0). */
module Notif {
  import opened BlDefs
  import opened Gatt
  import opened ConnState
  import opened BlueLib
  import Att
  import Access
  import CharDesc
  import Discovery

  /** GATT_CLIENT_CHARAC_CFG_UUID_STR */
  const CccdUuid := "2902"
  /** The configuration bits of the descriptor: notifications, indications. */
  const CccdNotifyBit: Handle := 0x0001
  const CccdIndicateBit: Handle := 0x0002

  /** The code a refused subscription returns, by the opcode asked for. */
  function CapabilityError(opcode: Byte): int
  {
    if opcode == OpHandleInd then NotIndicableError else NotNotifiableError
  }

  /** The characteristic can deliver what `opcode` asks for (section
      3.3.1.1 of the Generic Attribute Profile: the Notify and Indicate
      property bits); other opcodes are not checked. */
  predicate Capable(ch: Characteristic, opcode: Byte)
  {
    && (opcode == OpHandleNotify ==> HasProperty(ch.properties, PropNotify))
    && (opcode == OpHandleInd ==> HasProperty(ch.properties, PropIndicate))
  }

  /** The descriptor value that turns the delivery on. */
  function CccdValue(opcode: Byte): (v: seq<Byte>)
    ensures |v| == 2
  {
    Att.PutLeU16(if opcode == OpHandleInd then CccdIndicateBit else CccdNotifyBit)
  }

  /** What a subscription did: the code, the device context afterwards, and
      the configuration write it made (descriptor handle and bytes). */
  datatype Subscription = Subscription(err: int, dev: DeviceContext, written: Option<(Handle, seq<Byte>)>)

  /** bl_add_notif_by_char. `cccd` is what looking up descriptor 2902 of the
      characteristic returned (Discovery.GetDescByChar); the configuration
      write is Access.WriteDescByDesc over `link`; `regOk` is whether
      g_attrib_register could allocate the handler. */
  function AddNotifByChar(dev: DeviceContext, ch: Option<Characteristic>, opcode: Byte,
                          cccd: Outcome<Option<Descriptor>>, link: Link, status: Byte,
                          isWriteResp: bool, isExecWriteResp: bool, regOk: bool): (r: Subscription)
    requires cccd.dev == dev || cccd.dev == SetConnState(dev, Disconnected)
    // capability refusals come before any lookup or write
    ensures ch.None? || !Capable(ch.value, opcode) ==> r == Subscription(CapabilityError(opcode), dev, None)
    // whatever is written is the configuration value for the opcode, 2 bytes little-endian
    ensures r.written.Some? ==> r.written.value.1 == CccdValue(opcode)
    ensures r.written.Some? ==> Att.GetLeU16(r.written.value.1) == (if opcode == OpHandleInd then 2 else 1)
    // a subscription registers exactly one handler, and only on success
    ensures r.err == NoError ==>
      r.dev.notifRegistry == dev.notifRegistry[ch.value.uuid := Registration(opcode, ch.value.valueHandle)]
    ensures r.err != NoError ==> r.dev.notifRegistry == dev.notifRegistry
    // a failed descriptor lookup returns the lookup's own code
    ensures ch.Some? && Capable(ch.value, opcode) && cccd.err != NoError ==>
      r == Subscription(cccd.err, cccd.dev, None)
    ensures ch.Some? && Capable(ch.value, opcode) && cccd.err == NoError && cccd.value.None? ==>
      r.err == CapabilityError(opcode) && r.written.None?
    // with the descriptor found: a write is recorded iff it went out; a
    // refused write is the capability error, a failed registration
    // BL_MALLOC_ERROR
    ensures ch.Some? && Capable(ch.value, opcode) && cccd.err == NoError && cccd.value.Some? ==>
      var w := Access.WriteDescByDesc(cccd.dev, cccd.value.value, Some(CccdValue(opcode)), 2, link, status,
                                      isWriteResp, isExecWriteResp);
      && (r.written.Some? <==> w.sent)
      && (r.written.Some? ==> r.written.value.0 == cccd.value.value.handle)
      && (w.err != NoError ==> r.err == CapabilityError(opcode))
      && (w.err == NoError ==> r.err == (if regOk then NoError else MallocError))
  {
    if ch.None? || !Capable(ch.value, opcode) then Subscription(CapabilityError(opcode), dev, None)
    else if cccd.err != NoError then Subscription(cccd.err, cccd.dev, None)
    else if cccd.value.None? then Subscription(CapabilityError(opcode), cccd.dev, None)
    else
      var d := cccd.value.value;
      var bytes := CccdValue(opcode);
      var w := Access.WriteDescByDesc(cccd.dev, d, Some(bytes), 2, link, status, isWriteResp, isExecWriteResp);
      var written := if w.sent then Some((d.handle, bytes)) else None;
      if w.err != NoError then Subscription(CapabilityError(opcode), w.dev, written)
      else if !regOk then Subscription(MallocError, w.dev, written)
      else
        var reg := w.dev.notifRegistry[ch.value.uuid := Registration(opcode, ch.value.valueHandle)];
        Subscription(NoError, w.dev.(notifRegistry := reg), written)
  }

  /** The configuration value is 0x0002 for an indication and 0x0001 for
      a notification. */
  lemma CccdValues()
    ensures CccdValue(OpHandleInd) == [2, 0]
    ensures CccdValue(OpHandleNotify) == [1, 0]
  {
  }

  /** A capable characteristic with a descriptor 2902 that accepts the
      write is subscribed. */
  lemma AddNotifByCharSucceeds(dev: DeviceContext, ch: Characteristic, opcode: Byte, d: Descriptor,
                               link: Link, k: nat)
    requires Gate(dev).None? && Capable(ch, opcode) && d.handle != InvalidHandle
    requires link.accepts && AnsweredAt(link, k)
    ensures var r := AddNotifByChar(dev, Some(ch), opcode, Outcome(NoError, Some(d), dev, true), link, 0, true, false, true);
      && r.err == NoError && r.written == Some((d.handle, CccdValue(opcode)))
      && r.dev == dev.(notifRegistry := dev.notifRegistry[ch.uuid := Registration(opcode, ch.valueHandle)])
  {
    Access.WriteByHndAnswered(dev, d.handle, Some(CccdValue(opcode)), 2, link, 0, true, false, k);
  }

  /** The configuration write of a subscription: the enable value for
      `opcode`, 2 bytes, to descriptor `d`. */
  function CccdWrite(dev: DeviceContext, d: Descriptor, opcode: Byte, link: Link, status: Byte,
                     isWriteResp: bool, isExecWriteResp: bool): Outcome<()>
  {
    Access.WriteDescByDesc(dev, d, Some(CccdValue(opcode)), 2, link, status, isWriteResp, isExecWriteResp)
  }

  /** The descriptor 2902 a lookup that saw `ds` returns: the last one. */
  function FoundCccd(ds: seq<Descriptor>): (d: Option<Descriptor>)
    ensures d.Some? ==> d.value.uuid == CccdUuid && d.value in ds
    ensures d.None? <==> forall j :: 0 <= j < |ds| ==> ds[j].uuid != CccdUuid
  {
    var i := LastMatch(ds, CccdUuid);
    if i.Some? then Some(ds[i.value]) else None
  }

  /** A lookup of descriptor 2902 between `ch` and `endChar` that goes out
      and is answered, with every continuation, allocation and copy going
      through, over a range that does not start at the reserved handle. */
  ghost predicate LookupAnswered(dev: DeviceContext, ch: Option<Characteristic>, endChar: Option<Characteristic>,
                                 primary: Option<Primary>, lookup: Link, contOk: bool, memOk: bool, cpyOk: bool)
  {
    && Gate(dev).None? && DescRange(ch, endChar, primary).Ok? && DescRange(ch, endChar, primary).value.start != 0
    && lookup.accepts && contOk && memOk && cpyOk && exists k :: AnsweredAt(lookup, k)
  }

  /** The descriptors such a lookup sees: those of the range, up to the
      next characteristic declaration. */
  function LookupDescs(t: seq<CharDesc.Attribute>, range: HandleRange): seq<Descriptor>
    requires CharDesc.ValidTable(t)
  {
    CharDesc.UntilDeclaration(CharDesc.DescsOf(CharDesc.InRange(t, range.start, range.end)))
  }

  /** bl_add_notif_by_char with its descriptor lookup: the capability
      check, then Discovery.GetDescByChar for descriptor 2902 between `ch`
      and `endChar` (answered over `lookup` from the attribute table `t`),
      then AddNotifByChar with what the lookup returned. An answered lookup
      that finds the descriptor makes the configuration write go to that
      descriptor; one that finds none writes nothing. */
  method AddNotifByCharLookup(dev: DeviceContext, ch: Option<Characteristic>, endChar: Option<Characteristic>,
                              primary: Option<Primary>, opcode: Byte, lookup: Link, t: seq<CharDesc.Attribute>,
                              cap: nat, contOk: bool, memOk: bool, cpyOk: bool, link: Link, status: Byte,
                              isWriteResp: bool, isExecWriteResp: bool, regOk: bool) returns (r: Subscription)
    requires CharDesc.ValidTable(t) && cap >= 1
    ensures ch.None? || !Capable(ch.value, opcode) ==> r == Subscription(CapabilityError(opcode), dev, None)
    // on every path: whatever is written is the enable value, and a failed
    // subscription leaves the handlers as they were
    ensures r.written.Some? ==> r.written.value.1 == CccdValue(opcode)
    ensures r.err != NoError ==> r.dev.notifRegistry == dev.notifRegistry
    // a lookup refused before sending returns its code and writes nothing
    ensures ch.Some? && Capable(ch.value, opcode) && Gate(dev).Some? ==>
      r == Subscription(Gate(dev).value, dev, None)
    ensures ch.Some? && Capable(ch.value, opcode) && Gate(dev).None? && DescRange(ch, endChar, primary).Fail? ==>
      r == Subscription(DescRange(ch, endChar, primary).code, dev, None)
    ensures ch.Some? && Capable(ch.value, opcode) && Gate(dev).None? && DescRange(ch, endChar, primary).Ok?
            && !lookup.accepts ==>
      r == Subscription(SendRequestError, dev, None)
    // an answered lookup: the enable value goes to the last descriptor 2902
    // of the characteristic, if there is one and the write goes out
    ensures ch.Some? && Capable(ch.value, opcode) && LookupAnswered(dev, ch, endChar, primary, lookup, contOk, memOk, cpyOk) ==>
      var d := FoundCccd(LookupDescs(t, DescRange(ch, endChar, primary).value));
      r.written == (if d.Some? && CccdWrite(dev, d.value, opcode, link, status, isWriteResp, isExecWriteResp).sent
                    then Some((d.value.handle, CccdValue(opcode))) else None)
    // its code, one code per outcome: the subscription succeeds iff the
    // descriptor is found, written and the handler registered
    ensures ch.Some? && Capable(ch.value, opcode) && LookupAnswered(dev, ch, endChar, primary, lookup, contOk, memOk, cpyOk) ==>
      var d := FoundCccd(LookupDescs(t, DescRange(ch, endChar, primary).value));
      (r.err == NoError <==>
         d.Some? && CccdWrite(dev, d.value, opcode, link, status, isWriteResp, isExecWriteResp).err == NoError && regOk)
    // BL_MALLOC_ERROR iff only the registration failed
    ensures ch.Some? && Capable(ch.value, opcode) && LookupAnswered(dev, ch, endChar, primary, lookup, contOk, memOk, cpyOk) ==>
      var d := FoundCccd(LookupDescs(t, DescRange(ch, endChar, primary).value));
      (r.err == MallocError <==>
         d.Some? && CccdWrite(dev, d.value, opcode, link, status, isWriteResp, isExecWriteResp).err == NoError && !regOk)
    // the capability error iff descriptors were found but none is 2902, or
    // the write failed
    ensures ch.Some? && Capable(ch.value, opcode) && LookupAnswered(dev, ch, endChar, primary, lookup, contOk, memOk, cpyOk) ==>
      var ds := LookupDescs(t, DescRange(ch, endChar, primary).value);
      (r.err == CapabilityError(opcode) <==>
         (FoundCccd(ds).None? && ds != []) ||
         (FoundCccd(ds).Some? &&
          CccdWrite(dev, FoundCccd(ds).value, opcode, link, status, isWriteResp, isExecWriteResp).err != NoError))
    // the discovery's own code iff it found no descriptor at all
    ensures ch.Some? && Capable(ch.value, opcode) && LookupAnswered(dev, ch, endChar, primary, lookup, contOk, memOk, cpyOk) ==>
      var range := DescRange(ch, endChar, primary).value;
      (r.err == RequestFailError <==> CharDesc.InRange(t, range.start, range.end) == [])
    ensures ch.Some? && Capable(ch.value, opcode) && LookupAnswered(dev, ch, endChar, primary, lookup, contOk, memOk, cpyOk) ==>
      var range := DescRange(ch, endChar, primary).value;
      (r.err == NoCallbackError <==>
         LookupDescs(t, range) == [] && CharDesc.InRange(t, range.start, range.end) != [])
    // the handler is registered exactly on success
    ensures ch.Some? && Capable(ch.value, opcode) && LookupAnswered(dev, ch, endChar, primary, lookup, contOk, memOk, cpyOk) ==>
      r.dev.notifRegistry == (if r.err == NoError then dev.notifRegistry[ch.value.uuid := Registration(opcode, ch.value.valueHandle)]
                              else dev.notifRegistry)
  {
    var cccd: Outcome<Option<Descriptor>> := Outcome(NoError, None, dev, false);
    if ch.Some? && Capable(ch.value, opcode) {
      LowcaseKeeps(CccdUuid);
      cccd := Discovery.GetDescByChar(dev, ch, endChar, primary, CccdUuid, lookup, t, cap, contOk, memOk, cpyOk);
      if LookupAnswered(dev, ch, endChar, primary, lookup, contOk, memOk, cpyOk) {
        var range := DescRange(ch, endChar, primary).value;
        var ds := LookupDescs(t, range);
        assert cccd.dev == dev && cccd.value == FoundCccd(ds);
        assert cccd.err == (if ds != [] then NoError
                            else if CharDesc.InRange(t, range.start, range.end) == [] then RequestFailError
                            else NoCallbackError);
      }
    }
    r := AddNotifByChar(dev, ch, opcode, cccd, link, status, isWriteResp, isExecWriteResp, regOk);
  }

  /** bl_add_notif: after the characteristic lookup (`charLookup`, what
      Discovery.GetChar returned for `uuid`), any handler registered under
      that UUID is dropped, then the characteristic is subscribed. */
  function AddNotif(dev: DeviceContext, uuid: string, charLookup: Outcome<Option<Characteristic>>, opcode: Byte,
                    cccd: Outcome<Option<Descriptor>>, link: Link, status: Byte,
                    isWriteResp: bool, isExecWriteResp: bool, regOk: bool): (r: Subscription)
    requires charLookup.dev == dev || charLookup.dev == SetConnState(dev, Disconnected)
    requires cccd.dev == charLookup.dev.(notifRegistry := charLookup.dev.notifRegistry - {uuid})
          || cccd.dev == SetConnState(charLookup.dev.(notifRegistry := charLookup.dev.notifRegistry - {uuid}), Disconnected)
    ensures charLookup.err != NoError ==> r == Subscription(charLookup.err, charLookup.dev, None)
    // the old handler of that UUID is gone whatever happens next
    ensures charLookup.err == NoError && r.err != NoError ==> r.dev.notifRegistry == dev.notifRegistry - {uuid}
    ensures r.err == NoError ==>
      charLookup.value.Some?
      && r.dev.notifRegistry == (dev.notifRegistry - {uuid})[charLookup.value.value.uuid :=
           Registration(opcode, charLookup.value.value.valueHandle)]
  {
    if charLookup.err != NoError then Subscription(charLookup.err, charLookup.dev, None)
    else
      var d := charLookup.dev.(notifRegistry := charLookup.dev.notifRegistry - {uuid});
      AddNotifByChar(d, charLookup.value, opcode, cccd, link, status, isWriteResp, isExecWriteResp, regOk)
  }

  /** Subscribing a characteristic by the UUID it is listed under replaces
      its registration: at most one handler per UUID. */
  lemma AddNotifReplaces(dev: DeviceContext, ch: Characteristic, opcode: Byte,
                         cccd: Outcome<Option<Descriptor>>, link: Link, status: Byte,
                         isWriteResp: bool, isExecWriteResp: bool)
    requires cccd.dev == dev.(notifRegistry := dev.notifRegistry - {ch.uuid})
    ensures var r := AddNotif(dev, ch.uuid, Outcome(NoError, Some(ch), dev, true), opcode, cccd, link, status,
                              isWriteResp, isExecWriteResp, true);
      && (r.err == NoError ==> r.dev.notifRegistry[ch.uuid] == Registration(opcode, ch.valueHandle))
      && (r.err == NoError ==> r.dev.notifRegistry.Keys == dev.notifRegistry.Keys + {ch.uuid})
      && (r.err != NoError ==> ch.uuid !in r.dev.notifRegistry)
  {
  }

  // ---------------------------------------------------------------------
  // Removal
  // ---------------------------------------------------------------------

  /** bl_remove_notif */
  function RemoveNotif(dev: DeviceContext, uuid: string): (r: Outcome<()>)
    ensures !dev.attrib ==> r == Outcome(DisconnectedError, (), dev, false)
    ensures dev.attrib ==> r.err == NoError && uuid !in r.dev.notifRegistry
    ensures dev.attrib ==> forall u :: u in dev.notifRegistry && u != uuid ==>
      u in r.dev.notifRegistry && r.dev.notifRegistry[u] == dev.notifRegistry[u]
    ensures r.dev.notifRegistry.Keys <= dev.notifRegistry.Keys
    ensures r.dev == dev.(notifRegistry := r.dev.notifRegistry)
  {
    if !dev.attrib then Outcome(DisconnectedError, (), dev, false)
    else Outcome(NoError, (), dev.(notifRegistry := dev.notifRegistry - {uuid}), false)
  }

  /** bl_remove_notif_by_char, looking the handler up by the
      characteristic's value handle, the handle it was registered with (the
      source looks it up by the declaration handle, see
      AsWritten.RemoveNotifByCharAsWritten). */
  function RemoveNotifByChar(dev: DeviceContext, ch: Characteristic): (r: Outcome<()>)
    ensures !dev.attrib ==> r == Outcome(DisconnectedError, (), dev, false)
    ensures dev.attrib ==> r.err == NoError
    ensures dev.attrib ==> forall u :: u in dev.notifRegistry ==>
      (u in r.dev.notifRegistry <==> dev.notifRegistry[u].valueHandle != ch.valueHandle)
    ensures forall u :: u in r.dev.notifRegistry ==> u in dev.notifRegistry && r.dev.notifRegistry[u] == dev.notifRegistry[u]
    ensures r.dev == dev.(notifRegistry := r.dev.notifRegistry)
  {
    if !dev.attrib then Outcome(DisconnectedError, (), dev, false)
    else Outcome(NoError, (), dev.(notifRegistry := WithoutHandle(dev.notifRegistry, ch.valueHandle)), false)
  }

  /** The registry without the handlers of value handle `h`. */
  function WithoutHandle(reg: map<string, Registration>, h: Handle): map<string, Registration>
  {
    map u | u in reg && reg[u].valueHandle != h :: reg[u]
  }

  /** bl_remove_all_notif */
  function RemoveAllNotif(dev: DeviceContext): (r: Outcome<()>)
    ensures !dev.attrib ==> r == Outcome(DisconnectedError, (), dev, false)
    ensures dev.attrib ==> r.err == NoError && r.dev.notifRegistry == map[]
    ensures r.dev == dev.(notifRegistry := r.dev.notifRegistry)
  {
    if !dev.attrib then Outcome(DisconnectedError, (), dev, false)
    else Outcome(NoError, (), dev.(notifRegistry := map[]), false)
  }

  /** Removing everything twice is removing it once. */
  lemma RemoveAllNotifIdempotent(dev: DeviceContext)
    ensures RemoveAllNotif(RemoveAllNotif(dev).dev) == RemoveAllNotif(dev)
  {
  }

  /** A subscription is undone by removing its characteristic, whether by
      UUID or by characteristic. */
  lemma SubscribeThenRemove(dev: DeviceContext, ch: Characteristic, opcode: Byte, d: Descriptor, link: Link, k: nat)
    requires Gate(dev).None? && dev.attrib && Capable(ch, opcode) && d.handle != InvalidHandle
    requires link.accepts && AnsweredAt(link, k)
    ensures var sub := AddNotifByChar(dev, Some(ch), opcode, Outcome(NoError, Some(d), dev, true), link, 0, true, false, true);
      && ch.uuid !in RemoveNotif(sub.dev, ch.uuid).dev.notifRegistry
      && ch.uuid !in RemoveNotifByChar(sub.dev, ch).dev.notifRegistry
  {
    AddNotifByCharSucceeds(dev, ch, opcode, d, link, k);
  }
}
